=== FILE: README.md ===
# judge — a Dafny model of the challenge judge

`judge` runs a contestant's program against a generated challenge and
scores it by wall-clock time. A challenge generator draws a batch of test
cases and records the expected answers. The judge then launches the
contestant's command, feeds it the cases, reads back its answers and
compares them with the recorded ones. On success it records the elapsed time.

Two plumbing styles are used:
- **Batch** (challenges 2331 and 2332): the cases reach the program in
  one go, on the command line or in a file, and a JSON array comes back.
- **Streaming** (challenges 2334, 2412 and 2414): the judge writes one
  case at a time to the program's standard input and reads a short reply
  from its standard output after each one.

After a successful run, `run` does three things:
- it hashes the submitted program file;
- it looks for an earlier score with the same hash under a different name, and reports that as a stolen submission;
- it stores the score and publishes a card, unless test mode is on.

The leaderboard shows each player's best score once. The command line
(`-n`, `-c`, `-t`, `-q`, `-C`, `-L`, `-a`, `-l`, `-p`, `-w`) selects
what to do. A settings file dates each challenge and names a prize language.

The model is pure Dafny: immutable datatypes and total functions, one
module per source file.

| module | models |
|---|---|
| `TestResults` | `TestResult` (Success / Fail / Stolen), the `Score` record, a run's outcome (result, Rust `Err`, or panic), and the shared tail of every run (time guard, then `check_answer`) |
| `OddOneOut`, `G2331`, `LegacyGenerator` | the "find the odd one out" cases, whose construction is shared by 2331, 2332 and the original `src/generator.rs` |
| `G2332`, `G2334`, `G2412`, `G2414` | the four newer challenges: case construction, `check_answer`, `run` |
| `Caesar` | the Caesar cipher that 2414 uses (letter rotation within each case) |
| `Process`, `Streaming` | a launched process as data; the 5-byte reply buffer and the per-reply parsing of the streaming challenges |
| `Json`, `Utf8`, `Text` | what the source gets from serde_json, `String::from_utf8`, `to_string`, `split`, `trim` and `parse::<uN>` |
| `Submission` | `src/run.rs`: hashing, plagiarism, dispatch of the result |
| `LegacyMain` | `run_sim` of `src/main.rs`, the original single-challenge judge |
| `Leaderboard` | `filter_unique_players` and `append_score` of `src/teams/card.rs` |
| `Config`, `Settings`, `Challenges` | argument parsing, challenge dates and prize, the challenge registry |

Randomness enters as explicit draws: the drawn values plus the swap indices of the shuffle. The contestant's
process enters as a function from command line to `Invocation`, or as a
`Child` holding its replies and elapsed time. The file digest, the
factorisation, the clock and the stored scores enter as parameters. What
the judge would write to the database or publish is returned as a list of
`Effect`s.

## Model

| member | source | states |
|---|---|---|
| Submission.HashedPath | src/run.rs:75-76 | the hashed path is the last space-separated word of the command: a suffix of it, free of spaces, preceded by a space unless it is the whole command |
| Submission.HashedPathIs | src/run.rs:75-76 | conversely, any space-free suffix preceded by a space (or equal to the whole command) is the path that gets hashed, so the path is uniquely determined |
| Submission.GetHash | src/run.rs:74-84 | succeeds exactly when the digest of that last word succeeds, and returns it; otherwise fails with "Failed to load file: " followed by the digest's error |
| Submission.Start | src/run.rs:18 | a new score carries the configured name, command and language, the program's hash and a zero time |
| Submission.FirstCopied | src/run.rs:92-96 | nothing is found exactly when no stored score has the same hash under another name; otherwise the earliest such stored score is returned |
| Submission.CheckForPlagiarism | src/run.rs:86-99 | only a success is examined, and a failure to read the store is passed on; a success becomes Stolen exactly when some stored score copies it, with the new score as thief and the first copied score as victim; otherwise the result is unchanged |
| Submission.OwnProgramIsNoCopy | src/run.rs:93 | re-submitting under one's own name is never flagged, whatever the hashes |
| Submission.Dispatch | src/run.rs:35-69 | a success is stored exactly when not in test mode, and its card is published exactly when publishing is on; a theft publishes a copy notice, naming thief and victim, exactly when not in test mode; a failure does nothing |
| Submission.TestModeLeavesNoTrace | src/run.rs:39-68 | with `-t` on the command line, whatever the result, nothing is stored or published |
| Submission.Submit | src/run.rs:9-72 | a hashing failure ends the run with its message, and an unknown challenge ends it without effects; a failed setup ends it with the setup's error; a judge that errs or panics ends it the same way; a result that ran is checked for plagiarism, a store failure ending the run, and otherwise dispatched by test mode and publish; every stored score copies no stored score and is stored outside test mode |
| Submission.OriginalSuccessStored | src/run.rs:32-52 | outside test mode, a judged Success whose hash no other player's stored score has is stored, and published exactly when asked for |
| Submission.CopiedSuccessAnnounced | src/run.rs:32-68 | outside test mode, a judged Success whose hash another player's stored score has ends with only the copy notice, naming the earliest such player |
| TestResults.Conclude | src/generator/g2412.rs:152-172 | a run over the u64 nanosecond range fails as too slow; otherwise it succeeds, with the elapsed time recorded, exactly when `check_answer` says correct, and panics exactly when `check_answer` aborts |
| OddOneOut.Swap | src/generator/g2331.rs:50 | a swap exchanges two positions, leaves every other position alone and keeps the multiset of values |
| OddOneOut.Shuffle | src/generator/g2331.rs:50 | the Fisher–Yates shuffle, driven by its swap indices, is a permutation: same length, same multiset |
| OddOneOut.Case | src/generator/g2331.rs:40-50 | a case has 2k+1 values and is a permutation of every drawn value twice plus the last one once more |
| OddOneOut.DoubledCount | src/generator/g2331.rs:43-48 | pushing every value twice gives each value an even count, twice its count among the draws |
| OddOneOut.UnshuffledCount | src/generator/g2331.rs:43-49 | before shuffling, each value's count is twice its draw count, plus one for the last drawn value |
| OddOneOut.AnswerIsOddOneOut | src/generator/g2331.rs:43-50 | a value occurs an odd number of times in the case exactly when it is the recorded answer |
| OddOneOut.CaseDrawnFrom | src/generator/g2331.rs:41-48 | every value in a case is one of that case's draws |
| OddOneOut.CaseInRange | src/generator/g2331.rs:41-48 | the case's length and its values stay within the bounds the draws were taken from |
| OddOneOut.Regenerate | src/generator/g2331.rs:35-54 | `count` new cases are made, one per draw; each answer is appended after the answers already held |
| OddOneOut.New | src/generator/g2331.rs:21-29 | a fresh generator holds exactly `count` cases and `count` answers, the i-th answer belonging to the i-th case |
| OddOneOut.NewOddOneOut | src/generator/g2331.rs:39-53 | in a fresh generator, the i-th answer is the only value occurring an odd number of times in the i-th case |
| OddOneOut.NewCaseShape | src/generator/g2331.rs:39-53 | in a fresh generator, each case's length, its values and its answer lie within the draw bounds |
| OddOneOut.CheckAnswer | src/generator/g2331.rs:64-68 | aborts with the malformed-JSON message exactly when the reply is not a JSON array of in-range integers, and otherwise is correct exactly when the parsed list equals the answers; the original judge's `check_answer` at src/generator.rs:60-64 is the same over `i32` |
| OddOneOut.CheckAnswerMeansEquality | src/generator/g2331.rs:64-68 | for any JSON layout of an integer list, the verdict is whether the list equals the recorded answers |
| G2331.NewCases | src/generator/g2331.rs:39-53 | with sizes and values in 1..=99 (`gen_range(1..100)`), every case has 3 to 199 values in that range and its answer is the odd one out |
| G2331.CheckAnswer | src/generator/g2331.rs:64-68 | aborts exactly when the reply is not an array of i32; otherwise it is correct exactly when the parsed array equals the answers |
| G2331.CheckAnswerMeansEquality | src/generator/g2331.rs:64-68 | any JSON layout of a list of i32 gets the verdict of list equality with the answers |
| LegacyGenerator.Generate | src/generator.rs:29-50 | the original generator builds the same odd-one-out cases, appends their answers to the ones it held, and returns a copy of the cases it stores |
| LegacyGenerator.NewOddOneOut | src/generator.rs:20-28 | after `new`, every recorded answer is the odd one out of its case |
| G2332.Count | src/generator/g2332.rs:32-35 | 100 cases in test mode, 10 000 otherwise |
| G2332.New | src/generator/g2332.rs:31-43 | a fresh generator holds `Count(test)` cases with as many answers |
| G2332.NewCases | src/generator/g2332.rs:63-82 | with sizes in MIN_SIZE..MAX_SIZE and byte values below 255, every case has 2k+1 entries in range, and the answer is its odd one out |
| G2332.CheckAnswer | src/generator/g2332.rs:92-95 | aborts exactly when the reply is not an array of u8; otherwise it is correct exactly when the parsed array equals the answers |
| G2332.PrintTestCase | src/generator/g2332.rs:45-55 | a non-empty printed case splits back, on commas, into the decimal rendering of each value, none empty |
| G2332.CaseCommand | src/generator/g2332.rs:110-113 | the command, a space, and the printed case, which splits back at its commas into the case's values |
| G2332.BaselineCommand | src/generator/g2332.rs:117-119 | the baseline command line is the case command line for the trivial case `0,1,1` |
| G2332.NonZero | src/generator/g2332.rs:141-146 | a failing exit is a Fail carrying standard error when that is UTF-8, and otherwise the invalid-UTF-8 error |
| G2332.RunCase | src/generator/g2332.rs:136-167 | per case, the checks run in the source's order: the baseline run (`0,1,1`) must start, succeed, give UTF-8 and print `0`, then the case run must start, succeed and give UTF-8; the case is answered exactly when all pass, with both times, and the first failing check decides the outcome |
| G2332.CaseResults | src/generator/g2332.rs:129-168 | one result per case, each from that case's baseline launch and its own command line |
| G2332.TallyOf | src/generator/g2332.rs:129-168 | the loop finishes exactly when every case was answered, collecting the outputs in order and summing both clocks; otherwise it stops at the first case that did not answer |
| G2332.Run | src/generator/g2332.rs:101-210 | needs a Success to start from; the first case that halts decides the outcome; a baseline slower than the whole run is an error; a net time over u64 fails as too slow; otherwise it panics exactly when the outputs joined with ", " are not a u8 array, and succeeds exactly when they parse to the answers, with the net time recorded |
| G2332.Conclusion | src/generator/g2332.rs:170-206 | after the loop, the first halted case decides, a baseline slower than the run is an error, a net time over u64 fails as too slow, and otherwise a panic means a malformed reply and a success means the outputs match the answers, with the net time recorded |
| G2332.Finish | src/generator/g2332.rs:176-205 | a halted tally is passed on; a slower baseline is an error; a net time over u64 fails as too slow; otherwise it panics exactly on a malformed reply and succeeds exactly when the outputs parse to the answers |
| G2332.HonestCase | src/generator/g2332.rs:136-167 | a program that prints each answer and a newline, with a baseline printing 0, answers that case with the answer's text |
| G2332.HonestTally | src/generator/g2332.rs:129-168 | for such a program, the loop finishes and the outputs are the answers, each followed by a newline |
| G2332.AnswersAccepted | src/generator/g2332.rs:190-199 | the newline-padded answers, joined with ", " and bracketed, are accepted by `check_answer` |
| G2332.HonestAccepted | src/generator/g2332.rs:129-199 | for such a program, the assembled reply passes `check_answer` |
| G2332.HonestRun | src/generator/g2332.rs:101-206 | such a program succeeds, with the candidate time minus the baseline time recorded |
| G2332.RunAccepted | src/generator/g2332.rs:176-205 | a finished tally whose net time fits in u64 and whose outputs pass `check_answer` concludes in success with that net time |
| G2332.FinishAccepted | src/generator/g2332.rs:176-205 | the same, stated on the tally alone |
| G2334.BadCharsApart | src/generator/g2334.rs:55-57 | the special characters are ASCII and never alphanumeric |
| Streaming.SampleCount | src/generator/g2334.rs:31-35 | the three streaming challenges share one count: 10 cases in test mode and 100 000 otherwise, and test mode can be read back from the count (g2412.rs:33-37 and g2414.rs:35-39 declare the same constants) |
| G2334.Hidden | src/generator/g2334.rs:65 | the hidden character is a special one |
| G2334.Place | src/generator/g2334.rs:67-73 | the insert position lies within the text; in test mode it is strictly inside |
| G2334.MakeCase | src/generator/g2334.rs:60-73 | a case is one character longer than the drawn text |
| G2334.CaseShape | src/generator/g2334.rs:59-76 | the case holds the hidden character at the insert position and is alphanumeric everywhere else, so it is the only special character present |
| G2334.Regenerate | src/generator/g2334.rs:51-79 | one case per draw, and the answer string lists each case's hidden character in order |
| G2334.New | src/generator/g2334.rs:31-43 | a fresh generator holds `SampleCount(test)` cases and an answer of that length |
| G2334.FindBadAt | src/generator/g2334.rs:183-191 | scanning a case for the first special character finds the one at the earliest special position |
| G2334.NewCases | src/generator/g2334.rs:178-191 | in a fresh generator, every case has TEST_SIZE+1 characters, a character is special exactly when it is the answer, and the scan finds the answer |
| G2334.CheckAnswer | src/generator/g2334.rs:89-97 | never aborts; correct exactly when the reply string equals the answer string |
| G2334.CaseBytesDecode | src/generator/g2334.rs:113-116 | the bytes written for a case are ASCII and decode back to the case |
| G2334.FirstBytes | src/generator/g2334.rs:141 | one character per case: the first byte of each reply |
| G2334.Run | src/generator/g2334.rs:103-164 | needs a Success; a reply shorter than two bytes fails as too few characters; otherwise, within u64 time, it succeeds exactly when the first bytes spell the answer, and records the elapsed time |
| G2334.HonestRun | src/generator/g2334.rs:130-160 | a program answering each case with its special character and a newline, in time, succeeds with its elapsed time |
| G2412.Regenerate | src/generator/g2412.rs:57-69 | the cases are the drawn u128 values, and each appended answer is the factor count of its case |
| G2412.New | src/generator/g2412.rs:33-45 | a fresh generator's i-th answer is the factor count of its i-th case |
| G2412.RegenerateTwice | src/generator/g2412.rs:57-69 | regenerating replaces the cases but appends answers, so afterwards there are twice as many answers as cases |
| G2412.PrintTestCase | src/generator/g2412.rs:47-49 | the printed case, trimmed and parsed as u128, is the case |
| G2412.CheckAnswer | src/generator/g2412.rs:79-88 | aborts exactly when the reply is not an array of u64; otherwise it is correct exactly when the parsed array equals the answers |
| G2412.Run | src/generator/g2412.rs:94-177 | needs a Success; it stops at the first reply that is too short, not UTF-8 or not a u32; once every reply is a number, within u64 time, it succeeds exactly when the numbers are the answers, recording the elapsed time; it never panics |
| G2412.HonestRun | src/generator/g2412.rs:121-172 | a program answering each case with its factor count (below 10 000) and a newline, in time, succeeds |
| G2412.HonestFrames | src/generator/g2412.rs:122-146 | such replies all read as numbers, and the numbers are the answers |
| G2414.RegenerateAsWritten | src/generator/g2414.rs:60-80 | as written, `regenerate` panics exactly when some shift is a multiple of 26; otherwise each answer is the text encrypted with the shift mod 26 |
| G2414.ZeroShiftPanics | src/generator/g2414.rs:71-74 | a drawn shift of 0 makes `regenerate` panic |
| G2414.Key | src/generator/g2414.rs:71-74 | the corrected key is one the cipher accepts and shifts by the same amount modulo 26 |
| G2414.Regenerate | src/generator/g2414.rs:60-80 | each case keeps its text and shift, and its answer is the text encrypted with the corrected key |
| G2414.RegenerateAgrees | src/generator/g2414.rs:71-74 | when no shift is a multiple of 26, the corrected generator produces exactly what the code as written does |
| G2414.New | src/generator/g2414.rs:35-47 | `new` with the corrected `regenerate`: a fresh generator holds `SampleCount(test)` cases and as many answers |
| G2414.NewAsWritten | src/generator/g2414.rs:35-47 | `new` as written panics exactly when some drawn shift is a multiple of 26, and otherwise makes the same generator as `New` |
| G2414.AnswersDecrypt | src/generator/g2414.rs:66-76 | every answer is alphanumeric text of the case's length, and decrypting it with the case's key gives back the case text |
| G2414.PrintTestCase | src/generator/g2414.rs:49-52 | a printed case with an alphanumeric text splits into the text line, the shift line and nothing else, and the shift line parses back as a usize |
| G2414.CheckAnswer | src/generator/g2414.rs:90-99 | aborts exactly when the reply is not a JSON array of strings; otherwise it is correct exactly when the parsed array equals the cipher texts |
| G2414.CheckAnswerMeansEquality | src/generator/g2414.rs:90-99 | any list of control-free strings, quoted and comma-joined, gets the verdict of list equality with the answers |
| G2414.Run | src/generator/g2414.rs:105-188 | needs a Success, and reads numeric replies as 2412 does; once all replies are numbers, within u64 time, the assembled integer array reaches a string-array `check_answer` and panics unless there are no cases |
| G2414.NewNeverSucceeds | src/generator/g2414.rs:163-183 | no program succeeds on a generator built by `new`, whether with the corrected `regenerate` or, when it does not panic, as written |
| Caesar.DecryptEncrypt | src/generator/g2414.rs:73-74 | decrypting with the key undoes encrypting with it |
| Caesar.EncryptKeepsClasses | src/generator/g2414.rs:196-221 | encryption keeps lower-case letters lower-case and upper-case letters upper-case, and leaves every other character unchanged |
| Caesar.FullTurn | src/generator/g2414.rs:73 | a key of 26 leaves the text unchanged |
| Caesar.ExampleSecret | src/generator/g2414.rs:197-208 | "Super secret message" under key 10 is "Cezob combod wocckqo" |
| Caesar.ExampleRead | src/generator/g2414.rs:199-212 | "Can you read this" under key 1 is "Dbo zpv sfbe uijt" |
| Caesar.ExampleShort | src/generator/g2414.rs:201-216 | "NO" under key 5 is "ST" |
| Caesar.ExampleReduced | src/generator/g2414.rs:203-220 | "Edge case" under key 40 mod 26 is "Srus qogs" |
| Streaming.ReadNumber | src/generator/g2412.rs:124-145 | a reply is too short exactly when under two bytes, not UTF-8 exactly when its zero-padded 5-byte buffer does not decode, and a number is a u32 |
| Streaming.FrameStop | src/generator/g2412.rs:127-144 | a short reply fails as too few characters, a bad parse fails with the parse error's text, and only a non-UTF-8 buffer becomes a Rust `Err` |
| Streaming.CollectNumbers | src/generator/g2412.rs:122-146 | the loop collects every reply's number, re-rendered in decimal, exactly when all replies are numbers; otherwise it stops with the first non-number's outcome |
| Streaming.CollectFirstBytes | src/generator/g2334.rs:131-142 | the loop collects the first byte of every reply exactly when all replies have at least two bytes, and otherwise fails as too few characters |
| Streaming.PrintedBuffer | src/generator/g2412.rs:124-133 | a printed number that fits the 5-byte buffer decodes as its digits, a newline and NUL padding |
| Streaming.PaddedLineText | src/generator/g2412.rs:134 | trimming NULs and then whitespace from digits, a newline and NULs leaves the digits |
| Streaming.PrintedNumberReadsBack | src/generator/g2412.rs:124-138 | any number below 10 000, printed with a newline, fits the buffer and reads back as itself |
| Streaming.AssembledNumbers | src/generator/g2412.rs:157-166 | the collected numbers joined with ", " and bracketed parse back as the numbers; when there is at least one, they do not parse as strings |
| Process.Buffer | src/generator/g2412.rs:124-125 | the read buffer is 5 bytes: the reply, then zeros |
| Json.AsIntegers | src/generator/g2331.rs:65 | an array reads as integers exactly when every item is an integer, item by item |
| Json.AsStrings | src/generator/g2414.rs:91 | an array reads as strings exactly when every item is a string, item by item |
| Json.IntegerArrayRoundTrip | src/generator/g2332.rs:190-199 | integers in range, rendered in decimal with any JSON whitespace after each value and comma, parse back as the same list |
| Json.StringArrayRoundTrip | src/generator/g2414.rs:91 | control-free strings, escaped, quoted and comma-joined, parse back as the same list |
| Json.IntegersAreNotStrings | src/generator/g2414.rs:168-177 | a non-empty rendered integer array never parses as an array of strings |
| Text.NatToString | src/generator/g2412.rs:137 | the decimal rendering is non-empty, all digits, without leading zeros, and denotes the number |
| Text.IntToString | src/generator/g2332.rs:45-55 | a minus sign appears exactly for negatives and is followed by the rendering of the magnitude |
| Text.Split | src/run.rs:75 | the pieces are at least one, contain no delimiter, and joined with it give the input back |
| Text.SplitJoin | src/run.rs:75 | splitting delimiter-free pieces joined by the delimiter gives the pieces back |
| Text.TrimStart | src/generator/g2412.rs:134 | only dropped characters are removed from the front, and the result starts with a kept one |
| Text.TrimEnd | src/generator/g2412.rs:134 | only dropped characters are removed from the back, and the result ends with a kept one |
| Text.TrimDigitLine | src/generator/g2332.rs:148 | trimming digits followed by a newline leaves the digits |
| Text.ParseUnsigned | src/generator/g2412.rs:135 | parsing succeeds exactly when the text (after an optional `+`) is a non-empty run of digits whose value fits the type, and yields that value |
| Utf8.DecodeHead | src/generator/g2412.rs:133 | an ASCII byte decodes alone as itself; any other accepted sequence takes the 2, 3 or 4 bytes its lead byte announces |
| Utf8.EncodedHead | src/generator/g2412.rs:133 | the UTF-8 encoding of any scalar value, whatever follows it, decodes to that value and consumes exactly the encoding |
| Utf8.DecodedHead | src/generator/g2412.rs:133 | conversely, the bytes an accepted head consumes are exactly the encoding of the value it returns, so `DecodeHead` and `EncodeChar` are inverse |
| Utf8.EncodeRoundTrip | src/generator/g2412.rs:133 | every text, encoded as UTF-8, is accepted by `from_utf8` and decodes back to itself |
| Utf8.AsciiRoundTrip | src/generator/g2334.rs:113-116 | ASCII text written as bytes decodes back to itself |
| Utf8.HighByteAtEndRejected | src/generator/g2412.rs:133 | ASCII followed by a single non-ASCII byte is not UTF-8 |
| Leaderboard.FirstPositions | src/teams/card.rs:207-210 | the positions, in increasing order, of exactly those scores whose player has not appeared earlier |
| Leaderboard.SeenIffEarlier | src/teams/card.rs:207-210 | after scanning a prefix, a player is among those kept exactly when they appear in that prefix |
| Leaderboard.FirstsShape | src/teams/card.rs:207-210 | no player is kept twice, and every player of the input is kept |
| Leaderboard.UniquePlayers | src/teams/card.rs:203-217 | the first score of each player, in input order, cut to the limit |
| Leaderboard.UniqueShape | src/teams/card.rs:203-217 | no player appears twice; without a limit every player of the input appears; a positive limit caps the count; a limit of 0 still keeps one player, because the loop checks the limit after pushing |
| Leaderboard.StopsWithReference | src/teams/card.rs:211-213 | stopping as soon as the limit is reached yields the reference result |
| Leaderboard.ScanStep | src/teams/card.rs:207-215 | one loop step keeps the scan invariant: an unseen name is exactly a player's first score, and it is kept or stops the loop at the limit |
| Leaderboard.FilterUniquePlayers | src/teams/card.rs:203-217 | the loop computes exactly the reference result |
| Leaderboard.ListingSplit | src/teams/card.rs:225-227 | the numbered listing of a list is the listing of a prefix followed by the rest, numbered on from there |
| Leaderboard.ListingPlace | src/teams/card.rs:225-227 | the i-th line of the listing is numbered i+1 and shows the i-th score |
| Leaderboard.AppendScore | src/teams/card.rs:219-228 | the card keeps its body, then adds the heading, then lists at most five players, each with their first score |
| Settings.GetStatus | src/settings.rs:21-33 | a challenge is closed before its start, active from its start through its end, and past after its end |
| Settings.StatusAdvances | src/settings.rs:21-33 | over time the status only moves forward; a challenge ending before it starts is never active |
| Settings.IsPrizeNotClaimed | src/settings.rs:50-57 | the prize is unclaimed exactly when no past score used the prize language |
| Settings.GetsAPrize | src/settings.rs:43-48 | a submission wins exactly when it uses the prize language and nobody earlier did |
| Settings.PrizeWonOnce | src/settings.rs:43-57 | the first prize-language submission wins, and after it no later one does |
| Settings.GetChallenge | src/settings.rs:100-107 | finds the first challenge with the id, or fails with "Challenge not found" exactly when there is none |
| Settings.SettingsGetsAPrize | src/settings.rs:90-98 | fails exactly when the challenge is unknown; otherwise it answers `gets_a_prize` for that challenge |
| Config.PickChallenge | src/config.rs:173-192 | `?` lists the challenges and exits 0, 2331 selects it, and anything else exits 1 |
| Config.ScanWrite | src/config.rs:147-202 | test mode is set by any `-t`, publishing cleared by any `-q`, and every value flag has a value after it; `-n` is honoured only for root; a failure is a missing value, or the deprecated `-n` given by a user other than root |
| Config.ScanKeepsLast | src/config.rs:147-202 | when `-n`, `-c` or `-L` repeat, the last occurrence's value wins |
| Config.WriteConfigFlags | src/config.rs:167-206 | a parsed config is in test mode exactly when `-t` is given, publishes exactly when neither `-t` nor `-q` is given, targets challenge 2331, and every value flag had a value after it |
| Config.WriteConfigFromArgs | src/config.rs:138-219 | the only errors are a missing `-c` or name, the deprecated `-n` from a user other than root, and a value flag without its value; `-n` from anyone but root never parses; a parsed configuration never both publishes and runs in test mode |
| Config.WriteConfigValues | src/config.rs:139-199 | the command is the value after the last `-c`; the name is the user's unless `-n` is given, which only root may do, and then it is the value after the last `-n`; the language follows the last `-L` |
| Config.WriteConfigErrors | src/config.rs:208-210 | once the flags scan cleanly, a missing `-c` is the error reported; the missing-name error can never occur, because the name defaults to the user |
| Config.WriteConfigExample | src/config.rs:234-239 | `-c command` yields the user's name, that command, publishing and no test mode |
| Config.FlagAsValue | src/config.rs:147-202 | the word after `-c` is its value even when it spells a flag, and is acted on as that flag as well: `-c -t` has command `-t` and is in test mode |
| Config.ParseLimit | src/config.rs:85-91 | the `-l` value is kept exactly when it parses as an unsigned integer, and is dropped otherwise |
| Config.ScanRead | src/config.rs:80-114 | `-a` asks for all scores, `-l` takes the value after its last occurrence, `-C` needs a value, and a missing value is the only failure |
| Config.ReadConfigFromArgs | src/config.rs:74-124 | the read config: all scores exactly when `-a`, the limit from the last `-l` (none without it), and the single challenge |
| Config.ReadConfigExamples | src/config.rs:85-91 | `-a -l 1` reads all with limit 1, as the unit test at src/config.rs:226-232 expects; a `-l` value that does not parse as a usize becomes no limit rather than an error |
| Config.RunModeFromArgs | src/config.rs:30-63 | help and version exit 0; otherwise `-c` takes precedence and gives exactly what the write configuration's parse gives (its configuration as an update, or its failure), then `-p` gives exactly what the read configuration's parse gives, then `-w` alone is a wipe for root and an error for anyone else; no mode at all is an error |
| Config.RunModeExamples | src/config.rs:47-50 | `-c command` is an update with the command of the unit test at src/config.rs:234-239, and `-p -l x` a read with no limit |
| Challenges.GetChallenge | src/generator/challenges.rs:35-37 | finds the first challenge with the key, and nothing exactly when none has it |
| Challenges.RegistryLookup | src/generator/challenges.rs:22-37 | the registry knows exactly one key, 2331 |
| Challenges.DisplayJoin | src/generator/challenges.rs:40-50 | the display is the challenge lines, each followed by a newline |
| Challenges.DisplayLines | src/generator/challenges.rs:40-50 | split at newlines, the display gives back each challenge's line |
| Challenges.RegistryDisplay | src/generator/challenges.rs:22-50 | the registry displays as "2331 - Find the odd one out" and a newline |
| LegacyMain.SimCommand | src/main.rs:95-103 | the shell line is the command, a space and `test.json` |
| LegacyMain.SimGenerator | src/main.rs:96 | the original judge's generator holds 100 000 answers, one per draw |
| LegacyMain.Judged | src/main.rs:111-130 | a failing exit fails with standard error, and non-UTF-8 output is an error; a reply that is not an i32 array panics; success exactly when the output parses as the answers |
| LegacyMain.RunSim | src/main.rs:89-153 | a write failure or a failed launch is an error, and a time over u64 fails; success exactly when the program exits 0 and prints the answers; a success is stored and, on request, published, and a failure has no effects |
| LegacyMain.HonestSim | src/main.rs:89-149 | a program that prints the answers as a JSON array, in any layout, succeeds and is stored (and published on request) |

## Left out

- G2414.New: built on the corrected `Regenerate`, so it never panics. The source's `new` panics whenever a drawn shift is a multiple of 26, which happens with 10 of the 255 possible shifts; `G2414.NewAsWritten` models that behaviour. `G2414.NewNeverSucceeds` covers both versions.
- Processes, pipes, spinners, sleeps and file writes are left out. A launched process is an `Invocation` (spawn failure or exit status, stdout, stderr, duration) or a `Child` (its replies and elapsed time).
- Randomness: the drawn values are parameters, and `shuffle` is rand's Fisher–Yates given by its swap indices. The library's exact index stream is not modelled.
- The factor count that 2412 records comes from the `Factorization` crate. It is the parameter `factorCount`.
- The SHA-256 of the program file is the parameter `digest`.
- `make_generator` and the generator setup in `run` are the `Judge` parameter: its set-up error and its `run`.
- The database is left out. Stored scores are a parameter, and writes and publications are returned as `Effect`s. `read_scores` and the wipe mode's database call are left out with it.
- The clock is the parameter `now`. Date parsing, `Settings::load`, `update` and serde file loading are left out.
- Score time is a natural number of nanoseconds rather than `f64`. u128 time sums are unbounded integers, and only the u64 guard is modelled.
- The `Generator` trait is replaced by per-module functions, because traits are not used here.
- `get_test_cases`, `Display` and `save_to_file` are left out. They only serialise the cases as JSON; only the printed forms the candidate reads are modelled.
- The panic of `remove_file` in `run_sim` is left out. The file is assumed to be removable.
- The rendering of a score on a card is the parameter `show`.
- The `.unwrap()` panics on spawning and reading in the streaming generators are left out. The model assumes those calls succeed.
- The text of Rust's `FromUtf8Error` is a constant message.
- Debug and log output, the cards, menus and team messages other than `append_score` are left out.
- Text.ParseUnsigned: the contract states when parsing succeeds, the value it yields, and the empty-string error, but not which of the invalid-digit or overflow kinds a longer failure carries; the body picks them as Rust's `from_str_radix` does, and `IntErrorMessage` holds their exact texts.
- The JSON reader handles only arrays of integers and arrays of strings. It refuses `\u` escapes, floats, `-0` and nested values; serde_json accepts some of these and then fails on the element type, so the verdicts agree only for the replies the generators can accept.

## Findings

| source | as written | input that shows it | evidently intended | confidence | as-written member | corrected member |
|---|---|---|---|---|---|---|
| src/generator/g2414.rs:71-74 | the shift is reduced modulo 26 and passed to `Caesar::new`, which rejects a key of 0 and panics | a drawn shift of 0 (or 26, 52, …) | a shift that is a multiple of 26 should encrypt with the full turn, i.e. leave the text unchanged | medium, not executed | G2414.RegenerateAsWritten | G2414.Regenerate |

=== FILE: caesar.dfy ===
/** The Caesar cipher challenge 24.1.4 encrypts with: ASCII letters move
    `key` places along their own alphabet, keeping their case, and every
    other character is left alone. The constructor accepts keys 1..=26
    only (26 moves every letter back onto itself). */
module Caesar {
  predicate IsLower(c: char) {
    'a' <= c <= 'z'
  }

  predicate IsUpper(c: char) {
    'A' <= c <= 'Z'
  }

  /** The keys `Caesar::new` accepts; any other key panics. */
  predicate ValidKey(key: nat) {
    1 <= key <= 26
  }

  /** One character moved `k` places, wrapping within its alphabet. */
  function Rotate(c: char, k: nat): char {
    if IsLower(c) then ((('a' as int) + ((c as int) - ('a' as int) + k) % 26) as char)
    else if IsUpper(c) then ((('A' as int) + ((c as int) - ('A' as int) + k) % 26) as char)
    else c
  }

  /** Every character of `s` moved `k` places. */
  function Shift(s: string, k: nat): (r: string)
    ensures |r| == |s| && forall i :: 0 <= i < |s| ==> r[i] == Rotate(s[i], k)
  {
    seq(|s|, i requires 0 <= i < |s| => Rotate(s[i], k))
  }

  /** `encrypt`. */
  function Encrypt(key: nat, s: string): (r: string)
    requires ValidKey(key)
    ensures |r| == |s|
  {
    Shift(s, key)
  }

  /** `decrypt`: the letters move back `key` places. */
  function Decrypt(key: nat, s: string): (r: string)
    requires ValidKey(key)
    ensures |r| == |s|
  {
    Shift(s, 26 - key)
  }

  /** Moving `k` and then `26 - k` places restores a character. */
  lemma RotateBack(c: char, k: nat)
    requires k <= 26
    ensures Rotate(Rotate(c, k), 26 - k) == c
  {
    if IsLower(c) {
      var x := (c as int) - ('a' as int);
      OffsetBack(x, k);
      var y := (x + k) % 26;
      assert Rotate(c, k) == (('a' as int) + y) as char;
    } else if IsUpper(c) {
      var x := (c as int) - ('A' as int);
      OffsetBack(x, k);
      var y := (x + k) % 26;
      assert Rotate(c, k) == (('A' as int) + y) as char;
    }
  }

  /** The arithmetic of `RotateBack`, on offsets within the alphabet. */
  lemma OffsetBack(x: int, k: nat)
    requires 0 <= x < 26 && k <= 26
    ensures 0 <= (x + k) % 26 < 26 && ((x + k) % 26 + 26 - k) % 26 == x
  {
    if x + k < 26 {
      assert (x + k) % 26 == x + k;
      assert (x + 26) % 26 == x;
    } else {
      assert (x + k) % 26 == x + k - 26;
      assert x % 26 == x;
    }
  }

  /** Decryption undoes encryption. */
  lemma DecryptEncrypt(key: nat, s: string)
    requires ValidKey(key)
    ensures Decrypt(key, Encrypt(key, s)) == s
  {
    forall i | 0 <= i < |s| ensures Decrypt(key, Encrypt(key, s))[i] == s[i] {
      RotateBack(s[i], key);
    }
  }

  /** Encryption keeps every character's class: lower-case, upper-case,
      or neither (and then the character itself). */
  lemma EncryptKeepsClasses(key: nat, s: string, i: nat)
    requires ValidKey(key) && i < |s|
    ensures var r := Encrypt(key, s);
      && (IsLower(r[i]) <==> IsLower(s[i]))
      && (IsUpper(r[i]) <==> IsUpper(s[i]))
      && (!IsLower(s[i]) && !IsUpper(s[i]) ==> r[i] == s[i])
  {
    var c := s[i];
    if IsLower(c) {
      assert 0 <= ((c as int) - ('a' as int) + key) % 26 < 26;
    } else if IsUpper(c) {
      assert 0 <= ((c as int) - ('A' as int) + key) % 26 < 26;
    }
  }

  /** Key 26 encrypts every text to itself. */
  lemma FullTurn(s: string)
    ensures Encrypt(26, s) == s
  {
    forall i | 0 <= i < |s| ensures Encrypt(26, s)[i] == s[i] {
      if IsLower(s[i]) {
        var x := (s[i] as int) - ('a' as int);
        assert (x + 26) % 26 == x;
      } else if IsUpper(s[i]) {
        var x := (s[i] as int) - ('A' as int);
        assert (x + 26) % 26 == x;
      }
    }
  }

  /** `Shift`, one character at a time from the front. This is no part of
      the cipher: it only lets the verifier evaluate `Shift` on the literal
      test vectors below, character by character. */
  function ShiftEach(s: string, k: nat): string
    decreases |s|
  {
    if |s| == 0 then [] else [Rotate(s[0], k)] + ShiftEach(s[1..], k)
  }

  /** A helper for the test vectors only: `ShiftEach` and `Shift` agree. */
  lemma {:induction false} ShiftEachIsShift(s: string, k: nat)
    ensures ShiftEach(s, k) == Shift(s, k)
    decreases |s|
  {
    if |s| > 0 {
      ShiftEachIsShift(s[1..], k);
      assert Shift(s, k) == [Rotate(s[0], k)] + Shift(s[1..], k);
    }
  }

  /** Shifting distributes over concatenation. */
  lemma ShiftAppend(a: string, b: string, k: nat)
    ensures Shift(a + b, k) == Shift(a, k) + Shift(b, k)
  {
  }

  /** A helper for the test vectors only: one short piece of an example,
      shifted. */
  lemma Piece(w: string, k: nat, t: string)
    requires ShiftEach(w, k) == t
    ensures Shift(w, k) == t
  {
    ShiftEachIsShift(w, k);
  }

  /** The words of the longer examples, shifted. */
  lemma SecretWords()
    ensures Shift("Super", 10) == "Cezob" && Shift(" secret", 10) == " combod"
  {
    Piece("Super", 10, "Cezob");
    Piece(" secret", 10, " combod");
  }

  lemma MessageWord()
    ensures Shift(" message", 10) == " wocckqo"
  {
    Piece(" message", 10, " wocckqo");
  }

  lemma ReadWords()
    ensures Shift("Can you", 1) == "Dbo zpv" && Shift(" read", 1) == " sfbe"
  {
    Piece("Can you", 1, "Dbo zpv");
    Piece(" read", 1, " sfbe");
  }

  lemma ThisWord()
    ensures Shift(" this", 1) == " uijt"
  {
    Piece(" this", 1, " uijt");
  }

  /** The examples the challenge's tests pin the cipher to. */
  lemma ExampleSecret()
    ensures Encrypt(10, "Super secret message") == "Cezob combod wocckqo"
  {
    assert "Super secret message" == "Super" + " secret" + " message";
    ShiftAppend("Super" + " secret", " message", 10);
    ShiftAppend("Super", " secret", 10);
    SecretWords();
    MessageWord();
  }

  lemma ExampleRead()
    ensures Encrypt(1, "Can you read this") == "Dbo zpv sfbe uijt"
  {
    assert "Can you read this" == "Can you" + " read" + " this";
    ShiftAppend("Can you" + " read", " this", 1);
    ShiftAppend("Can you", " read", 1);
    ReadWords();
    ThisWord();
  }

  lemma ExampleShort()
    ensures Encrypt(5, "NO") == "ST"
  {
    Piece("NO", 5, "ST");
  }

  /** Key 40, reduced modulo 26 as the challenge does before building the
      cipher. */
  lemma ExampleReduced()
    ensures Encrypt(40 % 26, "Edge case") == "Srus qogs"
  {
    Piece("Edge case", 14, "Srus qogs");
  }
}

=== FILE: challenges.dfy ===
/** The challenge registry: the challenges the judge knows, looked up by the
    command-line key. */
module Challenges {
  import opened Wrappers
  import opened Text

  datatype Challenge = Challenge(name: string, command: string, docPath: string, table: string)

  /** The one challenge the registry holds. */
  const OddOneOut: Challenge := Challenge(
    "Find the odd one out",
    "2331",
    "/home/philip/code_challenges/judge_23_3_1/README.md",
    "23_3_1")

  /** `Challenges::new()`. */
  const Registry: seq<Challenge> := [OddOneOut]

  /** `c` is the first challenge of `cs` whose command is `key`. */
  predicate FirstWithKey(cs: seq<Challenge>, key: string, k: int) {
    0 <= k < |cs| && cs[k].command == key && forall j :: 0 <= j < k ==> cs[j].command != key
  }

  /** `get_challenge`: the first challenge registered under `key`. */
  function GetChallenge(cs: seq<Challenge>, key: string): (r: Option<Challenge>)
    ensures r.None? <==> forall j :: 0 <= j < |cs| ==> cs[j].command != key
    ensures r.Some? ==> exists k :: FirstWithKey(cs, key, k) && r.value == cs[k]
    decreases |cs|
  {
    if |cs| == 0 then None
    else if cs[0].command == key then
      assert FirstWithKey(cs, key, 0);
      Some(cs[0])
    else
      match GetChallenge(cs[1..], key)
      case None => None
      case Some(c) =>
        var k :| FirstWithKey(cs[1..], key, k) && c == cs[1..][k];
        assert FirstWithKey(cs, key, k + 1);
        Some(c)
  }

  /** The registry answers for "2331" and for nothing else, so the lookups
      of the default challenge always succeed. */
  lemma RegistryLookup(key: string)
    ensures GetChallenge(Registry, key) == (if key == "2331" then Some(OddOneOut) else None)
  {
    if key == "2331" {
      var k :| FirstWithKey(Registry, key, k) && GetChallenge(Registry, key).value == Registry[k];
    }
  }

  /** One line of the listing, without its newline. */
  function Line(c: Challenge): string {
    c.command + " - " + c.name
  }

  function Lines(cs: seq<Challenge>): (ls: seq<string>)
    ensures |ls| == |cs| && forall i :: 0 <= i < |cs| ==> ls[i] == Line(cs[i])
  {
    seq(|cs|, i requires 0 <= i < |cs| => Line(cs[i]))
  }

  /** `Display`: every challenge's line followed by a newline, in registry
      order. */
  function Display(cs: seq<Challenge>): string
    decreases |cs|
  {
    if |cs| == 0 then "" else Line(cs[0]) + "\n" + Display(cs[1..])
  }

  /** The listing is the lines joined by newlines, with a final newline. */
  lemma {:induction false} DisplayJoin(cs: seq<Challenge>)
    ensures Display(cs) == Join(Lines(cs) + [""], "\n")
    decreases |cs|
  {
    if |cs| > 0 {
      DisplayJoin(cs[1..]);
      assert Lines(cs[1..]) == Lines(cs)[1..];
      assert (Lines(cs) + [""])[1..] == Lines(cs[1..]) + [""];
    }
  }

  /** Read back line by line, the listing gives one line per challenge, in
      order, then the empty text after the last newline. */
  lemma DisplayLines(cs: seq<Challenge>)
    requires forall i :: 0 <= i < |cs| ==> '\n' !in Line(cs[i])
    ensures Split(Display(cs), '\n') == Lines(cs) + [""]
  {
    var parts := Lines(cs) + [""];
    NoNewlineInParts(cs, parts);
    SplitJoin(parts, '\n');
    DisplayJoin(cs);
    assert "\n" == ['\n'];
  }

  /** No line of the listing, nor the final empty text, holds a newline. */
  lemma NoNewlineInParts(cs: seq<Challenge>, parts: seq<string>)
    requires forall i :: 0 <= i < |cs| ==> '\n' !in Line(cs[i])
    requires parts == Lines(cs) + [""]
    ensures |parts| >= 1 && forall i :: 0 <= i < |parts| ==> '\n' !in parts[i]
  {
    forall i | 0 <= i < |parts| ensures '\n' !in parts[i] {
      if i < |cs| {
        assert parts[i] == Line(cs[i]);
      }
    }
  }

  /** The registry's listing. */
  lemma RegistryDisplay()
    ensures Display(Registry) == "2331 - Find the odd one out\n"
  {
  }
}

=== FILE: config.dfy ===
/** Command-line parsing. The arguments are scanned as a flat list: every
    token that spells a flag is acted on, a value-taking flag reads the
    token after it (which is then also scanned), and a later occurrence
    overwrites an earlier one. The user name and the process exits are
    explicit: the user is a parameter, and `process::exit(code)` is the
    outcome `Exit(code)`. */
module Config {
  import opened Wrappers
  import opened Text
  import opened TestResults
  import opened Challenges

  datatype WriteConfig = WriteConfig(
    name: string, command: string, publish: bool, testMode: bool, challenge: Challenge, language: Option<string>)

  datatype ReadConfig = ReadConfig(all: bool, limit: Option<nat>, challenge: Challenge)

  datatype RunMode = Update(config: WriteConfig) | Read(read: ReadConfig) | Wipe

  /** How parsing ends: a value, a Rust `Err` carrying its message, or
      `process::exit` with its code. */
  datatype Parsed<T> = Parsed(value: T) | Failed(message: string) | Exit(code: nat)

  const Root: string := "root"
  const Deprecated: string := "-n has been deprecated. Do not use anymore."
  const NoCommand: string := "-c must be provided"
  const NoName: string := "-n must be provided"
  const NoMode: string := "No mode provided"
  const NotRoot: string := "Not root"

  /** The error for a value-taking flag in last position. */
  function Missing(flag: string): string {
    flag + " must provide a string"
  }

  /** `x` occurs in the arguments from position `i` on. */
  lemma InSuffix(args: seq<string>, i: nat, x: string)
    requires i < |args|
    ensures x in args[i..] <==> x == args[i] || x in args[i + 1..]
  {
    assert args[i..] == [args[i]] + args[i + 1..];
  }

  /** The `-C` handler of both scans: the challenge, or the code the
      process exits with. `?` lists the challenges and exits 0, an unknown
      key exits 1, and the only known key is the default. */
  function PickChallenge(key: string): (r: Result<Challenge, nat>)
    ensures key == "?" ==> r == Err(0)
    ensures key != "?" && key != "2331" ==> r == Err(1)
    ensures key == "2331" ==> r == Ok(OddOneOut)
  {
    RegistryLookup(key);
    if key == "?" then Err(0)
    else
      match GetChallenge(Registry, key)
      case None => Err(1)
      case Some(c) => Ok(c)
  }

  /** The state of the write scan. */
  datatype WriteScan = WriteScan(
    name: Option<string>, command: Option<string>, publish: bool, testMode: bool,
    challenge: Challenge, language: Option<string>)

  /** The flags of the write scan that read the next token. */
  const WriteValueFlags: seq<string> := ["-n", "-c", "-C", "-L"]

  /** The write scan from token `i` on. */
  function ScanWrite(args: seq<string>, user: string, i: nat, st: WriteScan): (r: Parsed<WriteScan>)
    requires i <= |args|
    ensures r.Parsed? ==> r.value.testMode == (st.testMode || "-t" in args[i..])
    ensures r.Parsed? ==> r.value.publish == (st.publish && "-q" !in args[i..])
    ensures r.Parsed? ==> forall j :: i <= j < |args| && args[j] in WriteValueFlags ==> j + 1 < |args|
    ensures r.Parsed? && "-n" in args[i..] ==> user == Root
    ensures r.Parsed? ==> r.value.challenge == (if "-C" in args[i..] then OddOneOut else st.challenge)
    ensures r.Failed? ==> r.message == Deprecated || exists f :: f in WriteValueFlags && r.message == Missing(f)
    decreases |args| - i
  {
    if i == |args| then Parsed(st)
    else
      InSuffix(args, i, "-t");
      InSuffix(args, i, "-q");
      InSuffix(args, i, "-n");
      InSuffix(args, i, "-C");
      var a := args[i];
      var hasValue := i + 1 < |args|;
      if a == "-n" then
        if user != Root then Failed(Deprecated)
        else if !hasValue then Failed(Missing(a))
        else ScanWrite(args, user, i + 1, st.(name := Some(args[i + 1])))
      else if a == "-c" then
        if !hasValue then Failed(Missing(a))
        else ScanWrite(args, user, i + 1, st.(command := Some(args[i + 1])))
      else if a == "-t" then
        ScanWrite(args, user, i + 1, st.(testMode := true))
      else if a == "-q" then
        ScanWrite(args, user, i + 1, st.(publish := false))
      else if a == "-C" then
        if !hasValue then Failed(Missing(a))
        else
          match PickChallenge(args[i + 1])
          case Ok(c) => ScanWrite(args, user, i + 1, st.(challenge := c))
          case Err(k) => Exit(k)
      else if a == "-L" then
        if !hasValue then Failed(Missing(a))
        else ScanWrite(args, user, i + 1, st.(language := Some(args[i + 1])))
      else
        ScanWrite(args, user, i + 1, st)
  }

  /** The token at `j` is the last occurrence of `flag` from `i` on, and a
      value follows it. */
  predicate LastAt(args: seq<string>, flag: string, i: nat, j: int) {
    i <= j && j + 1 < |args| && args[j] == flag && flag !in args[j + 1..]
  }

  /** `v` is what a scan from `i` leaves for `flag`: the value after its
      last occurrence, or the starting value `d` when it does not occur. */
  ghost predicate LastValue(args: seq<string>, flag: string, i: nat, d: Option<string>, v: Option<string>) {
    (i <= |args| && flag !in args[i..] && v == d) || exists j :: LastAt(args, flag, i, j) && v == Some(args[j + 1])
  }

  /** The field a value flag of the write scan sets. */
  function Field(st: WriteScan, flag: string): Option<string> {
    if flag == "-n" then st.name
    else if flag == "-c" then st.command
    else st.language
  }

  /** The value of the last occurrence survives a completed scan. */
  lemma LastValueAfter(args: seq<string>, flag: string, i: nat, d: Option<string>, v: Option<string>)
    requires i < |args| && LastValue(args, flag, i + 1, d, v)
    requires args[i] != flag
    ensures LastValue(args, flag, i, d, v)
  {
    InSuffix(args, i, flag);
    if !(flag !in args[i + 1..] && v == d) {
      var j :| LastAt(args, flag, i + 1, j) && v == Some(args[j + 1]);
      assert LastAt(args, flag, i, j);
    }
  }

  /** An occurrence at `i` sets the value, unless a later one overrides it. */
  lemma LastValueAt(args: seq<string>, flag: string, i: nat, d: Option<string>, v: Option<string>)
    requires i + 1 < |args| && args[i] == flag
    requires LastValue(args, flag, i + 1, Some(args[i + 1]), v)
    ensures LastValue(args, flag, i, d, v)
  {
    if flag !in args[i + 1..] && v == Some(args[i + 1]) {
      assert LastAt(args, flag, i, i);
    } else {
      var j :| LastAt(args, flag, i + 1, j) && v == Some(args[j + 1]);
      assert LastAt(args, flag, i, j);
    }
  }

  /** For `-n`, `-c` and `-L`, a completed scan leaves the value after the
      flag's last occurrence. */
  lemma {:induction false} ScanKeepsLast(args: seq<string>, user: string, i: nat, st: WriteScan, flag: string)
    requires i <= |args|
    requires flag == "-n" || flag == "-c" || flag == "-L"
    ensures var r := ScanWrite(args, user, i, st);
      r.Parsed? ==> LastValue(args, flag, i, Field(st, flag), Field(r.value, flag))
    decreases |args| - i
  {
    var r := ScanWrite(args, user, i, st);
    if i < |args| && r.Parsed? {
      var a := args[i];
      if a == "-n" || a == "-c" || a == "-L" {
        var next := if a == "-n" then st.(name := Some(args[i + 1]))
          else if a == "-c" then st.(command := Some(args[i + 1]))
          else st.(language := Some(args[i + 1]));
        assert r == ScanWrite(args, user, i + 1, next);
        ScanKeepsLast(args, user, i + 1, next, flag);
        if a == flag {
          LastValueAt(args, flag, i, Field(st, flag), Field(r.value, flag));
        } else {
          LastValueAfter(args, flag, i, Field(st, flag), Field(r.value, flag));
        }
      } else {
        var next := if a == "-t" then st.(testMode := true)
          else if a == "-q" then st.(publish := false)
          else if a == "-C" then st.(challenge := PickChallenge(args[i + 1]).value)
          else st;
        assert r == ScanWrite(args, user, i + 1, next);
        ScanKeepsLast(args, user, i + 1, next, flag);
        LastValueAfter(args, flag, i, Field(st, flag), Field(r.value, flag));
      }
    } else if i == |args| {
      assert args[i..] == [];
    }
  }

  /** The scan starts from the current user's name, publishing on, test
      mode off, the default challenge, no command and no language. */
  function StartWrite(user: string): WriteScan {
    WriteScan(Some(user), None, true, false, OddOneOut, None)
  }

  /** `WriteConfig::from_args`: the only errors are a missing `-c` or name
      (the latter never happens, see `WriteConfigErrors`), the deprecated
      `-n` from a user other than root, and a value-taking flag without its
      value; a parsed configuration never both publishes and runs in test
      mode. */
  function WriteConfigFromArgs(args: seq<string>, user: string): (r: Parsed<WriteConfig>)
    ensures r.Failed? ==>
      || r.message == NoCommand || r.message == NoName || r.message == Deprecated
      || exists f :: f in WriteValueFlags && r.message == Missing(f)
    ensures "-n" in args && user != Root ==> !r.Parsed?
    ensures r.Parsed? ==> !(r.value.publish && r.value.testMode)
  {
    assert args[0..] == args;
    match ScanWrite(args, user, 0, StartWrite(user))
    case Failed(m) => Failed(m)
    case Exit(k) => Exit(k)
    case Parsed(st) =>
      if st.name.None? then Failed(NoName)
      else if st.command.None? then Failed(NoCommand)
      else Parsed(WriteConfig(st.name.value, st.command.value, st.publish && !st.testMode, st.testMode, st.challenge, st.language))
  }

  /** The flags of a parsed write configuration: test mode exactly when
      `-t` is given; publishing unless `-q` or `-t` is given, so test mode
      never publishes; the default challenge; and no value-taking flag left
      without its value. */
  lemma WriteConfigFlags(args: seq<string>, user: string)
    ensures var r := WriteConfigFromArgs(args, user);
      r.Parsed? ==>
        && (r.value.testMode <==> "-t" in args)
        && (r.value.publish <==> "-t" !in args && "-q" !in args)
        && r.value.challenge == OddOneOut
        && (forall j :: 0 <= j < |args| && args[j] in WriteValueFlags ==> j + 1 < |args|)
  {
    assert args[0..] == args;
  }

  /** The values of a parsed write configuration: the command after the
      last `-c`; the name after the last `-n`, which only root may give, or
      else the current user; the language after the last `-L`, if any. */
  lemma WriteConfigValues(args: seq<string>, user: string)
    ensures var r := WriteConfigFromArgs(args, user);
      r.Parsed? ==>
        && (exists j :: LastAt(args, "-c", 0, j) && r.value.command == args[j + 1])
        && ("-n" !in args ==> r.value.name == user)
        && ("-n" in args ==> user == Root && exists j :: LastAt(args, "-n", 0, j) && r.value.name == args[j + 1])
        && LastValue(args, "-L", 0, None, r.value.language)
  {
    var s := ScanWrite(args, user, 0, StartWrite(user));
    assert args[0..] == args;
    if s.Parsed? {
      ScanKeepsLast(args, user, 0, StartWrite(user), "-n");
      ScanKeepsLast(args, user, 0, StartWrite(user), "-c");
      ScanKeepsLast(args, user, 0, StartWrite(user), "-L");
    }
  }

  /** The errors of `from_args` after a completed scan: without `-c` it is
      "-c must be provided", and the name is never missing, since it starts
      as the current user. */
  lemma WriteConfigErrors(args: seq<string>, user: string)
    ensures var s := ScanWrite(args, user, 0, StartWrite(user));
      s.Parsed? && "-c" !in args ==> WriteConfigFromArgs(args, user) == Failed(NoCommand)
    ensures WriteConfigFromArgs(args, user) != Failed(NoName)
  {
    var s := ScanWrite(args, user, 0, StartWrite(user));
    assert args[0..] == args;
    if s.Parsed? {
      ScanKeepsLast(args, user, 0, StartWrite(user), "-n");
      ScanKeepsLast(args, user, 0, StartWrite(user), "-c");
      assert s.value.name.Some?;
    } else if s.Failed? {
      assert NoName[3] != Deprecated[3];
      forall f | f in WriteValueFlags ensures NoName != Missing(f) {
        assert NoName[8] != Missing(f)[8];
      }
    }
    assert NoName[1] != NoCommand[1];
  }

  /** The configuration the unit test at src/config.rs:234-239 expects. */
  lemma WriteConfigExample(user: string)
    ensures WriteConfigFromArgs(["-c", "command"], user) ==
      Parsed(WriteConfig(user, "command", true, false, OddOneOut, None))
  {
    var args := ["-c", "command"];
    assert ScanWrite(args, user, 2, StartWrite(user).(command := Some("command"))) ==
      Parsed(StartWrite(user).(command := Some("command")));
  }

  /** A value that spells a flag is acted on as that flag too: the command
      is "-t", and test mode is on. */
  lemma FlagAsValue(user: string)
    ensures WriteConfigFromArgs(["-c", "-t"], user) ==
      Parsed(WriteConfig(user, "-t", false, true, OddOneOut, None))
  {
    var args := ["-c", "-t"];
    var st := StartWrite(user).(command := Some("-t"));
    assert ScanWrite(args, user, 2, st.(testMode := true)) == Parsed(st.(testMode := true));
    assert ScanWrite(args, user, 1, st) == ScanWrite(args, user, 2, st.(testMode := true));
  }

  /** The state of the read scan. */
  datatype ReadScan = ReadScan(all: bool, limit: Option<nat>, challenge: Challenge)

  const ReadValueFlags: seq<string> := ["-l", "-C"]

  /** `str::parse::<usize>().ok()`. */
  function ParseLimit(s: string): (r: Option<nat>)
    ensures r.Some? <==> ParseUnsigned(s, U64Max).Ok?
    ensures r.Some? ==> r.value == ParseUnsigned(s, U64Max).value
  {
    match ParseUnsigned(s, U64Max)
    case Ok(n) => Some(n)
    case Err(_) => None
  }

  /** The read scan from token `i` on. */
  function ScanRead(args: seq<string>, i: nat, st: ReadScan): (r: Parsed<ReadScan>)
    requires i <= |args|
    ensures r.Parsed? ==> r.value.all == (st.all || "-a" in args[i..])
    ensures r.Parsed? ==> forall j :: i <= j < |args| && args[j] in ReadValueFlags ==> j + 1 < |args|
    ensures r.Parsed? ==> r.value.challenge == (if "-C" in args[i..] then OddOneOut else st.challenge)
    ensures r.Parsed? && "-l" !in args[i..] ==> r.value.limit == st.limit
    ensures r.Parsed? ==> forall j :: LastAt(args, "-l", i, j) ==> r.value.limit == ParseLimit(args[j + 1])
    ensures r.Failed? ==> r.message == Missing("-l") || r.message == Missing("-C")
    decreases |args| - i
  {
    if i == |args| then
      assert forall j :: !LastAt(args, "-l", i, j);
      Parsed(st)
    else
      InSuffix(args, i, "-a");
      InSuffix(args, i, "-l");
      InSuffix(args, i, "-C");
      var a := args[i];
      if a == "-a" then
        var r := ScanRead(args, i + 1, st.(all := true));
        assert forall j :: LastAt(args, "-l", i, j) ==> LastAt(args, "-l", i + 1, j);
        r
      else if a == "-l" then
        if i + 1 >= |args| then Failed(Missing(a))
        else
          var r := ScanRead(args, i + 1, st.(limit := ParseLimit(args[i + 1])));
          assert r.Parsed? ==> forall j :: LastAt(args, "-l", i, j) ==> r.value.limit == ParseLimit(args[j + 1]) by {
            forall j | r.Parsed? && LastAt(args, "-l", i, j) ensures r.value.limit == ParseLimit(args[j + 1]) {
              if j > i {
                assert LastAt(args, "-l", i + 1, j);
              } else {
                assert "-l" !in args[i + 1..];
              }
            }
          }
          r
      else if a == "-C" then
        if i + 1 >= |args| then Failed(Missing(a))
        else
          match PickChallenge(args[i + 1])
          case Ok(c) =>
            var r := ScanRead(args, i + 1, st.(challenge := c));
            assert forall j :: LastAt(args, "-l", i, j) ==> LastAt(args, "-l", i + 1, j);
            r
          case Err(k) => Exit(k)
      else
        var r := ScanRead(args, i + 1, st);
        assert forall j :: LastAt(args, "-l", i, j) ==> LastAt(args, "-l", i + 1, j);
        r
  }

  /** `ReadConfig::from_args`: no error other than a missing value. */
  function ReadConfigFromArgs(args: seq<string>): (r: Parsed<ReadConfig>)
    ensures r.Parsed? ==> (r.value.all <==> "-a" in args) && r.value.challenge == OddOneOut
    ensures r.Parsed? && "-l" !in args ==> r.value.limit == None
    ensures r.Parsed? ==> forall j :: LastAt(args, "-l", 0, j) ==> r.value.limit == ParseLimit(args[j + 1])
    ensures r.Failed? ==> r.message == Missing("-l") || r.message == Missing("-C")
  {
    assert args[0..] == args;
    match ScanRead(args, 0, ReadScan(false, None, OddOneOut))
    case Parsed(st) => Parsed(ReadConfig(st.all, st.limit, st.challenge))
    case Failed(m) => Failed(m)
    case Exit(k) => Exit(k)
  }

  /** Two read configurations: `-a -l 1` reads all with a limit of 1, as
      the source's unit test has it; and since the `-l` value goes through
      `parse::<usize>().ok()`, a limit that is not a number is no limit,
      not an error. */
  lemma ReadConfigExamples()
    ensures ReadConfigFromArgs(["-a", "-l", "1"]) == Parsed(ReadConfig(true, Some(1), OddOneOut))
    ensures ReadConfigFromArgs(["-p", "-l", "x"]) == Parsed(ReadConfig(false, None, OddOneOut))
  {
    var one := ["-a", "-l", "1"];
    assert ParseUnsigned("1", U64Max) == Ok(1) by {
      assert UnsignedDigits("1") == "1";
      assert DigitsValue("1") == 1 by {
        assert "1"[..0] == [];
      }
    }
    assert ScanRead(one, 3, ReadScan(true, Some(1), OddOneOut)) == Parsed(ReadScan(true, Some(1), OddOneOut));
    var x := ["-p", "-l", "x"];
    assert ParseUnsigned("x", U64Max).Err? by {
      assert UnsignedDigits("x") == "x";
      assert !IsDigit("x"[0]);
    }
    assert ScanRead(x, 3, ReadScan(false, None, OddOneOut)) == Parsed(ReadScan(false, None, OddOneOut));
  }

  /** Help was asked for, or there are no arguments at all. */
  predicate WantsHelp(args: seq<string>) {
    "-h" in args || "--help" in args || "-?" in args || |args| == 0
  }

  /** `RunMode::from_args`. */
  function RunModeFromArgs(args: seq<string>, user: string): (r: Parsed<RunMode>)
    ensures WantsHelp(args) ==> r == Exit(0)
    ensures !WantsHelp(args) && "--version" in args ==> r == Exit(0)
    ensures r.Parsed? && r.value.Update? ==> "-c" in args
    ensures r.Parsed? && r.value.Read? ==> "-p" in args && "-c" !in args
    ensures r.Parsed? && r.value.Wipe? ==> "-w" in args && "-c" !in args && "-p" !in args && user == Root
    ensures !WantsHelp(args) && "--version" !in args && "-c" !in args && "-p" !in args ==>
      r == (if "-w" !in args then Failed(NoMode) else if user != Root then Failed(NotRoot) else Parsed(Wipe))
    ensures !WantsHelp(args) && "--version" !in args && "-c" in args ==>
      var w := WriteConfigFromArgs(args, user);
      && (r.Parsed? <==> w.Parsed?)
      && (w.Parsed? ==> r == Parsed(Update(w.value)))
      && (w.Failed? ==> r == Failed(w.message))
      && (w.Exit? ==> r == Exit(w.code))
    ensures !WantsHelp(args) && "--version" !in args && "-c" !in args && "-p" in args ==>
      var p := ReadConfigFromArgs(args);
      && (r.Parsed? <==> p.Parsed?)
      && (p.Parsed? ==> r == Parsed(Read(p.value)))
      && (p.Failed? ==> r == Failed(p.message))
      && (p.Exit? ==> r == Exit(p.code))
  {
    if WantsHelp(args) then Exit(0)
    else if "--version" in args then Exit(0)
    else if "-c" in args then
      match WriteConfigFromArgs(args, user)
      case Parsed(c) => Parsed(Update(c))
      case Failed(m) => Failed(m)
      case Exit(k) => Exit(k)
    else if "-p" in args then
      match ReadConfigFromArgs(args)
      case Parsed(c) => Parsed(Read(c))
      case Failed(m) => Failed(m)
      case Exit(k) => Exit(k)
    else if "-w" in args then
      if user != Root then Failed(NotRoot) else Parsed(Wipe)
    else Failed(NoMode)
  }

  /** Read as a run mode, the unit-tested `-c command` is an update with
      that command, and `-p -l x` is a read with no limit. */
  lemma RunModeExamples(user: string)
    ensures RunModeFromArgs(["-c", "command"], user) ==
      Parsed(Update(WriteConfig(user, "command", true, false, OddOneOut, None)))
    ensures RunModeFromArgs(["-p", "-l", "x"], user) == Parsed(Read(ReadConfig(false, None, OddOneOut)))
  {
    WriteConfigExample(user);
    ReadConfigExamples();
    assert !WantsHelp(["-c", "command"]) && "--version" !in ["-c", "command"];
    assert !WantsHelp(["-p", "-l", "x"]) && "--version" !in ["-p", "-l", "x"] && "-c" !in ["-p", "-l", "x"];
  }
}

=== FILE: g2331.dfy ===
/** Challenge 23.3.1, find the odd one out over `i32`: sizes and values are
    drawn from `1..100` (upper bound exclusive), and the candidate's answers
    come back as a JSON array of `i32`. */
module G2331 {
  import opened Wrappers
  import opened Json
  import opened TestResults
  import OddOneOut

  const MinDraw: int := 1
  const MaxDraw: int := 99

  /** After `new(count)` from the draws `regenerate` makes (a size in
      1..=99, values in 1..=99): as many cases as answers as `count`; every case has
      length 3..=199 and values in 1..=99; the i-th answer is the only value
      with odd multiplicity in the i-th case. */
  lemma NewCases(count: nat, draws: seq<OddOneOut.CaseDraw>, i: nat, x: int)
    requires |draws| == count && i < count
    requires forall j :: 0 <= j < |draws| ==> OddOneOut.WellFormed(draws[j])
    requires forall j :: 0 <= j < |draws| ==> OddOneOut.InRange(draws[j], MinDraw, MaxDraw, MinDraw, MaxDraw)
    ensures var g := OddOneOut.New(count, draws);
      && |g.testCases| == count && |g.answer| == count
      && 3 <= |g.testCases[i]| <= 199
      && (forall e :: 0 <= e < |g.testCases[i]| ==> MinDraw <= g.testCases[i][e] <= MaxDraw)
      && (multiset(g.testCases[i])[x] % 2 == 1 <==> x == g.answer[i])
  {
    OddOneOut.NewCaseShape(count, draws, MinDraw, MaxDraw, MinDraw, MaxDraw, i);
    OddOneOut.NewOddOneOut(count, draws, i, x);
  }

  /** `check_answer` over `Vec<i32>`. */
  function CheckAnswer(g: OddOneOut.Generator, data: string): (c: Checked)
    ensures c.Abort? <==> ParseIntegerArray(data, I32Min, I32Max).None?
    ensures c.Verdict? ==> (c.correct <==> ParseIntegerArray(data, I32Min, I32Max) == Some(g.answer))
  {
    OddOneOut.CheckAnswer(g, data, I32Min, I32Max)
  }

  /** Any list of `i32` the candidate prints as a JSON array is accepted
      exactly when it is the list of answers, in order. */
  lemma CheckAnswerMeansEquality(g: OddOneOut.Generator, xs: seq<int>, pads: seq<string>, sepWs: string)
    requires |pads| == |xs|
    requires forall i :: 0 <= i < |xs| ==> AllJsonWs(pads[i]) && I32Min <= xs[i] <= I32Max
    requires AllJsonWs(sepWs)
    ensures CheckAnswer(g, ArrayText(PaddedIntegers(xs, pads), "," + sepWs)) == Verdict(xs == g.answer)
  {
    OddOneOut.CheckAnswerMeansEquality(g, xs, pads, sepWs, I32Min, I32Max);
  }
}

=== FILE: g2332.dfy ===
/** Challenge 23.3.2, find the odd one out over `u8`, timed against a
    baseline. Every case is passed on the candidate's command line as
    comma-separated decimals; before each case the candidate is run on the
    trivial case `0,1,1` and must print `0`. The summed baseline times are
    subtracted from the summed case times, and the outputs are joined into a
    JSON array and checked. */
module G2332 {
  import opened Wrappers
  import opened Text
  import opened Utf8
  import opened Json
  import opened Process
  import opened TestResults
  import OddOneOut

  const MinSize: nat := 500
  const MaxSize: nat := 1000
  const TestSamples: nat := 100
  const AttemptSamples: nat := 10_000

  /** The number of cases: 100 in test mode, 10 000 otherwise. */
  function Count(test: bool): (n: nat)
    ensures n == (if test then 100 else 10_000)
  {
    if test then TestSamples else AttemptSamples
  }

  /** `new(test)`. */
  function New(test: bool, draws: seq<OddOneOut.CaseDraw>): (g: OddOneOut.Generator)
    requires |draws| == Count(test)
    requires forall i :: 0 <= i < |draws| ==> OddOneOut.WellFormed(draws[i])
    ensures g.count == Count(test) && |g.testCases| == g.count && |g.answer| == g.count
  {
    OddOneOut.New(Count(test), draws)
  }

  /** After `new` from the draws `regenerate` makes (a size in 500..=999,
      values in 0..=254): case i has length 1001..=1999 and values in
      0..=254, and its answer is its only value of odd multiplicity. */
  lemma NewCases(test: bool, draws: seq<OddOneOut.CaseDraw>, i: nat, x: int)
    requires |draws| == Count(test) && i < Count(test)
    requires forall j :: 0 <= j < |draws| ==> OddOneOut.WellFormed(draws[j])
    requires forall j :: 0 <= j < |draws| ==> OddOneOut.InRange(draws[j], MinSize, MaxSize - 1, 0, 254)
    ensures var g := New(test, draws);
      && 2 * MinSize + 1 <= |g.testCases[i]| <= 2 * MaxSize - 1
      && (forall e :: 0 <= e < |g.testCases[i]| ==> 0 <= g.testCases[i][e] <= 254)
      && (multiset(g.testCases[i])[x] % 2 == 1 <==> x == g.answer[i])
  {
    assert New(test, draws) == OddOneOut.New(Count(test), draws);
    CasesOf(Count(test), draws, i, x);
  }

  /** `NewCases` for a generator of any size. */
  lemma CasesOf(n: nat, draws: seq<OddOneOut.CaseDraw>, i: nat, x: int)
    requires |draws| == n && i < n
    requires forall j :: 0 <= j < |draws| ==> OddOneOut.WellFormed(draws[j])
    requires forall j :: 0 <= j < |draws| ==> OddOneOut.InRange(draws[j], MinSize, MaxSize - 1, 0, 254)
    ensures var g := OddOneOut.New(n, draws);
      && 2 * MinSize + 1 <= |g.testCases[i]| <= 2 * MaxSize - 1
      && (forall e :: 0 <= e < |g.testCases[i]| ==> 0 <= g.testCases[i][e] <= 254)
      && (multiset(g.testCases[i])[x] % 2 == 1 <==> x == g.answer[i])
  {
    OddOneOut.NewCaseShape(n, draws, MinSize, MaxSize - 1, 0, 254, i);
    OddOneOut.NewOddOneOut(n, draws, i, x);
  }

  /** `check_answer` over `Vec<u8>`. */
  function CheckAnswer(g: OddOneOut.Generator, data: string): (c: Checked)
    ensures c.Abort? <==> ParseIntegerArray(data, 0, U8Max).None?
    ensures c.Verdict? ==> (c.correct <==> ParseIntegerArray(data, 0, U8Max) == Some(g.answer))
    ensures c.Abort? ==> c.message == MalformedJson
  {
    OddOneOut.CheckAnswer(g, data, 0, U8Max)
  }

  /** The decimal text of every element. */
  function Renderings(c: seq<int>): (ts: seq<string>)
    ensures |ts| == |c| && forall i :: 0 <= i < |c| ==> ts[i] == IntToString(c[i])
  {
    seq(|c|, i requires 0 <= i < |c| => IntToString(c[i]))
  }

  /** `print_test_case`: the values in decimal, separated by commas. Split
      at its commas, a printed case gives back one decimal text per element,
      so there is no leading or trailing comma and no empty piece. */
  function PrintTestCase(c: seq<int>): (r: string)
    ensures |c| >= 1 ==> Split(r, ',') == Renderings(c)
    ensures |c| >= 1 ==> forall i :: 0 <= i < |c| ==> |Split(r, ',')[i]| >= 1
  {
    var parts := Renderings(c);
    assert |c| >= 1 ==> Split(Join(parts, ","), ',') == parts by {
      if |c| >= 1 {
        forall i | 0 <= i < |c| ensures ',' !in parts[i] {
          NoCommaInRendering(c[i]);
        }
        SplitJoin(parts, ',');
      }
    }
    Join(parts, ",")
  }

  /** A decimal rendering never contains a comma. */
  lemma NoCommaInRendering(v: int)
    ensures ',' !in IntToString(v)
  {
    var s := IntToString(v);
    var t := NatToString(if v < 0 then -v else v);
    forall k | 0 <= k < |s| ensures s[k] != ',' {
      if v < 0 {
        if k > 0 {
          assert s[k] == t[k - 1] && IsDigit(t[k - 1]);
        }
      } else {
        assert IsDigit(t[k]);
      }
    }
  }

  /** The command line of the baseline run: the command run on the trivial
      case `0,1,1`, whose odd one out is 0. */
  function BaselineCommand(command: string): (r: string)
    ensures r == CaseCommand(command, [0, 1, 1])
  {
    assert PrintTestCase([0, 1, 1]) == "0,1,1" by {
      assert IntToString(0) == "0" && IntToString(1) == "1";
      assert Renderings([0, 1, 1]) == ["0", "1", "1"];
      assert Join(["1"], ",") == "1";
      assert Join(["1", "1"], ",") == "1,1";
    }
    command + " 0,1,1"
  }

  /** The command line of the run on case `c`: the command, a space, and
      the printed case, which splits back at its commas into the case's
      decimal texts. */
  function CaseCommand(command: string, c: seq<int>): (r: string)
    ensures |r| > |command| && r[..|command|] == command && r[|command|] == ' '
    ensures |c| >= 1 ==> Split(r[|command| + 1..], ',') == Renderings(c)
  {
    var r := command + " " + PrintTestCase(c);
    assert r[|command| + 1..] == PrintTestCase(c);
    r
  }

  /** One launch of the candidate: the case it belongs to, whether it is the
      baseline run, and its command line. */
  datatype Launch = Launch(caseIndex: nat, baseline: bool, commandLine: string)

  /** How a run that exited with a failure status ends: a Fail carrying its
      stderr, or a Rust `Err` when stderr is not UTF-8. */
  function NonZero(stderr: seq<byte>): (o: RunOutcome)
    ensures o.Ran? <==> Decode(stderr).Some?
    ensures o.Ran? ==> o.result == Fail(NonZeroExit + Decode(stderr).value)
    ensures !o.Ran? ==> o == Error(InvalidUtf8)
  {
    match Decode(stderr)
    case None => Error(InvalidUtf8)
    case Some(e) => Ran(Fail(NonZeroExit + e))
  }

  /** The baseline run passed: it exited successfully and printed `0`, up to
      whitespace. */
  predicate BaselineOk(b: Invocation) {
    b.Exited? && b.success && Decode(b.stdout).Some? && Trim(Decode(b.stdout).value) == "0"
  }

  /** The outcome of one case: the candidate's output with the two measured
      times, or how the run halts. */
  datatype CaseResult = Answered(output: string, baselineNs: nat, candidateNs: nat) | Halted(outcome: RunOutcome)

  /** One iteration of the case loop, in the source's order: the baseline
      must start, exit successfully, print UTF-8 and print `0`; then the case
      run must start, exit successfully and print UTF-8. The first check that
      fails decides how the run halts. */
  function RunCase(b: Invocation, c: Invocation): (r: CaseResult)
    ensures b.SpawnFailed? ==> r == Halted(Error(FailedToRun + b.reason))
    ensures b.Exited? && !b.success ==> r == Halted(NonZero(b.stderr))
    ensures b.Exited? && b.success && Decode(b.stdout).Some? && !BaselineOk(b) ==>
      r == Halted(Ran(Fail(WrongResult + ": " + Decode(b.stdout).value)))
    ensures BaselineOk(b) && c.SpawnFailed? ==> r == Halted(Error(FailedToRun + c.reason))
    ensures BaselineOk(b) && c.Exited? && !c.success ==> r == Halted(NonZero(c.stderr))
    ensures r.Answered? <==> BaselineOk(b) && c.Exited? && c.success && Decode(c.stdout).Some?
    ensures r.Answered? ==>
      r.output == Decode(c.stdout).value && r.baselineNs == b.durationNs && r.candidateNs == c.durationNs
    ensures r.Halted? ==> !(r.outcome.Ran? && r.outcome.result.Success?)
  {
    match b
    case SpawnFailed(e) => Halted(Error(FailedToRun + e))
    case Exited(ok, out, err, bd) =>
      if !ok then Halted(NonZero(err))
      else
        match Decode(out)
        case None => Halted(Error(InvalidUtf8))
        case Some(o) =>
          if Trim(o) != "0" then Halted(Ran(Fail(WrongResult + ": " + o)))
          else
            match c
            case SpawnFailed(e) => Halted(Error(FailedToRun + e))
            case Exited(ok2, out2, err2, cd) =>
              if !ok2 then Halted(NonZero(err2))
              else
                match Decode(out2)
                case None => Halted(Error(InvalidUtf8))
                case Some(o2) => Answered(o2, bd, cd)
  }

  /** The result of every case, each from its own baseline and case launch. */
  function CaseResults(g: OddOneOut.Generator, command: string, launch: Launch -> Invocation): (rs: seq<CaseResult>)
    ensures |rs| == |g.testCases|
    ensures NoHaltedSuccess(rs)
    ensures forall i :: 0 <= i < |rs| ==> rs[i] == RunCase(
      launch(Launch(i, true, BaselineCommand(command))),
      launch(Launch(i, false, CaseCommand(command, g.testCases[i]))))
  {
    var rs := seq(|g.testCases|, i requires 0 <= i < |g.testCases| => RunCase(
      launch(Launch(i, true, BaselineCommand(command))),
      launch(Launch(i, false, CaseCommand(command, g.testCases[i])))));
    forall i | 0 <= i < |rs| && rs[i].Halted? ensures !(rs[i].outcome.Ran? && rs[i].outcome.result.Success?) {
      var r := RunCase(launch(Launch(i, true, BaselineCommand(command))), launch(Launch(i, false, CaseCommand(command, g.testCases[i]))));
      assert rs[i] == r;
    }
    rs
  }

  function Sum(ns: seq<nat>): nat
    decreases |ns|
  {
    if |ns| == 0 then 0 else Sum(ns[..|ns| - 1]) + ns[|ns| - 1]
  }

  /** The totals of a loop that ran to the end, or how it halted. */
  datatype Tally = Totals(outputs: seq<string>, baselineNs: nat, elapsedNs: nat) | Halt(outcome: RunOutcome)

  /** Case `k` is the first that halts, with outcome `o`. */
  predicate HaltsAt(rs: seq<CaseResult>, k: int, o: RunOutcome) {
    && 0 <= k < |rs|
    && rs[k].Halted?
    && (forall i :: 0 <= i < k ==> rs[i].Answered?)
    && o == rs[k].outcome
  }

  function BaselineTimes(rs: seq<CaseResult>): (ns: seq<nat>)
    ensures |ns| == |rs|
  {
    seq(|rs|, i requires 0 <= i < |rs| => if rs[i].Answered? then rs[i].baselineNs else 0)
  }

  function CandidateTimes(rs: seq<CaseResult>): (ns: seq<nat>)
    ensures |ns| == |rs|
  {
    seq(|rs|, i requires 0 <= i < |rs| => if rs[i].Answered? then rs[i].candidateNs else 0)
  }

  /** The case loop: it runs to the end exactly when every case answers,
      collecting the outputs in order and summing both kinds of time;
      otherwise it halts with the outcome of the first case that halts. */
  function TallyOf(rs: seq<CaseResult>): (t: Tally)
    ensures t.Totals? <==> forall i :: 0 <= i < |rs| ==> rs[i].Answered?
    ensures t.Totals? ==> |t.outputs| == |rs| && forall i :: 0 <= i < |rs| ==> t.outputs[i] == rs[i].output
    ensures t.Totals? ==> t.baselineNs == Sum(BaselineTimes(rs)) && t.elapsedNs == Sum(CandidateTimes(rs))
    ensures t.Halt? ==> exists k :: HaltsAt(rs, k, t.outcome)
    ensures t.Halt? && NoHaltedSuccess(rs) ==> !(t.outcome.Ran? && t.outcome.result.Success?)
    decreases |rs|
  {
    if |rs| == 0 then Totals([], 0, 0)
    else
      var init := rs[..|rs| - 1];
      var last := rs[|rs| - 1];
      match TallyOf(init)
      case Halt(o) =>
        var k :| HaltsAt(init, k, o);
        assert HaltsAt(rs, k, o);
        Halt(o)
      case Totals(outs, b, e) =>
        match last
        case Halted(o) =>
          assert HaltsAt(rs, |rs| - 1, o);
          Halt(o)
        case Answered(out, bd, cd) =>
          assert BaselineTimes(rs)[..|rs| - 1] == BaselineTimes(init);
          assert CandidateTimes(rs)[..|rs| - 1] == CandidateTimes(init);
          Totals(outs + [out], b + bd, e + cd)
  }

  /** `run`. Only a Success may start it; the case loop runs; a baseline sum
      above the case sum is a Rust `Err`; otherwise the corrected time goes
      through the overflow guard and the joined outputs through
      `check_answer`. */
  function Run(g: OddOneOut.Generator, test: TestResult, launch: Launch -> Invocation): (o: RunOutcome)
    ensures !test.Success? ==> o == Error(NeedSuccess)
    ensures test.Success? ==>
      var t := TallyOf(CaseResults(g, test.score.command, launch));
      t.Totals? && t.baselineNs > t.elapsedNs ==> o == Error(BadBaseline)
    ensures test.Success? ==>
      var t := TallyOf(CaseResults(g, test.score.command, launch));
      && (t.Halt? ==> o == t.outcome)
      && (t.Totals? && t.baselineNs <= t.elapsedNs && t.elapsedNs - t.baselineNs > U64Max ==> o == Ran(Fail(TooSlow)))
      && (t.Totals? && t.baselineNs <= t.elapsedNs && t.elapsedNs - t.baselineNs <= U64Max ==>
            && (o.Panic? <==> ParseIntegerArray(ArrayText(t.outputs, ", "), 0, U8Max).None?)
            && (o.Panic? ==> o == Panic(MalformedJson))
            && (o.Ran? && o.result.Success? <==> ParseIntegerArray(ArrayText(t.outputs, ", "), 0, U8Max) == Some(g.answer)))
    ensures test.Success? && o.Ran? && o.result.Success? ==>
      var t := TallyOf(CaseResults(g, test.score.command, launch));
      && t.Totals?
      && t.baselineNs <= t.elapsedNs
      && t.elapsedNs - t.baselineNs <= U64Max
      && o.result.score == test.score.(timeNs := t.elapsedNs - t.baselineNs)
      && ParseIntegerArray(ArrayText(t.outputs, ", "), 0, U8Max) == Some(g.answer)
  {
    if !test.Success? then Error(NeedSuccess)
    else Conclusion(g, test.score, CaseResults(g, test.score.command, launch))
  }

  /** No case halts with a Success. */
  predicate NoHaltedSuccess(rs: seq<CaseResult>) {
    forall i :: 0 <= i < |rs| && rs[i].Halted? ==> !(rs[i].outcome.Ran? && rs[i].outcome.result.Success?)
  }

  /** What follows the case loop, from every case's result. */
  function Conclusion(g: OddOneOut.Generator, score: Score, rs: seq<CaseResult>): (o: RunOutcome)
    requires NoHaltedSuccess(rs)
    ensures var t := TallyOf(rs);
      t.Totals? && t.baselineNs > t.elapsedNs ==> o == Error(BadBaseline)
    ensures var t := TallyOf(rs);
      && (t.Halt? ==> o == t.outcome)
      && (t.Totals? && t.baselineNs <= t.elapsedNs && t.elapsedNs - t.baselineNs > U64Max ==> o == Ran(Fail(TooSlow)))
      && (t.Totals? && t.baselineNs <= t.elapsedNs && t.elapsedNs - t.baselineNs <= U64Max ==>
            && (o.Panic? <==> ParseIntegerArray(ArrayText(t.outputs, ", "), 0, U8Max).None?)
            && (o.Panic? ==> o == Panic(MalformedJson))
            && (o.Ran? && o.result.Success? <==> ParseIntegerArray(ArrayText(t.outputs, ", "), 0, U8Max) == Some(g.answer)))
    ensures o.Ran? && o.result.Success? ==>
      var t := TallyOf(rs);
      && t.Totals?
      && t.baselineNs <= t.elapsedNs
      && t.elapsedNs - t.baselineNs <= U64Max
      && o.result.score == score.(timeNs := t.elapsedNs - t.baselineNs)
      && ParseIntegerArray(ArrayText(t.outputs, ", "), 0, U8Max) == Some(g.answer)
  {
    Finish(g, score, TallyOf(rs))
  }

  /** What follows the case loop. */
  function Finish(g: OddOneOut.Generator, score: Score, t: Tally): (o: RunOutcome)
    ensures t.Halt? ==> o == t.outcome
    ensures t.Totals? && t.baselineNs > t.elapsedNs ==> o == Error(BadBaseline)
    ensures t.Totals? && t.baselineNs <= t.elapsedNs && t.elapsedNs - t.baselineNs > U64Max ==> o == Ran(Fail(TooSlow))
    ensures t.Totals? && t.baselineNs <= t.elapsedNs && t.elapsedNs - t.baselineNs <= U64Max ==>
            && (o.Panic? <==> ParseIntegerArray(ArrayText(t.outputs, ", "), 0, U8Max).None?)
            && (o.Panic? ==> o == Panic(MalformedJson))
            && (o.Ran? && o.result.Success? <==> ParseIntegerArray(ArrayText(t.outputs, ", "), 0, U8Max) == Some(g.answer))
    ensures t.Totals? && o.Ran? && o.result.Success? ==>
      && t.baselineNs <= t.elapsedNs
      && t.elapsedNs - t.baselineNs <= U64Max
      && o.result.score == score.(timeNs := t.elapsedNs - t.baselineNs)
      && ParseIntegerArray(ArrayText(t.outputs, ", "), 0, U8Max) == Some(g.answer)
  {
    match t
    case Halt(o) => o
    case Totals(outputs, b, e) =>
      if b > e then Error(BadBaseline)
      else Conclude(score, e - b, CheckAnswer(g, ArrayText(outputs, ", ")))
  }

  /** Case i was run honestly: the baseline printed `0` and the case run
      printed the recorded answer, each on its own line, and both exited
      successfully. */
  predicate Honest(g: OddOneOut.Generator, command: string, launch: Launch -> Invocation, i: nat)
    requires i < |g.testCases| && i < |g.answer| && g.answer[i] >= 0
  {
    var b := launch(Launch(i, true, BaselineCommand(command)));
    var c := launch(Launch(i, false, CaseCommand(command, g.testCases[i])));
    && b.Exited? && b.success && b.stdout == PrintedLine(0)
    && c.Exited? && c.success && c.stdout == PrintedLine(g.answer[i])
  }

  /** An honest case answers with the recorded answer and a newline. */
  lemma HonestCase(g: OddOneOut.Generator, command: string, launch: Launch -> Invocation, i: nat)
    requires i < |g.testCases| && i < |g.answer| && g.answer[i] >= 0
    requires Honest(g, command, launch, i)
    ensures CaseResults(g, command, launch)[i].Answered?
    ensures CaseResults(g, command, launch)[i].output == IntToString(g.answer[i]) + "\n"
  {
    var b := launch(Launch(i, true, BaselineCommand(command)));
    var c := launch(Launch(i, false, CaseCommand(command, g.testCases[i])));
    PrintedLineDecodes(0);
    TrimDigitLine("0");
    assert BaselineOk(b);
    PrintedLineDecodes(g.answer[i]);
    assert Decode(c.stdout) == Some(IntToString(g.answer[i]) + "\n");
  }

  /** Honest cases tally to the answers, each followed by a newline. */
  lemma HonestTally(g: OddOneOut.Generator, command: string, launch: Launch -> Invocation)
    requires |g.answer| == |g.testCases|
    requires forall i :: 0 <= i < |g.answer| ==> g.answer[i] >= 0
    requires forall i :: 0 <= i < |g.testCases| ==> Honest(g, command, launch, i)
    ensures var t := TallyOf(CaseResults(g, command, launch));
      t.Totals? && t.outputs == PaddedIntegers(g.answer, seq(|g.answer|, _ => "\n"))
  {
    var rs := CaseResults(g, command, launch);
    var pads := seq(|g.answer|, _ => "\n");
    forall i | 0 <= i < |rs| ensures rs[i].Answered? && rs[i].output == IntToString(g.answer[i]) + pads[i] {
      HonestCase(g, command, launch, i);
    }
  }

  /** Outputs that are the answers, one per line, are accepted. */
  lemma AnswersAccepted(g: OddOneOut.Generator, outputs: seq<string>)
    requires forall i :: 0 <= i < |g.answer| ==> 0 <= g.answer[i] <= U8Max
    requires outputs == PaddedIntegers(g.answer, seq(|g.answer|, _ => "\n"))
    ensures CheckAnswer(g, ArrayText(outputs, ", ")) == Verdict(true)
  {
    var pads := seq(|g.answer|, _ => "\n");
    assert "," + " " == ", ";
    OddOneOut.CheckAnswerMeansEquality(g, g.answer, pads, " ", 0, U8Max);
  }

  /** Honest cases tally to a text `check_answer` accepts. */
  lemma HonestAccepted(g: OddOneOut.Generator, command: string, launch: Launch -> Invocation)
    requires |g.answer| == |g.testCases|
    requires forall i :: 0 <= i < |g.answer| ==> 0 <= g.answer[i] <= U8Max
    requires forall i :: 0 <= i < |g.testCases| ==> Honest(g, command, launch, i)
    ensures var t := TallyOf(CaseResults(g, command, launch));
      t.Totals? && CheckAnswer(g, ArrayText(t.outputs, ", ")) == Verdict(true)
  {
    HonestTally(g, command, launch);
    AnswersAccepted(g, TallyOf(CaseResults(g, command, launch)).outputs);
  }

  /** A candidate that prints every answer, run against a baseline that
      prints `0`, runs the loop to the end and succeeds with the summed case
      time less the summed baseline time, as long as that difference is
      neither negative nor beyond `u64::MAX`. */
  lemma HonestRun(g: OddOneOut.Generator, score: Score, launch: Launch -> Invocation)
    requires |g.answer| == |g.testCases|
    requires forall i :: 0 <= i < |g.answer| ==> 0 <= g.answer[i] <= U8Max
    requires forall i :: 0 <= i < |g.testCases| ==> Honest(g, score.command, launch, i)
    requires var t := TallyOf(CaseResults(g, score.command, launch));
      t.Totals? ==> t.baselineNs <= t.elapsedNs <= t.baselineNs + U64Max
    ensures var t := TallyOf(CaseResults(g, score.command, launch));
      && t.Totals?
      && Run(g, Success(score), launch) == Ran(Success(score.(timeNs := t.elapsedNs - t.baselineNs)))
  {
    var rs := CaseResults(g, score.command, launch);
    HonestAccepted(g, score.command, launch);
    RunAccepted(g, score, rs, TallyOf(rs));
  }

  /** A loop that ran to the end, with times in order and accepted outputs,
      is a Success with the corrected time. */
  lemma RunAccepted(g: OddOneOut.Generator, score: Score, rs: seq<CaseResult>, t: Tally)
    requires t == TallyOf(rs) && NoHaltedSuccess(rs)
    requires t.Totals? && t.baselineNs <= t.elapsedNs <= t.baselineNs + U64Max
    requires CheckAnswer(g, ArrayText(t.outputs, ", ")) == Verdict(true)
    ensures Conclusion(g, score, rs) == Ran(Success(score.(timeNs := t.elapsedNs - t.baselineNs)))
  {
    assert Conclusion(g, score, rs) == Finish(g, score, t);
    FinishAccepted(g, score, t);
  }

  lemma FinishAccepted(g: OddOneOut.Generator, score: Score, t: Tally)
    requires t.Totals? && t.baselineNs <= t.elapsedNs <= t.baselineNs + U64Max
    requires CheckAnswer(g, ArrayText(t.outputs, ", ")) == Verdict(true)
    ensures Finish(g, score, t) == Ran(Success(score.(timeNs := t.elapsedNs - t.baselineNs)))
  {
  }
}

=== FILE: g2334.dfy ===
/** Challenge 23.3.4, find the special character: every case is a string of
    1000 alphanumeric characters with one character from a fixed set of
    fourteen "bad" characters placed in it, and the candidate answers each
    case with that character, as the first byte of its reply. */
module G2334 {
  import opened Wrappers
  import opened Text
  import opened Utf8
  import opened Process
  import opened TestResults
  import opened Streaming

  const TestSize: nat := 1000

  /** The fourteen characters a case hides. */
  const BadChars: seq<char> := ['"', '+', '?', '|', '*', ' ', '(', ')', '[', ']', '{', '}', '\\', '/']

  predicate IsBad(c: char) {
    c in BadChars
  }

  /** No alphanumeric character is a bad one, and both kinds are ASCII. */
  lemma BadCharsApart(c: char)
    ensures IsBad(c) ==> !IsAlphanumeric(c) && (c as int) < 0x80
    ensures IsAlphanumeric(c) ==> (c as int) < 0x80
  {
    if IsAlphanumeric(c) {
      assert 'z' as int == 0x7A;
    }
  }

  /** The random choices behind one case: the 1000 alphanumeric characters,
      the index of the bad character, and where it goes in test mode. */
  datatype SpecialDraw = SpecialDraw(text: string, pick: nat, position: nat)

  predicate WellFormed(d: SpecialDraw) {
    && |d.text| == TestSize
    && (forall i :: 0 <= i < |d.text| ==> IsAlphanumeric(d.text[i]))
    && d.pick < |BadChars|
    && d.position < TestSize
  }

  /** `G2334`: how many cases it makes, the cases, and the answer string,
      one character per case. */
  datatype Generator = Generator(count: nat, testCases: seq<string>, answer: string)

  /** The character a draw hides. */
  function Hidden(d: SpecialDraw): (c: char)
    requires WellFormed(d)
    ensures IsBad(c)
  {
    BadChars[d.pick]
  }

  /** Where the hidden character ends up: at the drawn position when the
      generator makes the test-mode count, appended otherwise. */
  function Place(count: nat, d: SpecialDraw): (p: nat)
    requires WellFormed(d)
    ensures p <= TestSize
    ensures count == TestSamples ==> p < TestSize
  {
    if count == TestSamples then d.position else TestSize
  }

  /** One case: the hidden character inserted (test mode) or pushed. */
  function MakeCase(count: nat, d: SpecialDraw): (s: string)
    requires WellFormed(d)
    ensures |s| == TestSize + 1
  {
    if count == TestSamples then d.text[..d.position] + [Hidden(d)] + d.text[d.position..]
    else d.text + [Hidden(d)]
  }

  /** A case holds the hidden character at its place and alphanumeric
      characters everywhere else, so it holds exactly one bad character. */
  lemma CaseShape(count: nat, d: SpecialDraw)
    requires WellFormed(d)
    ensures var s := MakeCase(count, d); var p := Place(count, d);
      && |s| == TestSize + 1
      && s[p] == Hidden(d)
      && (forall j :: 0 <= j < |s| && j != p ==> IsAlphanumeric(s[j]))
      && (forall j :: 0 <= j < |s| ==> (IsBad(s[j]) <==> j == p))
  {
    var s := MakeCase(count, d);
    var p := Place(count, d);
    forall j | 0 <= j < |s| && j != p ensures IsAlphanumeric(s[j]) {
      if j < p {
        assert s[j] == d.text[j];
      } else {
        assert s[j] == d.text[j - 1];
      }
    }
    forall j | 0 <= j < |s| ensures IsBad(s[j]) <==> j == p {
      BadCharsApart(s[j]);
    }
  }

  /** `regenerate`: both the cases and the answer are replaced, one case
      and one answer character per draw. */
  function Regenerate(g: Generator, draws: seq<SpecialDraw>): (r: Generator)
    requires |draws| == g.count
    requires forall i :: 0 <= i < |draws| ==> WellFormed(draws[i])
    ensures r.count == g.count && |r.testCases| == g.count && |r.answer| == g.count
    ensures forall i :: 0 <= i < g.count ==>
      r.testCases[i] == MakeCase(g.count, draws[i]) && r.answer[i] == Hidden(draws[i])
  {
    Generator(
      g.count,
      seq(|draws|, i requires 0 <= i < |draws| => MakeCase(g.count, draws[i])),
      seq(|draws|, i requires 0 <= i < |draws| => Hidden(draws[i])))
  }

  /** `new(test)`: an empty generator of the mode's count, regenerated. */
  function New(test: bool, draws: seq<SpecialDraw>): (g: Generator)
    requires |draws| == SampleCount(test)
    requires forall i :: 0 <= i < |draws| ==> WellFormed(draws[i])
    ensures g.count == SampleCount(test) && |g.testCases| == g.count && |g.answer| == g.count
  {
    Regenerate(Generator(SampleCount(test), [], ""), draws)
  }

  /** The first bad character of a string, as `chars().find` returns it. */
  function FindBad(s: string): (r: Option<char>)
    ensures r.Some? ==> IsBad(r.value)
  {
    if |s| == 0 then None
    else if IsBad(s[0]) then Some(s[0])
    else FindBad(s[1..])
  }

  /** The first bad character is the one at `p` when none comes before it. */
  lemma {:induction false} FindBadAt(s: string, p: nat)
    requires p < |s| && IsBad(s[p])
    requires forall j :: 0 <= j < p ==> !IsBad(s[j])
    ensures FindBad(s) == Some(s[p])
    decreases p
  {
    if p > 0 {
      assert !IsBad(s[0]);
      FindBadAt(s[1..], p - 1);
    }
  }

  /** After `new` (and after any `regenerate`): as many cases and answer
      characters as the count, every case of length 1001 holding exactly
      one bad character, which is the case's answer character and the
      first bad character found in it. */
  lemma NewCases(test: bool, draws: seq<SpecialDraw>, i: nat)
    requires |draws| == SampleCount(test) && i < |draws|
    requires forall j :: 0 <= j < |draws| ==> WellFormed(draws[j])
    ensures var g := New(test, draws); var s := g.testCases[i];
      && |g.testCases| == |g.answer| == SampleCount(test)
      && |s| == TestSize + 1
      && (forall j :: 0 <= j < |s| ==> (IsBad(s[j]) <==> s[j] == g.answer[i]))
      && FindBad(s) == Some(g.answer[i])
  {
    var g := New(test, draws);
    var d := draws[i];
    assert WellFormed(d);
    var s := g.testCases[i];
    var p := Place(SampleCount(test), d);
    CaseShape(SampleCount(test), d);
    assert s == MakeCase(SampleCount(test), d);
    forall j | 0 <= j < |s| ensures IsBad(s[j]) <==> s[j] == g.answer[i] {
      BadCharsApart(s[j]);
    }
    FindBadAt(s, p);
  }

  /** `check_answer`: plain string equality with the answer. */
  function CheckAnswer(g: Generator, data: string): (c: Checked)
    ensures c.Verdict? && (c.correct <==> data == g.answer)
  {
    Verdict(g.answer == data)
  }

  /** The bytes written to the child for one case: the case's characters,
      no newline. */
  function CaseBytes(s: string): (bs: seq<byte>)
    requires forall j :: 0 <= j < |s| ==> IsAlphanumeric(s[j]) || IsBad(s[j])
    ensures |bs| == |s|
  {
    assert forall j :: 0 <= j < |s| ==> (s[j] as int) < 0x80 by {
      forall j | 0 <= j < |s| ensures (s[j] as int) < 0x80 {
        BadCharsApart(s[j]);
      }
    }
    AsciiBytes(s)
  }

  /** The written bytes are the case, read as UTF-8. */
  lemma CaseBytesDecode(count: nat, d: SpecialDraw)
    requires WellFormed(d)
    ensures var s := MakeCase(count, d);
      (forall j :: 0 <= j < |s| ==> IsAlphanumeric(s[j]) || IsBad(s[j])) &&
      Decode(CaseBytes(s)) == Some(s)
  {
    var s := MakeCase(count, d);
    CaseShape(count, d);
    forall j | 0 <= j < |s| ensures (s[j] as int) < 0x80 {
      BadCharsApart(s[j]);
    }
    AsciiRoundTrip(s);
  }

  /** The answer string a child's first `n` replies spell, one Latin-1
      character per reply. */
  function FirstBytes(child: Child, n: nat): (s: string)
    requires forall i :: 0 <= i < n ==> |Reply(child, i)| >= 2
    ensures |s| == n
  {
    seq(n, i requires 0 <= i < n => Reply(child, i)[0] as char)
  }

  /** `run`: on a Success, every case is written to the child and the first
      byte of each reply is kept; a reply of fewer than two bytes fails the
      run at once; then the u64 guard and `check_answer` decide. */
  function Run(g: Generator, test: TestResult, child: Child): (o: RunOutcome)
    ensures !test.Success? ==> o == Error(NeedSuccess)
    ensures test.Success? && (exists i :: 0 <= i < |g.testCases| && |Reply(child, i)| < 2) ==>
      o == Ran(Fail(TooFewCharacters))
    ensures test.Success? && (forall i :: 0 <= i < |g.testCases| ==> |Reply(child, i)| >= 2) ==>
      && (child.elapsedNs > U64Max ==> o == Ran(Fail(TooSlow)))
      && (o.Ran? && o.result.Success? <==>
            child.elapsedNs <= U64Max && FirstBytes(child, |g.testCases|) == g.answer)
    ensures o.Ran? && o.result.Success? ==> o.result.score == test.score.(timeNs := child.elapsedNs)
    ensures test.Success? ==> o.Ran? && !o.result.Stolen?
  {
    if !test.Success? then Error(NeedSuccess)
    else
      match CollectFirstBytes(child, |g.testCases|)
      case Stopped(o) => o
      case Collected(cs) =>
        assert cs == FirstBytes(child, |g.testCases|);
        Conclude(test.score, child.elapsedNs, CheckAnswer(g, cs))
  }

  /** A child that replies to case i with the i-th answer character and a
      newline succeeds, timed by its elapsed time. */
  lemma HonestRun(g: Generator, score: Score, elapsedNs: nat)
    requires |g.answer| == |g.testCases|
    requires forall i :: 0 <= i < |g.answer| ==> (g.answer[i] as int) < 0x80
    requires elapsedNs <= U64Max
    ensures var replies := seq(|g.answer|, i requires 0 <= i < |g.answer| => [g.answer[i] as byte, '\n' as byte]);
      Run(g, Success(score), Child(replies, elapsedNs)) == Ran(Success(score.(timeNs := elapsedNs)))
  {
    var replies: seq<Chunk> := seq(|g.answer|, i requires 0 <= i < |g.answer| => [g.answer[i] as byte, '\n' as byte]);
    var child := Child(replies, elapsedNs);
    assert FirstBytes(child, |g.testCases|) == g.answer;
  }
}

=== FILE: g2412.dfy ===
/** Challenge 24.1.2, count the prime factors: every case is a `u128`,
    written to the candidate as a decimal line, and the candidate answers
    each case with the number of prime factors, one short line per case.
    The factorisation itself is a parameter. */
module G2412 {
  import opened Wrappers
  import opened Text
  import opened Json
  import opened Process
  import opened TestResults
  import opened Streaming


  /** `u128::MAX`; draws come from `0..u128::MAX`, so they stay below it. */
  const U128Max: nat := 0xFFFF_FFFF_FFFF_FFFF_FFFF_FFFF_FFFF_FFFF

  /** `G2412`: how many cases it makes, the cases, and the recorded factor
      counts. */
  datatype Generator = Generator(count: nat, testCases: seq<nat>, answer: seq<nat>)

  /** `regenerate`: the cases are replaced by the draws, and for each draw
      its factor count is appended to the answers, which are never
      cleared. */
  function Regenerate(g: Generator, draws: seq<nat>, factorCount: nat -> nat): (r: Generator)
    requires |draws| == g.count
    requires forall i :: 0 <= i < |draws| ==> draws[i] < U128Max
    ensures r.count == g.count && r.testCases == draws
    ensures |r.answer| == |g.answer| + g.count && r.answer[..|g.answer|] == g.answer
    ensures forall i :: 0 <= i < g.count ==> r.answer[|g.answer| + i] == factorCount(draws[i])
  {
    var counts := seq(|draws|, i requires 0 <= i < |draws| => factorCount(draws[i]));
    var r := g.(testCases := draws, answer := g.answer + counts);
    assert r.answer[..|g.answer|] == g.answer;
    r
  }

  /** `new(test)`: an empty generator of the mode's count, regenerated. */
  function New(test: bool, draws: seq<nat>, factorCount: nat -> nat): (g: Generator)
    requires |draws| == SampleCount(test)
    requires forall i :: 0 <= i < |draws| ==> draws[i] < U128Max
    ensures g.count == SampleCount(test) && g.testCases == draws
    ensures |g.answer| == g.count && forall i :: 0 <= i < g.count ==> g.answer[i] == factorCount(draws[i])
  {
    Regenerate(Generator(SampleCount(test), [], []), draws, factorCount)
  }

  /** A second `regenerate` leaves twice as many answers as cases. */
  lemma RegenerateTwice(test: bool, draws: seq<nat>, more: seq<nat>, factorCount: nat -> nat)
    requires |draws| == SampleCount(test) && |more| == SampleCount(test)
    requires forall i :: 0 <= i < |draws| ==> draws[i] < U128Max
    requires forall i :: 0 <= i < |more| ==> more[i] < U128Max
    ensures var g := Regenerate(New(test, draws, factorCount), more, factorCount);
      |g.testCases| == SampleCount(test) && |g.answer| == 2 * SampleCount(test)
  {
  }

  /** `print_test_case`: the decimal value and a newline. A candidate that
      trims the line it reads and parses a `u128` gets the case back. */
  function PrintTestCase(v: nat): (r: string)
    ensures v < U128Max ==> ParseUnsigned(Trim(r), U128Max) == Ok(v)
  {
    var d := NatToString(v);
    assert v < U128Max ==> ParseUnsigned(Trim(d + "\n"), U128Max) == Ok(v) by {
      TrimDigitLine(d);
      assert UnsignedDigits(d) == d by {
        assert IsDigit(d[0]);
      }
    }
    d + "\n"
  }

  /** `check_answer` over `Vec<usize>`: a panic on text that is not such an
      array, otherwise whole-list equality with the answers. */
  function CheckAnswer(g: Generator, data: string): (c: Checked)
    ensures c.Abort? <==> ParseIntegerArray(data, 0, U64Max).None?
    ensures c.Abort? ==> c.message == MalformedJson
    ensures c.Verdict? ==> (c.correct <==> ParseIntegerArray(data, 0, U64Max) == Some(g.answer))
  {
    match ParseIntegerArray(data, 0, U64Max)
    case None => Abort(MalformedJson)
    case Some(xs) => Verdict(xs == g.answer)
  }

  /** `run`: on a Success, every case is written as its printed line and one
      reply is read per case; the first reply that is too short, not UTF-8
      or not a `u32` ends the run; otherwise the numbers read are assembled
      into a JSON array, and the u64 guard and `check_answer` decide. Since
      the assembled text always parses, `check_answer` never panics here. */
  function Run(g: Generator, test: TestResult, child: Child): (o: RunOutcome)
    ensures !test.Success? ==> o == Error(NeedSuccess)
    ensures var fs := Frames(child, |g.testCases|);
      test.Success? && !(forall i :: 0 <= i < |fs| ==> fs[i].Number?) ==>
        exists k :: StopsAt(fs, k, o)
    ensures var fs := Frames(child, |g.testCases|);
      test.Success? && (forall i :: 0 <= i < |fs| ==> fs[i].Number?) ==>
        && (child.elapsedNs > U64Max ==> o == Ran(Fail(TooSlow)))
        && (child.elapsedNs <= U64Max ==> o.Ran?)
        && (o.Ran? && o.result.Success? <==> child.elapsedNs <= U64Max && Values(fs) == g.answer)
    ensures o.Ran? && o.result.Success? ==> o.result.score == test.score.(timeNs := child.elapsedNs)
    ensures o.Ran? && o.result.Success? ==> |g.answer| == |g.testCases|
    ensures !o.Panic?
  {
    if !test.Success? then Error(NeedSuccess)
    else
      var fs := Frames(child, |g.testCases|);
      match CollectNumbers(fs)
      case Stopped(o) => o
      case Collected(texts) =>
        AssembledNumbers(fs, texts);
        Conclude(test.score, child.elapsedNs, CheckAnswer(g, ArrayText(texts, ", ")))
  }

  /** A child that prints every answer on its own line (each below 10 000,
      so one read takes it whole) succeeds, timed by its elapsed time. */
  lemma HonestRun(g: Generator, score: Score, child: Child)
    requires |g.answer| == |g.testCases| == |child.replies|
    requires forall i :: 0 <= i < |g.answer| ==> g.answer[i] < 10000 && child.replies[i] == PrintedLine(g.answer[i])
    requires child.elapsedNs <= U64Max
    ensures Run(g, Success(score), child) == Ran(Success(score.(timeNs := child.elapsedNs)))
  {
    HonestFrames(g, child);
  }

  /** Every printed answer is read back as itself. */
  lemma HonestFrames(g: Generator, child: Child)
    requires |g.answer| == |child.replies|
    requires forall i :: 0 <= i < |g.answer| ==> g.answer[i] < 10000 && child.replies[i] == PrintedLine(g.answer[i])
    ensures var fs := Frames(child, |g.answer|);
      (forall i :: 0 <= i < |fs| ==> fs[i].Number?) && Values(fs) == g.answer
  {
    var fs := Frames(child, |g.answer|);
    forall i | 0 <= i < |g.answer| ensures fs[i] == Number(g.answer[i]) {
      PrintedNumberReadsBack(g.answer[i]);
    }
  }
}

=== FILE: g2414.dfy ===
/** Challenge 24.1.4, the Caesar shift: every case is 1000 alphanumeric
    characters and a shift, written to the candidate as two lines, and the
    recorded answer is the text encrypted with the shift reduced modulo 26.
    The streaming loop reads numbers, although `check_answer` expects an
    array of strings. */
module G2414 {
  import opened Wrappers
  import opened Text
  import opened Json
  import opened Process
  import opened TestResults
  import opened Streaming
  import Caesar

  const TestSize: nat := 1000

  /** Shifts are drawn from `0..255`. */
  const ShiftBound: nat := 255

  /** The random choices behind one case: the text and the shift. */
  datatype CipherDraw = CipherDraw(text: string, shift: nat)

  predicate WellFormed(d: CipherDraw) {
    && |d.text| == TestSize
    && (forall i :: 0 <= i < |d.text| ==> IsAlphanumeric(d.text[i]))
    && d.shift < ShiftBound
  }

  /** `G2414`: how many cases it makes, the (text, shift) cases, and the
      recorded cipher texts. */
  datatype Generator = Generator(count: nat, testCases: seq<(string, nat)>, answer: seq<string>)

  /** `regenerate` as written: the key handed to the cipher is the shift
      modulo 26, and the cipher's constructor panics on key 0, so a drawn
      shift that is a multiple of 26 aborts the whole regeneration. */
  function RegenerateAsWritten(g: Generator, draws: seq<CipherDraw>): (r: Option<Generator>)
    requires |draws| == g.count
    requires forall i :: 0 <= i < |draws| ==> WellFormed(draws[i])
    ensures r.None? <==> exists i :: 0 <= i < |draws| && !Caesar.ValidKey(draws[i].shift % 26)
    ensures r.Some? ==> |r.value.answer| == g.count && forall i :: 0 <= i < g.count ==>
      r.value.answer[i] == Caesar.Encrypt(draws[i].shift % 26, draws[i].text)
  {
    if exists i :: 0 <= i < |draws| && !Caesar.ValidKey(draws[i].shift % 26) then None
    else
      Some(Generator(
        g.count,
        seq(|draws|, i requires 0 <= i < |draws| => (draws[i].text, draws[i].shift)),
        seq(|draws|, i requires 0 <= i < |draws| => Caesar.Encrypt(draws[i].shift % 26, draws[i].text))))
  }

  /** A single draw with shift 0 (or 26, 52, ...) makes `regenerate`
      panic. */
  lemma ZeroShiftPanics(text: string)
    requires WellFormed(CipherDraw(text, 0))
    ensures RegenerateAsWritten(Generator(1, [], []), [CipherDraw(text, 0)]).None?
  {
    assert !Caesar.ValidKey([CipherDraw(text, 0)][0].shift % 26);
  }

  /** The key a shift evidently stands for: the one in 1..=26 congruent to
      it, so that a multiple of 26 encrypts with the full turn. */
  function Key(shift: nat): (k: nat)
    ensures Caesar.ValidKey(k) && k % 26 == shift % 26
  {
    if shift % 26 == 0 then 26 else shift % 26
  }

  /** `regenerate` with the key in range: both fields are replaced, and the
      answer to each case is its text encrypted with the shift's key. */
  function Regenerate(g: Generator, draws: seq<CipherDraw>): (r: Generator)
    requires |draws| == g.count
    requires forall i :: 0 <= i < |draws| ==> WellFormed(draws[i])
    ensures r.count == g.count && |r.testCases| == g.count && |r.answer| == g.count
    ensures forall i :: 0 <= i < g.count ==>
      r.testCases[i] == (draws[i].text, draws[i].shift) &&
      r.answer[i] == Caesar.Encrypt(Key(draws[i].shift), draws[i].text)
  {
    Generator(
      g.count,
      seq(|draws|, i requires 0 <= i < |draws| => (draws[i].text, draws[i].shift)),
      seq(|draws|, i requires 0 <= i < |draws| => Caesar.Encrypt(Key(draws[i].shift), draws[i].text)))
  }

  /** Where no shift is a multiple of 26, the corrected `regenerate` is the
      one as written. */
  lemma RegenerateAgrees(g: Generator, draws: seq<CipherDraw>)
    requires |draws| == g.count
    requires forall i :: 0 <= i < |draws| ==> WellFormed(draws[i]) && draws[i].shift % 26 != 0
    ensures RegenerateAsWritten(g, draws) == Some(Regenerate(g, draws))
  {
    var r := RegenerateAsWritten(g, draws);
    assert r.Some?;
    assert r.value.testCases == Regenerate(g, draws).testCases;
    assert r.value.answer == Regenerate(g, draws).answer;
  }

  /** `new(test)`: an empty generator of the mode's count, regenerated. */
  function New(test: bool, draws: seq<CipherDraw>): (g: Generator)
    requires |draws| == SampleCount(test)
    requires forall i :: 0 <= i < |draws| ==> WellFormed(draws[i])
    ensures g.count == SampleCount(test) && |g.testCases| == g.count && |g.answer| == g.count
  {
    Regenerate(Generator(SampleCount(test), [], []), draws)
  }

  /** `new(test)` as written regenerates with the code as written: it panics
      as soon as one drawn shift is a multiple of 26, and otherwise makes the
      generator `New` makes. */
  function NewAsWritten(test: bool, draws: seq<CipherDraw>): (r: Option<Generator>)
    requires |draws| == SampleCount(test)
    requires forall i :: 0 <= i < |draws| ==> WellFormed(draws[i])
    ensures r.None? <==> exists i :: 0 <= i < |draws| && draws[i].shift % 26 == 0
    ensures r.Some? ==> r.value == New(test, draws)
  {
    var g := Generator(SampleCount(test), [], []);
    var r := RegenerateAsWritten(g, draws);
    if r.Some? then RegenerateAgrees(g, draws); r else r
  }

  /** Every answer is 1000 alphanumeric characters that decrypt, with the
      case's shift, to the case's text. */
  lemma AnswersDecrypt(g: Generator, draws: seq<CipherDraw>, i: nat)
    requires |draws| == g.count && i < g.count
    requires forall j :: 0 <= j < |draws| ==> WellFormed(draws[j])
    ensures var r := Regenerate(g, draws);
      && |r.answer[i]| == TestSize
      && (forall e :: 0 <= e < TestSize ==> IsAlphanumeric(r.answer[i][e]))
      && Caesar.Decrypt(Key(r.testCases[i].1), r.answer[i]) == r.testCases[i].0
  {
    var d := draws[i];
    assert WellFormed(d);
    var a := Caesar.Encrypt(Key(d.shift), d.text);
    forall e | 0 <= e < TestSize ensures IsAlphanumeric(a[e]) {
      Caesar.EncryptKeepsClasses(Key(d.shift), d.text, e);
    }
    Caesar.DecryptEncrypt(Key(d.shift), d.text);
  }

  /** `print_test_case`: the text, a newline, the shift in decimal, a
      newline. Read line by line, a printed case with an alphanumeric text
      gives back its text and, parsed as a `usize`, its shift. */
  function PrintTestCase(c: (string, nat)): (r: string)
    ensures (forall i :: 0 <= i < |c.0| ==> IsAlphanumeric(c.0[i])) ==>
      Split(r, '\n') == [c.0, NatToString(c.1), ""]
    ensures c.1 <= U64Max ==> ParseUnsigned(NatToString(c.1), U64Max) == Ok(c.1)
  {
    var d := NatToString(c.1);
    var r := c.0 + "\n" + d + "\n";
    var parts := [c.0, d, ""];
    assert (forall i :: 0 <= i < |c.0| ==> IsAlphanumeric(c.0[i])) ==> Split(r, '\n') == parts by {
      if forall i :: 0 <= i < |c.0| ==> IsAlphanumeric(c.0[i]) {
        assert Join(parts, "\n") == r by {
          assert Join(parts[2..], "\n") == "";
          assert Join(parts[1..], "\n") == d + "\n" + "";
        }
        assert '\n' !in c.0 by {
          forall i | 0 <= i < |c.0| ensures c.0[i] != '\n' {
            assert IsAlphanumeric(c.0[i]);
          }
        }
        assert '\n' !in d by {
          forall i | 0 <= i < |d| ensures d[i] != '\n' {
            assert IsDigit(d[i]);
          }
        }
        SplitJoin(parts, '\n');
      }
    }
    assert UnsignedDigits(d) == d by {
      assert IsDigit(d[0]);
    }
    r
  }

  /** `check_answer`: a panic unless the text is a JSON array of strings,
      otherwise whole-list equality with the recorded cipher texts. */
  function CheckAnswer(g: Generator, data: string): (c: Checked)
    ensures c.Abort? <==> ParseStringArray(data).None?
    ensures c.Abort? ==> c.message == MalformedJson
    ensures c.Verdict? ==> (c.correct <==> ParseStringArray(data) == Some(g.answer))
  {
    match ParseStringArray(data)
    case None => Abort(MalformedJson)
    case Some(xs) => Verdict(xs == g.answer)
  }

  /** Given a JSON array of strings, `check_answer` accepts exactly the
      recorded cipher texts, in order. */
  lemma CheckAnswerMeansEquality(g: Generator, xs: seq<string>)
    requires forall i :: 0 <= i < |xs| ==> NoControl(xs[i])
    ensures CheckAnswer(g, ArrayText(Quoted(xs), ",")) == Verdict(xs == g.answer)
  {
    StringArrayRoundTrip(xs);
  }

  /** `run`: the numeric streaming loop of challenge 24.1.2, whose collected
      decimals are handed to this challenge's `check_answer`. Once the loop
      completes within the u64 bound over at least one case, the numbers
      are not strings and `check_answer` panics. */
  function Run(g: Generator, test: TestResult, child: Child): (o: RunOutcome)
    ensures !test.Success? ==> o == Error(NeedSuccess)
    ensures var fs := Frames(child, |g.testCases|);
      test.Success? && !(forall i :: 0 <= i < |fs| ==> fs[i].Number?) ==>
        exists k :: StopsAt(fs, k, o)
    ensures var fs := Frames(child, |g.testCases|);
      test.Success? && (forall i :: 0 <= i < |fs| ==> fs[i].Number?) ==>
        && (child.elapsedNs > U64Max ==> o == Ran(Fail(TooSlow)))
        && (child.elapsedNs <= U64Max && |g.testCases| > 0 ==> o == Panic(MalformedJson))
    ensures o.Ran? && o.result.Success? ==> |g.testCases| == 0 && g.answer == []
  {
    if !test.Success? then Error(NeedSuccess)
    else
      var fs := Frames(child, |g.testCases|);
      match CollectNumbers(fs)
      case Stopped(o) => o
      case Collected(texts) =>
        AssembledNumbers(fs, texts);
        assert |g.testCases| == 0 ==> ArrayText(texts, ", ") == "[]";
        Conclude(test.score, child.elapsedNs, CheckAnswer(g, ArrayText(texts, ", ")))
  }

  /** No child, however it answers, ever passes a generator made by
      `new`, corrected or as written. */
  lemma NewNeverSucceeds(test: bool, draws: seq<CipherDraw>, score: Score, child: Child)
    requires |draws| == SampleCount(test)
    requires forall i :: 0 <= i < |draws| ==> WellFormed(draws[i])
    ensures var o := Run(New(test, draws), Success(score), child);
      !(o.Ran? && o.result.Success?)
    ensures NewAsWritten(test, draws).Some? ==>
      var o := Run(NewAsWritten(test, draws).value, Success(score), child);
      !(o.Ran? && o.result.Success?)
  {
  }
}

=== FILE: json.dfy ===
/** The slice of JSON (RFC 8259) the judge exchanges with `serde_json`:
    arrays whose elements are integers or strings. `ParseArray` accepts what
    `serde_json::from_str` accepts for such arrays (whitespace around every
    token, no trailing comma, nothing after the closing bracket), and the
    typed views reject what the Rust target type rejects (a value out of
    range, a string where a number is expected and vice versa). */
module Json {
  import opened Wrappers
  import opened Text

  datatype Item = Num(n: int) | Str(s: string)

  predicate IsJsonWs(c: char) {
    c == ' ' || c == '\t' || c == '\n' || c == '\r'
  }

  predicate AllJsonWs(s: string) {
    forall i :: 0 <= i < |s| ==> IsJsonWs(s[i])
  }

  /** Whitespace that JSON and Rust's `trim` both skip. */
  lemma JsonWsIsWhitespace(c: char)
    requires IsJsonWs(c)
    ensures IsWhitespace(c)
  {
  }

  function SkipWs(s: string): (r: string)
    ensures |r| <= |s|
    ensures |r| > 0 ==> !IsJsonWs(r[0])
    decreases |s|
  {
    if |s| > 0 && IsJsonWs(s[0]) then SkipWs(s[1..]) else s
  }

  /** Skipping drops exactly the leading whitespace: what is dropped is all
      whitespace and what is kept is the rest of the text. */
  lemma {:induction false} SkipWsDropsWs(s: string)
    ensures var r := SkipWs(s);
      r == s[|s| - |r|..] && AllJsonWs(s[..|s| - |r|])
    decreases |s|
  {
    if |s| > 0 && IsJsonWs(s[0]) {
      SkipWsDropsWs(s[1..]);
      var r := SkipWs(s);
      assert s[1..][..|s| - 1 - |r|] == s[1..|s| - |r|];
    }
  }

  lemma {:induction false} SkipWsPrefix(w: string, t: string)
    requires AllJsonWs(w)
    requires |t| == 0 || !IsJsonWs(t[0])
    ensures SkipWs(w + t) == t
    decreases |w|
  {
    if |w| > 0 {
      assert (w + t)[1..] == w[1..] + t;
      SkipWsPrefix(w[1..], t);
    } else {
      assert w + t == t;
    }
  }

  /** Length of the run of decimal digits at the head of `s`. */
  function DigitRun(s: string): (n: nat)
    ensures n <= |s|
    ensures forall i :: 0 <= i < n ==> IsDigit(s[i])
    ensures n < |s| ==> !IsDigit(s[n])
    decreases |s|
  {
    if |s| > 0 && IsDigit(s[0]) then 1 + DigitRun(s[1..]) else 0
  }

  /** A JSON integer literal at the head of `s`: an optional minus sign, then
      `0` or a digit run without a leading zero. `-0` is refused because
      `serde_json` reads it as a float, which no integer target accepts. */
  function ParseInteger(s: string): (r: Option<(int, string)>)
    ensures r.Some? ==> |r.value.1| < |s|
  {
    var neg := |s| > 0 && s[0] == '-';
    var body := if neg then s[1..] else s;
    var n := DigitRun(body);
    if n == 0 || (n > 1 && body[0] == '0') then None
    else
      var v: int := DigitsValue(body[..n]);
      if neg && v == 0 then None
      else Some((if neg then -v else v, body[n..]))
  }

  /** The character a two-character escape sequence `\c` stands for. */
  function Unescape(c: char): Option<char> {
    if c == '"' then Some('"')
    else if c == '\\' then Some('\\')
    else if c == '/' then Some('/')
    else if c == 'b' then Some('\U{8}')
    else if c == 'f' then Some('\U{C}')
    else if c == 'n' then Some('\n')
    else if c == 'r' then Some('\r')
    else if c == 't' then Some('\t')
    else None
  }

  /** The rest of a string literal after its opening quote: its contents and
      what follows the closing quote. Raw control characters are refused. */
  function ParseStringBody(s: string): (r: Option<(string, string)>)
    ensures r.Some? ==> |r.value.1| < |s|
    decreases |s|
  {
    if |s| == 0 then None
    else if s[0] == '"' then Some(([], s[1..]))
    else if s[0] == '\\' then
      if |s| < 2 || Unescape(s[1]).None? then None
      else
        match ParseStringBody(s[2..])
        case None => None
        case Some((t, rest)) => Some(([Unescape(s[1]).value] + t, rest))
    else if (s[0] as int) < 0x20 then None
    else
      match ParseStringBody(s[1..])
      case None => None
      case Some((t, rest)) => Some(([s[0]] + t, rest))
  }

  function ParseItem(s: string): (r: Option<(Item, string)>)
    ensures r.Some? ==> |r.value.1| < |s|
  {
    if |s| > 0 && s[0] == '"' then
      match ParseStringBody(s[1..])
      case None => None
      case Some((t, rest)) => Some((Str(t), rest))
    else
      match ParseInteger(s)
      case None => None
      case Some((v, rest)) => Some((Num(v), rest))
  }

  /** The elements of a non-empty array, starting at the first element, up
      to and including the closing bracket. */
  function ParseItems(s: string): (r: Option<(seq<Item>, string)>)
    ensures r.Some? ==> |r.value.1| < |s|
    decreases |s|, 1
  {
    var head := ParseItem(s);
    if head.None? then None else AfterItem(head.value.0, head.value.1)
  }

  /** What follows one element: the closing bracket, or a comma and the
      remaining elements. */
  function AfterItem(it: Item, r: string): (res: Option<(seq<Item>, string)>)
    ensures res.Some? ==> |res.value.1| < |r|
    decreases |r|, 0
  {
    var r1 := SkipWs(r);
    if |r1| == 0 then None
    else if r1[0] == ']' then Some(([it], r1[1..]))
    else if r1[0] == ',' then
      var more := ParseItems(SkipWs(r1[1..]));
      if more.None? then None
      else Some(([it] + more.value.0, more.value.1))
    else None
  }

  /** A whole document that is one array of integers and strings. */
  function ParseArray(s: string): Option<seq<Item>> {
    var t := SkipWs(s);
    if |t| == 0 || t[0] != '[' then None
    else
      var u := SkipWs(t[1..]);
      if |u| > 0 && u[0] == ']' then
        if SkipWs(u[1..]) == [] then Some([]) else None
      else
        match ParseItems(u)
        case None => None
        case Some((items, rest)) => if SkipWs(rest) == [] then Some(items) else None
  }

  /** The items as integers of a Rust type ranging over `lo..=hi`. */
  function AsIntegers(items: seq<Item>, lo: int, hi: int): (r: Option<seq<int>>)
    ensures r.Some? <==> forall i :: 0 <= i < |items| ==> items[i].Num? && lo <= items[i].n <= hi
    ensures r.Some? ==> |r.value| == |items| && forall i :: 0 <= i < |items| ==> r.value[i] == items[i].n
    decreases |items|
  {
    if |items| == 0 then Some([])
    else if !items[0].Num? || !(lo <= items[0].n <= hi) then None
    else
      match AsIntegers(items[1..], lo, hi)
      case None =>
        assert !(forall i :: 0 <= i < |items| - 1 ==> items[1..][i].Num? && lo <= items[1..][i].n <= hi);
        None
      case Some(rest) => Some([items[0].n] + rest)
  }

  /** The items as strings. */
  function AsStrings(items: seq<Item>): (r: Option<seq<string>>)
    ensures r.Some? <==> forall i :: 0 <= i < |items| ==> items[i].Str?
    ensures r.Some? ==> |r.value| == |items| && forall i :: 0 <= i < |items| ==> r.value[i] == items[i].s
    decreases |items|
  {
    if |items| == 0 then Some([])
    else if !items[0].Str? then None
    else
      match AsStrings(items[1..])
      case None =>
        assert !(forall i :: 0 <= i < |items| - 1 ==> items[1..][i].Str?);
        None
      case Some(rest) => Some([items[0].s] + rest)
  }

  /** `serde_json::from_str::<Vec<T>>` for an integer type `T` over `lo..=hi`. */
  function ParseIntegerArray(s: string, lo: int, hi: int): Option<seq<int>> {
    match ParseArray(s)
    case None => None
    case Some(items) => AsIntegers(items, lo, hi)
  }

  /** `serde_json::from_str::<Vec<String>>`. */
  function ParseStringArray(s: string): Option<seq<string>> {
    match ParseArray(s)
    case None => None
    case Some(items) => AsStrings(items)
  }

  /** The array text built by joining element texts with `sep`. */
  function ArrayText(parts: seq<string>, sep: string): string {
    "[" + Join(parts, sep) + "]"
  }

  /** Each integer's decimal text followed by its own trailing whitespace. */
  function PaddedIntegers(xs: seq<int>, pads: seq<string>): (parts: seq<string>)
    requires |pads| == |xs|
    ensures |parts| == |xs|
    ensures forall i :: 0 <= i < |xs| ==> parts[i] == IntToString(xs[i]) + pads[i]
  {
    seq(|xs|, i requires 0 <= i < |xs| => IntToString(xs[i]) + pads[i])
  }

  function Numbers(xs: seq<int>): (items: seq<Item>)
    ensures |items| == |xs| && forall i :: 0 <= i < |xs| ==> items[i] == Num(xs[i])
  {
    seq(|xs|, i requires 0 <= i < |xs| => Num(xs[i]))
  }

  /** Escapes `"` and `\` the way `serde_json` does. */
  function Escape(s: string): string
    decreases |s|
  {
    if |s| == 0 then []
    else (if s[0] == '"' || s[0] == '\\' then ['\\', s[0]] else [s[0]]) + Escape(s[1..])
  }

  /** `serde_json`'s text for a string without control characters. */
  function Quote(s: string): string {
    "\"" + Escape(s) + "\""
  }

  predicate NoControl(s: string) {
    forall i :: 0 <= i < |s| ==> (s[i] as int) >= 0x20
  }

  function Strings(xs: seq<string>): (items: seq<Item>)
    ensures |items| == |xs| && forall i :: 0 <= i < |xs| ==> items[i] == Str(xs[i])
  {
    seq(|xs|, i requires 0 <= i < |xs| => Str(xs[i]))
  }

  function Quoted(xs: seq<string>): (parts: seq<string>)
    ensures |parts| == |xs| && forall i :: 0 <= i < |xs| ==> parts[i] == Quote(xs[i])
  {
    seq(|xs|, i requires 0 <= i < |xs| => Quote(xs[i]))
  }

  /** What may follow an element inside an array. */
  predicate Continues(x: string) {
    |x| > 0 && (IsJsonWs(x[0]) || x[0] == ',' || x[0] == ']')
  }

  /** `text` is the text `serde_json` prints for `item`. */
  predicate Renders(item: Item, text: string) {
    match item
    case Num(v) => text == IntToString(v)
    case Str(s) => NoControl(s) && text == Quote(s)
  }

  /** A digit run followed by a non-digit is read back as its value. */
  lemma {:induction false} DigitRunOf(d: string, x: string)
    requires AllDigits(d)
    requires |x| == 0 || !IsDigit(x[0])
    ensures DigitRun(d + x) == |d|
    decreases |d|
  {
    if |d| > 0 {
      assert (d + x)[1..] == d[1..] + x;
      DigitRunOf(d[1..], x);
    } else {
      assert d + x == x;
    }
  }

  /** An integer's decimal text is read back as the integer. */
  lemma IntegerRoundTrip(v: int, x: string)
    requires |x| == 0 || !IsDigit(x[0])
    ensures ParseInteger(IntToString(v) + x) == Some((v, x))
  {
    var s := IntToString(v) + x;
    if v >= 0 {
      var d := NatToString(v);
      assert s == d + x;
      DigitRunOf(d, x);
      assert s[..|d|] == d;
      assert s[|d|..] == x;
    } else {
      var d := NatToString(-v);
      assert s == "-" + (d + x);
      assert s[1..] == d + x;
      DigitRunOf(d, x);
      assert (d + x)[..|d|] == d;
      assert (d + x)[|d|..] == x;
    }
  }

  /** A rendered element is read back as itself whatever continues the array after it. */
  lemma RenderedItem(item: Item, text: string, x: string)
    requires Renders(item, text) && Continues(x)
    ensures |text| > 0 && !IsJsonWs(text[0]) && text[0] != ']'
    ensures ParseItem(text + x) == Some((item, x))
  {
    match item
    case Num(v) =>
      assert text[0] == '-' || IsDigit(text[0]);
      IntegerRoundTrip(v, x);
      assert (text + x)[0] == text[0];
    case Str(s) =>
      assert text + x == "\"" + (Escape(s) + "\"" + x);
      assert (text + x)[1..] == Escape(s) + "\"" + x;
      EscapeRoundTrip(s, x);
  }

  /** An escaped string body is read back as the string. */
  lemma {:induction false} EscapeRoundTrip(s: string, x: string)
    requires NoControl(s)
    ensures ParseStringBody(Escape(s) + "\"" + x) == Some((s, x))
    decreases |s|
  {
    if |s| == 0 {
      assert Escape(s) + "\"" + x == "\"" + x;
    } else {
      EscapeRoundTrip(s[1..], x);
      var tail := Escape(s[1..]) + "\"" + x;
      assert ParseStringBody(tail) == Some((s[1..], x));
      if s[0] == '"' || s[0] == '\\' {
        EscapedHead(s[0], tail, s[1..], x);
        assert Escape(s) + "\"" + x == ['\\', s[0]] + tail;
      } else {
        PlainHead(s[0], tail, s[1..], x);
        assert Escape(s) + "\"" + x == [s[0]] + tail;
      }
      assert [s[0]] + s[1..] == s;
    }
  }

  lemma EscapedHead(c: char, tail: string, t: string, x: string)
    requires c == '"' || c == '\\'
    requires ParseStringBody(tail) == Some((t, x))
    ensures ParseStringBody(['\\', c] + tail) == Some(([c] + t, x))
  {
    var u := ['\\', c] + tail;
    assert u[0] == '\\' && u[1] == c && Unescape(c) == Some(c);
    assert u[2..] == tail;
  }

  lemma PlainHead(c: char, tail: string, t: string, x: string)
    requires c != '"' && c != '\\' && (c as int) >= 0x20
    requires ParseStringBody(tail) == Some((t, x))
    ensures ParseStringBody([c] + tail) == Some(([c] + t, x))
  {
    var u := [c] + tail;
    assert u[0] == c;
    assert u[1..] == tail;
  }

  /** One rendered element, its pad and the closing bracket. */
  lemma LastItem(item: Item, text: string, pad: string, tail: string)
    requires Renders(item, text) && AllJsonWs(pad)
    ensures ParseItems(text + pad + "]" + tail) == Some(([item], tail))
  {
    var x := pad + ("]" + tail);
    assert text + pad + "]" + tail == text + x;
    PaddedClose(pad, tail);
    RenderedItem(item, text, x);
    ClosingBracket(item, x, tail);
    assert ParseItems(text + x) == AfterItem(item, x);
  }

  /** Whitespace then a closing bracket may follow an element, and skipping
      the whitespace reaches the bracket. */
  lemma PaddedClose(pad: string, tail: string)
    requires AllJsonWs(pad)
    ensures Continues(pad + ("]" + tail)) && SkipWs(pad + ("]" + tail)) == "]" + tail
  {
    var x := pad + ("]" + tail);
    if |pad| > 0 { assert x[0] == pad[0]; } else { assert x[0] == ']'; }
    SkipWsPrefix(pad, "]" + tail);
  }

  /** After an element, a closing bracket ends the array. */
  lemma ClosingBracket(it: Item, r: string, tail: string)
    requires SkipWs(r) == "]" + tail
    ensures AfterItem(it, r) == Some(([it], tail))
  {
    assert ("]" + tail)[1..] == tail;
  }

  /** One rendered element, its pad, a comma with whitespace, then the rest. */
  lemma NextItem(item: Item, text: string, pad: string, sepWs: string, rest: string, items: seq<Item>, tail: string)
    requires Renders(item, text) && AllJsonWs(pad) && AllJsonWs(sepWs)
    requires |rest| > 0 && !IsJsonWs(rest[0])
    requires ParseItems(rest) == Some((items, tail))
    ensures ParseItems(text + (pad + ("," + (sepWs + rest)))) == Some(([item] + items, tail))
  {
    var r1 := "," + (sepWs + rest);
    var x := pad + r1;
    assert Continues(x) by {
      if |pad| > 0 { assert x[0] == pad[0]; } else { assert x[0] == ','; }
    }
    RenderedItem(item, text, x);
    SkipWsPrefix(pad, r1);
    assert r1[1..] == sepWs + rest;
    SkipWsPrefix(sepWs, rest);
    ParseItemsComma(text + x, item, x, rest, items, tail);
  }

  lemma ParseItemsComma(s: string, item: Item, x: string, rest: string, items: seq<Item>, tail: string)
    requires ParseItem(s) == Some((item, x))
    requires |SkipWs(x)| > 0 && SkipWs(x)[0] == ','
    requires SkipWs(SkipWs(x)[1..]) == rest
    requires ParseItems(rest) == Some((items, tail))
    ensures ParseItems(s) == Some(([item] + items, tail))
  {
    assert ParseItems(s) == AfterItem(item, x);
  }

  /** Element texts, each followed by its pad, joined by a comma and
      whitespace and closed by a bracket, are read back element by element. */
  lemma {:induction false} ItemsRoundTrip(items: seq<Item>, texts: seq<string>, pads: seq<string>, parts: seq<string>, sepWs: string, tail: string)
    requires |items| >= 1 && |texts| == |items| && |pads| == |items| && |parts| == |items|
    requires forall i :: 0 <= i < |items| ==>
      Renders(items[i], texts[i]) && AllJsonWs(pads[i]) && parts[i] == texts[i] + pads[i]
    requires AllJsonWs(sepWs)
    ensures ParseItems(Join(parts, "," + sepWs) + "]" + tail) == Some((items, tail))
    decreases |items|
  {
    if |items| == 1 {
      assert Join(parts, "," + sepWs) == texts[0] + pads[0];
      LastItem(items[0], texts[0], pads[0], tail);
      assert items == [items[0]];
    } else {
      ItemsRoundTrip(items[1..], texts[1..], pads[1..], parts[1..], sepWs, tail);
      FirstPartStarts(items[1], texts[1], pads[1]);
      JoinCons(items[0], texts[0], pads[0], sepWs, parts, items[1..], tail);
      assert [items[0]] + items[1..] == items;
    }
  }

  /** A rendered element followed by its pad starts with a character that
      is not whitespace. */
  lemma FirstPartStarts(item: Item, text: string, pad: string)
    requires Renders(item, text)
    ensures |text + pad| > 0 && !IsJsonWs((text + pad)[0])
  {
    RenderedItem(item, text, "]");
    assert (text + pad)[0] == text[0];
  }

  /** One rendered element and its pad, joined in front of parts that read
      back. */
  lemma JoinCons(item: Item, text: string, pad: string, sepWs: string, parts: seq<string>, items: seq<Item>, tail: string)
    requires Renders(item, text) && AllJsonWs(pad) && AllJsonWs(sepWs)
    requires |parts| >= 2 && parts[0] == text + pad && |parts[1]| > 0 && !IsJsonWs(parts[1][0])
    requires ParseItems(Join(parts[1..], "," + sepWs) + "]" + tail) == Some((items, tail))
    ensures ParseItems(Join(parts, "," + sepWs) + "]" + tail) == Some(([item] + items, tail))
  {
    var sep := "," + sepWs;
    var j := Join(parts[1..], sep);
    JoinHead(parts[1..], sep);
    ConsItem(item, text, pad, sepWs, j, items, tail);
    assert Join(parts, sep) == text + pad + sep + j;
  }

  /** The inductive step of `ItemsRoundTrip`: one more element in front. */
  lemma ConsItem(item: Item, text: string, pad: string, sepWs: string, j: string, items: seq<Item>, tail: string)
    requires Renders(item, text) && AllJsonWs(pad) && AllJsonWs(sepWs)
    requires |j| > 0 && !IsJsonWs(j[0])
    requires ParseItems(j + "]" + tail) == Some((items, tail))
    ensures ParseItems(text + pad + ("," + sepWs) + j + "]" + tail) == Some(([item] + items, tail))
  {
    var restText := j + "]" + tail;
    var full := text + pad + ("," + sepWs) + j + "]" + tail;
    SeqShape(text, pad, sepWs, j, tail);
    assert full == text + (pad + ("," + (sepWs + restText)));
    NextItem(item, text, pad, sepWs, restText, items, tail);
  }

  lemma SeqShape(text: string, pad: string, sepWs: string, j: string, tail: string)
    ensures text + pad + ("," + sepWs) + j + "]" + tail == text + (pad + ("," + (sepWs + (j + "]" + tail))))
  {
  }

  /** A join of non-empty parts starts where its first part starts. */
  lemma JoinHead(parts: seq<string>, sep: string)
    requires |parts| > 0 && |parts[0]| > 0
    ensures |Join(parts, sep)| > 0 && Join(parts, sep)[0] == parts[0][0]
  {
  }

  /** Each element text followed by its pad. */
  function Padded(texts: seq<string>, pads: seq<string>): (parts: seq<string>)
    requires |pads| == |texts|
    ensures |parts| == |texts|
    ensures forall i :: 0 <= i < |texts| ==> parts[i] == texts[i] + pads[i]
  {
    seq(|texts|, i requires 0 <= i < |texts| => texts[i] + pads[i])
  }

  /** The array text of rendered elements parses back to the elements. */
  lemma ArrayRoundTrip(items: seq<Item>, texts: seq<string>, pads: seq<string>, sepWs: string)
    requires |texts| == |items| && |pads| == |items|
    requires forall i :: 0 <= i < |items| ==> Renders(items[i], texts[i]) && AllJsonWs(pads[i])
    requires AllJsonWs(sepWs)
    ensures ParseArray(ArrayText(Padded(texts, pads), "," + sepWs)) == Some(items)
  {
    var parts := Padded(texts, pads);
    var j := Join(parts, "," + sepWs);
    if |items| > 0 {
      RenderedItem(items[0], texts[0], "]");
      JoinHead(parts, "," + sepWs);
      assert j[0] == texts[0][0];
      ItemsRoundTrip(items, texts, pads, parts, sepWs, []);
      assert j + "]" + [] == j + "]";
    }
    Bracketed(j, items);
  }

  /** The text between the brackets is empty for no elements, or reads back
      as the elements up to the closing bracket. */
  lemma Bracketed(j: string, items: seq<Item>)
    requires |j| == 0 ==> items == []
    requires |j| > 0 ==> !IsJsonWs(j[0]) && j[0] != ']' && ParseItems(j + "]") == Some((items, []))
    ensures ParseArray("[" + j + "]") == Some(items)
  {
    var s := "[" + j + "]";
    if |j| == 0 {
      assert |s| == 2 && s[0] == '[' && s[1] == ']';
      EmptyArray(s);
    } else {
      OpenBracket(j);
      FilledArray(s, j + "]", items);
    }
  }

  /** After the opening bracket of `[j]`, with `j` starting with neither
      whitespace nor the closing bracket, whitespace skipping stops at `j`. */
  lemma OpenBracket(j: string)
    requires |j| > 0 && !IsJsonWs(j[0])
    ensures var s := "[" + j + "]"; |s| > 0 && s[0] == '[' && SkipWs(s[1..]) == j + "]"
  {
    var s := "[" + j + "]";
    assert s[1..] == j + "]";
    NoLeadingWs(j + "]");
  }

  /** Text that does not start with whitespace is left alone by `SkipWs`. */
  lemma NoLeadingWs(t: string)
    requires |t| > 0 && !IsJsonWs(t[0])
    ensures SkipWs(t) == t
  {
  }

  /** A bracket pair is the empty array. */
  lemma EmptyArray(s: string)
    requires |s| == 2 && s[0] == '[' && s[1] == ']'
    ensures ParseArray(s) == Some([])
  {
    assert SkipWs(s) == s;
    var u := s[1..];
    assert u[0] == ']';
    assert SkipWs(u) == u;
    assert u[1..] == [];
  }

  /** An opening bracket followed by elements that read back up to the
      closing bracket, and nothing after it, is an array. */
  lemma FilledArray(s: string, u: string, items: seq<Item>)
    requires |s| > 0 && s[0] == '[' && SkipWs(s[1..]) == u
    requires |u| > 0 && u[0] != ']' && ParseItems(u) == Some((items, []))
    ensures ParseArray(s) == Some(items)
  {
    assert SkipWs(s) == s;
  }

  /** Integers printed with any whitespace after each element and after each
      comma parse back to themselves when they fit the target type. */
  lemma IntegerArrayRoundTrip(xs: seq<int>, pads: seq<string>, sepWs: string, lo: int, hi: int)
    requires |pads| == |xs|
    requires forall i :: 0 <= i < |xs| ==> AllJsonWs(pads[i]) && lo <= xs[i] <= hi
    requires AllJsonWs(sepWs)
    ensures ParseIntegerArray(ArrayText(PaddedIntegers(xs, pads), "," + sepWs), lo, hi) == Some(xs)
  {
    var texts := seq(|xs|, i requires 0 <= i < |xs| => IntToString(xs[i]));
    assert Padded(texts, pads) == PaddedIntegers(xs, pads);
    ArrayRoundTrip(Numbers(xs), texts, pads, sepWs);
    var r := AsIntegers(Numbers(xs), lo, hi);
    assert r.Some? && r.value == xs;
  }

  /** Strings without control characters, quoted and comma-separated, parse
      back to themselves. */
  lemma StringArrayRoundTrip(xs: seq<string>)
    requires forall i :: 0 <= i < |xs| ==> NoControl(xs[i])
    ensures ParseStringArray(ArrayText(Quoted(xs), ",")) == Some(xs)
  {
    var pads := seq(|xs|, i => "");
    forall i | 0 <= i < |xs| ensures Padded(Quoted(xs), pads)[i] == Quoted(xs)[i] {
      assert Quoted(xs)[i] + "" == Quoted(xs)[i];
    }
    assert Padded(Quoted(xs), pads) == Quoted(xs);
    assert "," + "" == ",";
    ArrayRoundTrip(Strings(xs), Quoted(xs), pads, "");
    var r := AsStrings(Strings(xs));
    assert r.Some? && r.value == xs;
  }

  /** A non-empty array of integers is never an array of strings. */
  lemma IntegersAreNotStrings(xs: seq<int>, pads: seq<string>, sepWs: string)
    requires |xs| > 0 && |pads| == |xs|
    requires forall i :: 0 <= i < |xs| ==> AllJsonWs(pads[i])
    requires AllJsonWs(sepWs)
    ensures ParseStringArray(ArrayText(PaddedIntegers(xs, pads), "," + sepWs)) == None
  {
    var texts := seq(|xs|, i requires 0 <= i < |xs| => IntToString(xs[i]));
    assert Padded(texts, pads) == PaddedIntegers(xs, pads);
    ArrayRoundTrip(Numbers(xs), texts, pads, sepWs);
    assert !Numbers(xs)[0].Str?;
  }
}

=== FILE: leaderboard.dfy ===
/** The leaderboard of the channel cards: the scores arrive best first, and
    every player is listed once, at their best score. How one score is
    written is the scoreboard library's, and is a parameter here. */
module Leaderboard {
  import opened Wrappers
  import opened Text
  import opened TestResults

  /** The players' names, in order. */
  function NamesOf(s: seq<Score>): (ns: seq<string>)
    ensures |ns| == |s| && forall i :: 0 <= i < |s| ==> ns[i] == s[i].name
  {
    seq(|s|, i requires 0 <= i < |s| => s[i].name)
  }

  /** Position `i` holds its player's first score. */
  predicate IsFirst(s: seq<Score>, i: int) {
    0 <= i < |s| && forall j :: 0 <= j < i ==> s[j].name != s[i].name
  }

  /** The positions below `n` that hold a player's first score, in
      increasing order. */
  function FirstPositions(s: seq<Score>, n: nat): (ps: seq<nat>)
    requires n <= |s|
    ensures forall a, b :: 0 <= a < b < |ps| ==> ps[a] < ps[b]
    ensures forall a :: 0 <= a < |ps| ==> ps[a] < n && IsFirst(s, ps[a])
    ensures forall k :: 0 <= k < n && IsFirst(s, k) ==> k in ps
  {
    if n == 0 then []
    else if IsFirst(s, n - 1) then FirstPositions(s, n - 1) + [n - 1]
    else FirstPositions(s, n - 1)
  }

  /** The first scores among the first `n`, in input order. */
  function Picked(s: seq<Score>, n: nat): (r: seq<Score>)
    requires n <= |s|
    ensures var ps := FirstPositions(s, n);
      |r| == |ps| && forall a :: 0 <= a < |r| ==> r[a] == s[ps[a]]
  {
    var ps := FirstPositions(s, n);
    seq(|ps|, a requires 0 <= a < |ps| => s[ps[a]])
  }

  /** Every player's first score, in input order. */
  function Firsts(s: seq<Score>): seq<Score> {
    Picked(s, |s|)
  }

  /** Scanning one more score adds it exactly when it is its player's
      first. */
  lemma PickedStep(s: seq<Score>, n: nat)
    requires n < |s|
    ensures Picked(s, n + 1) == Picked(s, n) + (if IsFirst(s, n) then [s[n]] else [])
  {
  }

  /** Every score's player has a first score, at or before it. */
  lemma {:induction false} EarliestOf(s: seq<Score>, j: nat)
    requires j < |s|
    ensures exists k :: 0 <= k <= j && IsFirst(s, k) && s[k].name == s[j].name
    decreases j
  {
    if !IsFirst(s, j) {
      var i :| 0 <= i < j && s[i].name == s[j].name;
      EarliestOf(s, i);
    }
  }

  /** A player was picked among the first `n` scores exactly when they
      occur among them. */
  lemma SeenIffEarlier(s: seq<Score>, n: nat, x: string)
    requires n <= |s|
    ensures x in NamesOf(Picked(s, n)) <==> exists j :: 0 <= j < n && s[j].name == x
  {
    var p := Picked(s, n);
    var ps := FirstPositions(s, n);
    if x in NamesOf(p) {
      var a :| 0 <= a < |p| && NamesOf(p)[a] == x;
      assert s[ps[a]].name == x;
    }
    if exists j :: 0 <= j < n && s[j].name == x {
      var j :| 0 <= j < n && s[j].name == x;
      EarliestOf(s, j);
      var k :| 0 <= k <= j && IsFirst(s, k) && s[k].name == s[j].name;
      assert k in ps;
      var a :| 0 <= a < |ps| && ps[a] == k;
      assert NamesOf(p)[a] == x;
    }
  }

  /** What is picked from a shorter prefix is a prefix of what is picked
      from a longer one. */
  lemma {:induction false} PickedPrefix(s: seq<Score>, m: nat, n: nat)
    requires m <= n <= |s|
    ensures |Picked(s, m)| <= |Picked(s, n)| && Picked(s, n)[..|Picked(s, m)|] == Picked(s, m)
    decreases n - m
  {
    if m < n {
      PickedPrefix(s, m, n - 1);
      PickedStep(s, n - 1);
    }
  }

  /** The first scores carry distinct names, and every player of the input
      is among them. */
  lemma FirstsShape(s: seq<Score>)
    ensures var f := Firsts(s);
      && (forall a, b :: 0 <= a < b < |f| ==> f[a].name != f[b].name)
      && (forall i :: 0 <= i < |s| ==> s[i].name in NamesOf(f))
  {
    var f := Firsts(s);
    var ps := FirstPositions(s, |s|);
    forall a, b | 0 <= a < b < |f| ensures f[a].name != f[b].name {
      assert IsFirst(s, ps[b]) && ps[a] < ps[b];
    }
    forall i | 0 <= i < |s| ensures s[i].name in NamesOf(f) {
      SeenIffEarlier(s, |s|, s[i].name);
    }
  }

  /** How many first scores are kept: the limit (all of the input when
      there is none), but at least one, since the check comes after the
      push. */
  function Kept(input: seq<Score>, limit: Option<nat>): nat {
    var lim := limit.GetOr(|input|);
    if lim == 0 then 1 else lim
  }

  /** The leaderboard's reference: the first `Kept` first scores. */
  function UniquePlayers(input: seq<Score>, limit: Option<nat>): (r: seq<Score>)
    ensures var f := Firsts(input);
      |r| == (if Kept(input, limit) < |f| then Kept(input, limit) else |f|) && r == f[..|r|]
  {
    var f := Firsts(input);
    var k := Kept(input, limit);
    if k < |f| then f[..k] else f
  }

  /** What the reference keeps: distinct players; without a limit, all
      of them; with a positive limit, no more than it; with a limit of 0,
      one player as soon as there is one. */
  lemma UniqueShape(input: seq<Score>, limit: Option<nat>)
    ensures var r := UniquePlayers(input, limit);
      && (forall a, b :: 0 <= a < b < |r| ==> r[a].name != r[b].name)
      && (limit.None? ==> r == Firsts(input))
      && (limit.None? ==> forall i :: 0 <= i < |input| ==> input[i].name in NamesOf(r))
      && (limit.Some? && limit.value > 0 ==> |r| <= limit.value)
      && (limit == Some(0) && |input| > 0 ==> |r| == 1)
  {
    FirstsShape(input);
    var f := Firsts(input);
    if limit.None? {
      assert |FirstPositions(input, |input|)| <= |input| by {
        FirstPositionsBound(input, |input|);
      }
    }
    if limit == Some(0) && |input| > 0 {
      assert IsFirst(input, 0);
      assert 0 in FirstPositions(input, |input|);
    }
  }

  /** At most one first position per scanned score. */
  lemma {:induction false} FirstPositionsBound(s: seq<Score>, n: nat)
    requires n <= |s|
    ensures |FirstPositions(s, n)| <= n
  {
    if n > 0 {
      FirstPositionsBound(s, n - 1);
    }
  }

  /** The scan stops with the reference's list once it holds `Kept` first
      scores. */
  lemma StopsWithReference(input: seq<Score>, limit: Option<nat>, i: nat)
    requires i < |input| && |Picked(input, i + 1)| == Kept(input, limit)
    ensures Picked(input, i + 1) == UniquePlayers(input, limit)
  {
    PickedPrefix(input, i + 1, |input|);
  }

  /** The state of the scan after `i` scores: the first scores among them,
      their names, and fewer of them than are kept. */
  predicate Scanned(input: seq<Score>, limit: Option<nat>, i: nat, seen: seq<string>, scores: seq<Score>) {
    && i <= |input|
    && scores == Picked(input, i)
    && seen == NamesOf(scores)
    && |scores| < Kept(input, limit)
  }

  /** One step of the scan: a score whose player is not yet among the names
      seen is appended, and the scan either stops there with the
      reference's list or goes on; any other score is skipped. */
  lemma ScanStep(input: seq<Score>, limit: Option<nat>, i: nat, seen: seq<string>, scores: seq<Score>)
    requires i < |input| && Scanned(input, limit, i, seen, scores)
    ensures input[i].name !in seen <==> IsFirst(input, i)
    ensures input[i].name !in seen && |scores| + 1 >= limit.GetOr(|input|) ==>
      scores + [input[i]] == UniquePlayers(input, limit)
    ensures input[i].name !in seen && |scores| + 1 < limit.GetOr(|input|) ==>
      Scanned(input, limit, i + 1, seen + [input[i].name], scores + [input[i]])
    ensures input[i].name in seen ==> Scanned(input, limit, i + 1, seen, scores)
  {
    PickedStep(input, i);
    SeenIffEarlier(input, i, input[i].name);
    if input[i].name !in seen && |scores| + 1 >= limit.GetOr(|input|) {
      StopsWithReference(input, limit, i);
    }
  }

  /** A scan that reaches the end of the input holds the reference's list. */
  lemma ScanEnd(input: seq<Score>, limit: Option<nat>, seen: seq<string>, scores: seq<Score>)
    requires Scanned(input, limit, |input|, seen, scores)
    ensures scores == UniquePlayers(input, limit)
  {
  }

  /** `filter_unique_players`: each player's first score, in input order,
      stopping once the list is as long as the limit. The list is the
      reference's, whose shape `UniqueShape` states. */
  method FilterUniquePlayers(input: seq<Score>, limit: Option<nat>) returns (scores: seq<Score>)
    ensures scores == UniquePlayers(input, limit)
  {
    var lim := limit.GetOr(|input|);
    var seen: seq<string> := [];
    scores := [];
    var i := 0;
    while i < |input|
      invariant Scanned(input, limit, i, seen, scores)
    {
      ScanStep(input, limit, i, seen, scores);
      if input[i].name !in seen {
        seen := seen + [input[i].name];
        scores := scores + [input[i]];
        if |scores| >= lim {
          return;
        }
      }
      i := i + 1;
    }
    ScanEnd(input, limit, seen, scores);
  }

  /** The numbered leaderboard lines from number `k` on, each ending in
      the card's `{n}` line break. */
  function Listing(scores: seq<Score>, show: Score -> string, k: nat): string
    decreases |scores|
  {
    if |scores| == 0 then ""
    else Entry(k, show(scores[0])) + Listing(scores[1..], show, k + 1)
  }

  /** The line for place `k`. */
  function Entry(k: nat, shown: string): string {
    NatToString(k) + ". " + shown + "{n}"
  }

  /** The numbering runs on across any split of the list. */
  lemma {:induction false} ListingSplit(scores: seq<Score>, show: Score -> string, k: nat, m: nat)
    requires m <= |scores|
    ensures Listing(scores, show, k) == Listing(scores[..m], show, k) + Listing(scores[m..], show, k + m)
    decreases m
  {
    if m > 0 {
      ListingSplit(scores[1..], show, k + 1, m - 1);
      assert scores[1..][..m - 1] == scores[..m][1..];
      assert scores[1..][m - 1..] == scores[m..];
    }
  }

  const Header: string := "{n}{n}Leaderboard:{n}{n}"

  /** `append_score`: the body is kept, then the heading, then at most five
      players, numbered from 1. */
  function AppendScore(body: string, scores: seq<Score>, show: Score -> string): (r: string)
    ensures |UniquePlayers(scores, Some(5))| <= 5
    ensures |r| >= |body| + |Header| && r[..|body|] == body && r[|body|..|body| + |Header|] == Header
    ensures r[|body| + |Header|..] == Listing(UniquePlayers(scores, Some(5)), show, 1)
  {
    UniqueShape(scores, Some(5));
    body + Header + Listing(UniquePlayers(scores, Some(5)), show, 1)
  }

  /** The player listed at place `i + 1` comes right after the first `i`
      places' lines, numbered `i + 1`. */
  lemma ListingPlace(scores: seq<Score>, show: Score -> string, i: nat)
    requires i < |scores|
    ensures Listing(scores, show, 1) ==
      Listing(scores[..i], show, 1) + Entry(i + 1, show(scores[i])) + Listing(scores[i + 1..], show, i + 2)
  {
    ListingSplit(scores, show, 1, i);
    var rest := scores[i..];
    assert rest[0] == scores[i] && rest[1..] == scores[i + 1..];
    var a, b, c := Listing(scores[..i], show, 1), Entry(i + 1, show(scores[i])), Listing(scores[i + 1..], show, i + 2);
    assert Listing(rest, show, i + 1) == b + c;
    assert a + (b + c) == a + b + c;
  }
}

=== FILE: legacy_generator.dfy ===
/** The older stand-alone odd-one-out generator: the same construction and
    the same `check_answer` as challenge 23.3.1, with `generate` in place of
    `regenerate`, returning a copy of the new cases. */
module LegacyGenerator {
  import OddOneOut

  /** `generate`: the new state, and the cases it returns, which are the new
      cases; the answers of earlier calls are kept. */
  function Generate(g: OddOneOut.Generator, draws: seq<OddOneOut.CaseDraw>): (r: (OddOneOut.Generator, seq<seq<int>>))
    requires |draws| == g.count
    requires forall i :: 0 <= i < |draws| ==> OddOneOut.WellFormed(draws[i])
    ensures r.1 == r.0.testCases && |r.1| == g.count && r.0.count == g.count
    ensures |r.0.answer| == |g.answer| + g.count && r.0.answer[..|g.answer|] == g.answer
    ensures forall i :: 0 <= i < g.count ==>
      r.1[i] == OddOneOut.Case(draws[i]) && r.0.answer[|g.answer| + i] == OddOneOut.Answer(draws[i])
  {
    var next := OddOneOut.Regenerate(g, draws);
    (next, next.testCases)
  }

  /** `new(count)` is `generate` on an empty generator: the answer of case i
      is its only value of odd multiplicity. */
  lemma NewOddOneOut(count: nat, draws: seq<OddOneOut.CaseDraw>, i: nat, x: int)
    requires |draws| == count && i < count
    requires forall j :: 0 <= j < |draws| ==> OddOneOut.WellFormed(draws[j])
    ensures var g := Generate(OddOneOut.Generator(count, [], []), draws).0;
      |g.testCases| == count && |g.answer| == count &&
      (multiset(g.testCases[i])[x] % 2 == 1 <==> x == g.answer[i])
  {
    OddOneOut.AnswerIsOddOneOut(draws[i], x);
  }
}

=== FILE: legacy_main.dfy ===
/** The original single-challenge judge: 100 000 odd-one-out cases are
    written to `test.json`, the candidate runs once as
    `sh -c "<command> test.json"`, and its standard output is the JSON
    array of answers. The launch, the file write and the scoreboard are
    parameters; what the judge would store and publish is the list of
    effects. */
module LegacyMain {
  import opened Wrappers
  import opened Utf8
  import opened Json
  import opened Process
  import TestResults
  import OddOneOut
  import LegacyGenerator

  const TestSamples: nat := 100_000
  const CaseFile: string := "test.json"

  /** This judge's own two-way classification. */
  datatype TestResult = Success(score: TestResults.Score) | Fail(reason: string)

  /** The shell command line: the candidate's command, a space, the case
      file. */
  function SimCommand(command: string): (line: string)
    ensures |line| == |command| + 10
    ensures line[..|command|] == command && line[|command|..] == " test.json"
  {
    command + " " + CaseFile
  }

  /** How `run_sim` ends: the classification and its effects, a Rust `Err`
      with its message, or a panic. */
  datatype SimEnding = Finished(result: TestResult, effects: seq<TestResults.Effect>) | Failed(message: string) | Panicked(message: string)

  /** The cases `Generator::new(TEST_SAMPLES)` draws. */
  predicate Draws(draws: seq<OddOneOut.CaseDraw>) {
    |draws| == TestSamples && forall i :: 0 <= i < |draws| ==> OddOneOut.WellFormed(draws[i])
  }

  /** The generator `run_sim` builds from the draws. */
  function SimGenerator(draws: seq<OddOneOut.CaseDraw>): (g: OddOneOut.Generator)
    requires Draws(draws)
    ensures |g.answer| == TestSamples
    ensures forall i :: 0 <= i < TestSamples ==> g.answer[i] == OddOneOut.Answer(draws[i])
  {
    LegacyGenerator.Generate(OddOneOut.Generator(TestSamples, [], []), draws).0
  }

  /** The classification once the candidate has exited inside the u64
      guard: a non-zero status fails with standard error (which must be
      UTF-8), otherwise standard output (which must be UTF-8) goes to
      `check_answer`, whose panic propagates. */
  function Judged(g: OddOneOut.Generator, score: TestResults.Score, success: bool, stdout: seq<byte>, stderr: seq<byte>): (r: Result<Result<TestResult, string>, string>)
    ensures !success ==> r == (match Decode(stderr)
      case None => Ok(Err(TestResults.InvalidUtf8))
      case Some(t) => Ok(Ok(Fail(TestResults.NonZeroExit + t))))
    ensures success && Decode(stdout).None? ==> r == Ok(Err(TestResults.InvalidUtf8))
    ensures success && Decode(stdout).Some? ==>
      (r.Err? <==> ParseIntegerArray(Decode(stdout).value, TestResults.I32Min, TestResults.I32Max).None?)
    ensures r.Ok? && r.value.Ok? && r.value.value.Success? <==>
      success && Decode(stdout).Some? &&
      ParseIntegerArray(Decode(stdout).value, TestResults.I32Min, TestResults.I32Max) == Some(g.answer)
    ensures r.Ok? && r.value.Ok? && r.value.value.Success? ==> r.value.value.score == score
  {
    if !success then
      match Decode(stderr)
      case None => Ok(Err(TestResults.InvalidUtf8))
      case Some(t) => Ok(Ok(Fail(TestResults.NonZeroExit + t)))
    else
      match Decode(stdout)
      case None => Ok(Err(TestResults.InvalidUtf8))
      case Some(t) =>
        match OddOneOut.CheckAnswer(g, t, TestResults.I32Min, TestResults.I32Max)
        case Abort(m) => Err(m)
        case Verdict(ok) =>
          assert ok <==> ParseIntegerArray(t, TestResults.I32Min, TestResults.I32Max) == Some(g.answer);
          Ok(Ok(if ok then Success(score) else Fail(TestResults.WrongResult)))
  }

  /** `run_sim`: write the cases, run the candidate, classify, and then
      store a success and publish its card on request. A failure stores and
      publishes nothing. */
  function RunSim(draws: seq<OddOneOut.CaseDraw>, name: string, command: string, publish: bool,
                  saveError: Option<string>, launch: string -> Invocation): (e: SimEnding)
    requires Draws(draws)
    ensures saveError.Some? ==> e == Failed(saveError.value)
    ensures saveError.None? && launch(SimCommand(command)).SpawnFailed? ==>
      e == Failed(TestResults.FailedToRun + launch(SimCommand(command)).reason)
    ensures saveError.None? && launch(SimCommand(command)).Exited? && launch(SimCommand(command)).durationNs > TestResults.U64Max ==>
      e == Finished(Fail(TestResults.TooSlow), [])
    ensures e.Finished? && e.result.Success? <==>
      && saveError.None?
      && launch(SimCommand(command)).Exited?
      && launch(SimCommand(command)).durationNs <= TestResults.U64Max
      && launch(SimCommand(command)).success
      && Decode(launch(SimCommand(command)).stdout).Some?
      && ParseIntegerArray(Decode(launch(SimCommand(command)).stdout).value, TestResults.I32Min, TestResults.I32Max) == Some(SimGenerator(draws).answer)
    ensures e.Finished? && e.result.Success? ==>
      e.result.score == TestResults.Score(name, command, launch(SimCommand(command)).durationNs, "", None)
    ensures e.Finished? && e.result.Fail? ==> e.effects == []
    ensures e.Finished? && e.result.Success? ==>
      e.effects == [TestResults.StoreScore(e.result.score)] + (if publish then [TestResults.PublishCard(e.result.score)] else [])
  {
    if saveError.Some? then Failed(saveError.value)
    else
      match launch(SimCommand(command))
      case SpawnFailed(reason) => Failed(TestResults.FailedToRun + reason)
      case Exited(success, stdout, stderr, d) =>
        if d > TestResults.U64Max then Finished(Fail(TestResults.TooSlow), [])
        else
          var score := TestResults.Score(name, command, d, "", None);
          match Judged(SimGenerator(draws), score, success, stdout, stderr)
          case Err(m) => Panicked(m)
          case Ok(Err(m)) => Failed(m)
          case Ok(Ok(Fail(reason))) => Finished(Fail(reason), [])
          case Ok(Ok(Success(s))) =>
            Finished(Success(s), [TestResults.StoreScore(s)] + (if publish then [TestResults.PublishCard(s)] else []))
  }

  /** A candidate that exits 0 in time after printing the answers as a JSON
      array (any layout) succeeds, is stored, and is published on request. */
  lemma HonestSim(draws: seq<OddOneOut.CaseDraw>, name: string, command: string, publish: bool,
                  launch: string -> Invocation, pads: seq<string>, sepWs: string)
    requires Draws(draws)
    requires var g := SimGenerator(draws);
      |pads| == |g.answer| && AllJsonWs(sepWs) &&
      forall i :: 0 <= i < |g.answer| ==> AllJsonWs(pads[i]) && TestResults.I32Min <= g.answer[i] <= TestResults.I32Max
    requires var run := launch(SimCommand(command));
      run.Exited? && run.success && run.durationNs <= TestResults.U64Max &&
      Decode(run.stdout) == Some(ArrayText(PaddedIntegers(SimGenerator(draws).answer, pads), "," + sepWs))
    ensures var s := TestResults.Score(name, command, launch(SimCommand(command)).durationNs, "", None);
      RunSim(draws, name, command, publish, None, launch) ==
        Finished(Success(s), [TestResults.StoreScore(s)] + (if publish then [TestResults.PublishCard(s)] else []))
  {
    var g := SimGenerator(draws);
    IntegerArrayRoundTrip(g.answer, pads, sepWs, TestResults.I32Min, TestResults.I32Max);
  }
}

=== FILE: odd_one_out.dfy ===
/** The odd-one-out construction shared by challenge 23.3.1 (and its older
    stand-alone generator) and challenge 23.3.2: draw k values, push each
    twice, push the last one once more, shuffle. The value drawn last is the
    case's answer, and it is the only value that occurs an odd number of
    times. `regenerate` replaces the cases but appends to the answers. */
module OddOneOut {
  import Wrappers
  import opened Text
  import opened Json
  import opened TestResults

  /** The random choices behind one case: the drawn values (their number is
      the drawn size k) and the swap index of each shuffle step. */
  datatype CaseDraw = CaseDraw(values: seq<int>, swaps: seq<nat>)

  /** rand's Fisher–Yates shuffle of n elements takes one index per position
      i = n-1 down to 1, drawn from 0..=i; step k handles i = n-1-k. */
  predicate SwapsFit(swaps: seq<nat>, n: nat) {
    n >= 1 && |swaps| == n - 1 && forall k :: 0 <= k < |swaps| ==> swaps[k] <= n - 1 - k
  }

  /** Every value twice, in draw order. */
  function Doubled(vs: seq<int>): (r: seq<int>)
    ensures |r| == 2 * |vs|
    ensures forall i :: 0 <= i < |r| ==> r[i] == vs[i / 2]
  {
    seq(2 * |vs|, i requires 0 <= i < 2 * |vs| => vs[i / 2])
  }

  /** The case before the shuffle: every value twice, then the last again. */
  function Unshuffled(vs: seq<int>): (r: seq<int>)
    requires |vs| >= 1
    ensures |r| == 2 * |vs| + 1
  {
    Doubled(vs) + [vs[|vs| - 1]]
  }

  function Swap(s: seq<int>, i: nat, j: nat): (r: seq<int>)
    requires i < |s| && j < |s|
    ensures |r| == |s| && multiset(r) == multiset(s)
    ensures r[i] == s[j] && r[j] == s[i]
    ensures forall k :: 0 <= k < |s| && k != i && k != j ==> r[k] == s[k]
  {
    s[i := s[j]][j := s[i]]
  }

  /** The shuffle from step `k` on. */
  function ShuffleFrom(s: seq<int>, swaps: seq<nat>, k: nat): (r: seq<int>)
    requires SwapsFit(swaps, |s|) && k <= |swaps|
    ensures |r| == |s| && multiset(r) == multiset(s)
    decreases |swaps| - k
  {
    if k == |swaps| then s
    else ShuffleFrom(Swap(s, |s| - 1 - k, swaps[k]), swaps, k + 1)
  }

  /** `SliceRandom::shuffle`: a permutation of its input. */
  function Shuffle(s: seq<int>, swaps: seq<nat>): (r: seq<int>)
    requires SwapsFit(swaps, |s|)
    ensures |r| == |s| && multiset(r) == multiset(s)
  {
    ShuffleFrom(s, swaps, 0)
  }

  /** The draw describes a case: at least one value, and one swap index per
      shuffle step of the 2k+1 elements. */
  predicate WellFormed(d: CaseDraw) {
    |d.values| >= 1 && SwapsFit(d.swaps, 2 * |d.values| + 1)
  }

  /** The draw's size lies in minK..=maxK and its values in lo..=hi. */
  predicate InRange(d: CaseDraw, minK: nat, maxK: nat, lo: int, hi: int) {
    && minK <= |d.values| <= maxK
    && forall i :: 0 <= i < |d.values| ==> lo <= d.values[i] <= hi
  }

  function Case(d: CaseDraw): (c: seq<int>)
    requires WellFormed(d)
    ensures |c| == 2 * |d.values| + 1
    ensures multiset(c) == multiset(Unshuffled(d.values))
  {
    Shuffle(Unshuffled(d.values), d.swaps)
  }

  /** The answer recorded for a case: the value drawn last. */
  function Answer(d: CaseDraw): int
    requires WellFormed(d)
  {
    d.values[|d.values| - 1]
  }

  /** Doubling doubles every multiplicity. */
  lemma {:induction false} DoubledCount(vs: seq<int>, x: int)
    ensures multiset(Doubled(vs))[x] == 2 * multiset(vs)[x]
    decreases |vs|
  {
    if |vs| > 0 {
      var init := vs[..|vs| - 1];
      var v := vs[|vs| - 1];
      assert Doubled(vs) == Doubled(init) + [v, v];
      assert vs == init + [v];
      DoubledCount(init, x);
    }
  }

  /** In every case the answer occurs an odd number of times and every other
      value an even number of times. */
  lemma AnswerIsOddOneOut(d: CaseDraw, x: int)
    requires WellFormed(d)
    ensures multiset(Case(d))[x] % 2 == 1 <==> x == Answer(d)
  {
    var c := Case(d);
    UnshuffledCount(d.values, x);
    var m := multiset(d.values)[x];
    assert multiset(c)[x] == multiset(Unshuffled(d.values))[x];
    Parity(m);
  }

  lemma Parity(m: nat)
    ensures (2 * m) % 2 == 0 && (2 * m + 1) % 2 == 1
  {
  }

  /** Before the shuffle the last value has one extra occurrence. */
  lemma UnshuffledCount(vs: seq<int>, x: int)
    requires |vs| >= 1
    ensures multiset(Unshuffled(vs))[x] == 2 * multiset(vs)[x] + (if x == vs[|vs| - 1] then 1 else 0)
  {
    DoubledCount(vs, x);
    assert multiset(Unshuffled(vs)) == multiset(Doubled(vs)) + multiset{vs[|vs| - 1]};
  }

  /** Every element of a case is one of the drawn values. */
  lemma CaseDrawnFrom(d: CaseDraw, e: nat)
    requires WellFormed(d) && e < |Case(d)|
    ensures Case(d)[e] in d.values
  {
    var c := Case(d);
    var u := Unshuffled(d.values);
    assert c[e] in multiset(c);
    assert c[e] in multiset(u);
    var j :| 0 <= j < |u| && u[j] == c[e];
    if j < 2 * |d.values| {
      assert u[j] == d.values[j / 2];
    }
  }

  /** The shape a draw in range gives its case: length 2k+1 with k in
      minK..=maxK, every element in lo..=hi. */
  lemma CaseInRange(d: CaseDraw, minK: nat, maxK: nat, lo: int, hi: int)
    requires WellFormed(d) && InRange(d, minK, maxK, lo, hi)
    ensures 2 * minK + 1 <= |Case(d)| <= 2 * maxK + 1
    ensures forall e :: 0 <= e < |Case(d)| ==> lo <= Case(d)[e] <= hi
  {
    forall e | 0 <= e < |Case(d)| ensures lo <= Case(d)[e] <= hi {
      CaseDrawnFrom(d, e);
    }
  }

  /** A generator's state: how many cases it makes, the current cases, and
      the answers recorded so far. */
  datatype Generator = Generator(count: nat, testCases: seq<seq<int>>, answer: seq<int>)

  /** The cases the draws make, in order. */
  function Cases(draws: seq<CaseDraw>): (cs: seq<seq<int>>)
    requires forall i :: 0 <= i < |draws| ==> WellFormed(draws[i])
    ensures |cs| == |draws| && forall i :: 0 <= i < |draws| ==> cs[i] == Case(draws[i])
  {
    seq(|draws|, i requires 0 <= i < |draws| => Case(draws[i]))
  }

  /** The answers the draws make, in order. */
  function Answers(draws: seq<CaseDraw>): (xs: seq<int>)
    requires forall i :: 0 <= i < |draws| ==> WellFormed(draws[i])
    ensures |xs| == |draws| && forall i :: 0 <= i < |draws| ==> xs[i] == Answer(draws[i])
  {
    seq(|draws|, i requires 0 <= i < |draws| => Answer(draws[i]))
  }

  /** `regenerate`: the cases are replaced by `count` fresh ones, while the
      new answers are appended to the old ones. */
  function Regenerate(g: Generator, draws: seq<CaseDraw>): (r: Generator)
    requires |draws| == g.count
    requires forall i :: 0 <= i < |draws| ==> WellFormed(draws[i])
    ensures r.count == g.count && |r.testCases| == g.count
    ensures |r.answer| == |g.answer| + g.count && r.answer[..|g.answer|] == g.answer
    ensures forall i :: 0 <= i < g.count ==>
      r.testCases[i] == Case(draws[i]) && r.answer[|g.answer| + i] == Answer(draws[i])
  {
    var r := g.(testCases := Cases(draws), answer := g.answer + Answers(draws));
    assert r.answer[..|g.answer|] == g.answer;
    r
  }

  /** `new`: an empty generator, regenerated once. */
  function New(count: nat, draws: seq<CaseDraw>): (g: Generator)
    requires |draws| == count
    requires forall i :: 0 <= i < |draws| ==> WellFormed(draws[i])
    ensures g.count == count && |g.testCases| == count && |g.answer| == count
    ensures forall i :: 0 <= i < count ==> g.testCases[i] == Case(draws[i]) && g.answer[i] == Answer(draws[i])
  {
    Regenerate(Generator(count, [], []), draws)
  }

  /** After `new`, case i holds its answer an odd number of times and every
      other value an even number of times. */
  lemma NewOddOneOut(count: nat, draws: seq<CaseDraw>, i: nat, x: int)
    requires |draws| == count && i < count
    requires forall j :: 0 <= j < |draws| ==> WellFormed(draws[j])
    ensures multiset(New(count, draws).testCases[i])[x] % 2 == 1 <==> x == New(count, draws).answer[i]
  {
    AnswerIsOddOneOut(draws[i], x);
  }

  /** After `new`, case i has length 2k+1 for its drawn size k in
      minK..=maxK, and it
      and its answer hold values in lo..=hi. */
  lemma NewCaseShape(count: nat, draws: seq<CaseDraw>, minK: nat, maxK: nat, lo: int, hi: int, i: nat)
    requires |draws| == count && i < count
    requires forall j :: 0 <= j < |draws| ==> WellFormed(draws[j]) && InRange(draws[j], minK, maxK, lo, hi)
    ensures var c := New(count, draws).testCases[i];
      && |c| == 2 * |draws[i].values| + 1
      && 2 * minK + 1 <= |c| <= 2 * maxK + 1
      && (forall e :: 0 <= e < |c| ==> lo <= c[e] <= hi)
    ensures lo <= New(count, draws).answer[i] <= hi
  {
    var d := draws[i];
    assert WellFormed(d) && InRange(d, minK, maxK, lo, hi);
    CaseInRange(d, minK, maxK, lo, hi);
  }

  /** `check_answer`: the candidate's text parsed as a JSON array of
      integers in lo..=hi (the element type's range) and compared with the
      recorded answers as a whole; text that does not parse panics. */
  function CheckAnswer(g: Generator, data: string, lo: int, hi: int): (c: Checked)
    ensures c.Abort? <==> ParseIntegerArray(data, lo, hi).None?
    ensures c.Abort? ==> c.message == MalformedJson
    ensures c.Verdict? ==> (c.correct <==> ParseIntegerArray(data, lo, hi) == Wrappers.Some(g.answer))
  {
    match ParseIntegerArray(data, lo, hi)
    case None => Abort(MalformedJson)
    case Some(xs) => Verdict(xs == g.answer)
  }

  /** A list printed as a JSON array (any whitespace after elements and
      commas) is accepted exactly when it equals the recorded answers. */
  lemma CheckAnswerMeansEquality(g: Generator, xs: seq<int>, pads: seq<string>, sepWs: string, lo: int, hi: int)
    requires |pads| == |xs|
    requires forall i :: 0 <= i < |xs| ==> AllJsonWs(pads[i]) && lo <= xs[i] <= hi
    requires AllJsonWs(sepWs)
    ensures CheckAnswer(g, ArrayText(PaddedIntegers(xs, pads), "," + sepWs), lo, hi) == Verdict(xs == g.answer)
  {
    IntegerArrayRoundTrip(xs, pads, sepWs, lo, hi);
  }
}

=== FILE: process.dfy ===
/** The candidate process, simulated. A process the judge runs to
    completion (`Command::output`) is one `Invocation`; the long-lived child
    of the streaming protocol is the sequence of chunks its successive
    `read`s return, plus the elapsed time measured around the whole loop. */
module Process {
  import opened Wrappers
  import opened Utf8
  import opened Text

  /** One finished child (exit status, captured output, measured time), or
      the OS error that kept it from starting. */
  datatype Invocation =
    | Exited(success: bool, stdout: seq<byte>, stderr: seq<byte>, durationNs: nat)
    | SpawnFailed(reason: string)

  /** The size of the response buffer every streaming generator reads into. */
  const BufferSize: nat := 5

  /** The bytes one `read` into the 5-byte buffer delivers. */
  type Chunk = s: seq<byte> | |s| <= BufferSize

  /** The streaming child: the chunk each read returns, in order, and the
      elapsed time of the write/read loop. */
  datatype Child = Child(replies: seq<Chunk>, elapsedNs: nat)

  /** The chunk read for case `i`; a child that has closed its output
      delivers no bytes. */
  function Reply(child: Child, i: nat): (c: Chunk)
    ensures i >= |child.replies| ==> c == []
  {
    if i < |child.replies| then child.replies[i] else []
  }

  /** The zero-initialised buffer after a read of `c`. */
  function Buffer(c: Chunk): (b: seq<byte>)
    ensures |b| == BufferSize
    ensures b[..|c|] == c
    ensures forall i :: |c| <= i < BufferSize ==> b[i] == 0
  {
    c + seq(BufferSize - |c|, _ => 0)
  }

  /** The bytes a candidate prints with `println!("{}", v)`. */
  function PrintedLine(v: nat): (bs: seq<byte>)
    ensures |bs| == |NatToString(v)| + 1
  {
    var t := NatToString(v) + "\n";
    assert forall i :: 0 <= i < |t| ==> (t[i] as int) < 0x80 by {
      forall i | 0 <= i < |t| ensures (t[i] as int) < 0x80 {
        if i < |t| - 1 { assert IsDigit(NatToString(v)[i]); }
      }
    }
    AsciiBytes(t)
  }

  /** A printed line decodes to the number's digits and the newline. */
  lemma PrintedLineDecodes(v: nat)
    ensures Decode(PrintedLine(v)) == Some(NatToString(v) + "\n")
  {
    var t := NatToString(v) + "\n";
    forall i | 0 <= i < |t| ensures (t[i] as int) < 0x80 {
      if i < |t| - 1 { assert IsDigit(NatToString(v)[i]); }
    }
    AsciiRoundTrip(t);
  }
}

=== FILE: settings.dfy ===
/** The competition settings: each challenge's window and the language
    prize, the first score in a chosen language wins it. Times are the
    parsed start and end instants on any common scale, and the current time
    is a parameter. */
module Settings {
  import opened Wrappers
  import opened TestResults

  datatype Status = Active | Past | Closed

  /** `Status::default()`. */
  const DefaultStatus: Status := Closed

  /** One challenge of the settings file: its id, its window as written and
      as parsed, the prize language and the status computed at load. */
  datatype ChallengeConfig = ChallengeConfig(
    id: string, start: string, end: string, languagePrize: string, startAt: int, endAt: int, status: Status)

  /** `get_status`: before the start the challenge is closed, after the end
      it is past, and from start to end inclusive it is active. */
  function GetStatus(c: ChallengeConfig, now: int): (s: Status)
    ensures s == Closed <==> now < c.startAt
    ensures s == Past <==> c.startAt <= now && c.endAt < now
    ensures s == Active <==> c.startAt <= now <= c.endAt
  {
    if now < c.startAt then Closed
    else if now > c.endAt then Past
    else Active
  }

  /** The order in which a window's statuses follow one another. */
  function Phase(s: Status): nat {
    match s
    case Closed => 0
    case Active => 1
    case Past => 2
  }

  /** Time only moves a challenge forward, from closed to active to past,
      and a window that ends before it starts is never active. */
  lemma StatusAdvances(c: ChallengeConfig, now: int, later: int)
    requires now <= later
    ensures c.startAt <= c.endAt ==> Phase(GetStatus(c, now)) <= Phase(GetStatus(c, later))
    ensures c.endAt < c.startAt ==> GetStatus(c, now) != Active
  {
  }

  /** `is_prize_not_claimed`: no earlier score is in the prize language. */
  function IsPrizeNotClaimed(c: ChallengeConfig, past: seq<Score>): (b: bool)
    ensures b <==> forall i :: 0 <= i < |past| ==> past[i].language != Some(c.languagePrize)
    decreases |past|
  {
    if |past| == 0 then true
    else if past[0].language == Some(c.languagePrize) then false
    else
      var rest := IsPrizeNotClaimed(c, past[1..]);
      assert forall i :: 1 <= i < |past| ==> past[i] == past[1..][i - 1];
      rest
  }

  /** `ChallengeConfig::gets_a_prize`: only the prize language can win, and
      only while nobody has won it. */
  function GetsAPrize(c: ChallengeConfig, language: string, previous: seq<Score>): (b: bool)
    ensures b <==> language == c.languagePrize && forall i :: 0 <= i < |previous| ==> previous[i].language != Some(language)
  {
    if c.languagePrize == language then IsPrizeNotClaimed(c, previous) else false
  }

  /** The prize is won once: a first score in the prize language wins it,
      and once one is recorded no later score does. */
  lemma PrizeWonOnce(c: ChallengeConfig, previous: seq<Score>, winner: Score)
    requires forall i :: 0 <= i < |previous| ==> previous[i].language != Some(c.languagePrize)
    requires winner.language == Some(c.languagePrize)
    ensures GetsAPrize(c, c.languagePrize, previous)
    ensures forall more: seq<Score> :: !GetsAPrize(c, c.languagePrize, previous + [winner] + more)
  {
    forall more: seq<Score> ensures !GetsAPrize(c, c.languagePrize, previous + [winner] + more) {
      assert (previous + [winner] + more)[|previous|] == winner;
    }
  }

  /** The settings file: the challenges it configures. */
  datatype Settings = Settings(challenges: seq<ChallengeConfig>)

  const NotFound: string := "Challenge not found"

  /** `k` is the first challenge with id `id`. */
  predicate FirstWithId(cs: seq<ChallengeConfig>, id: string, k: int) {
    0 <= k < |cs| && cs[k].id == id && forall j :: 0 <= j < k ==> cs[j].id != id
  }

  /** `Settings::get_challenge`: the first challenge with the id, else the
      error "Challenge not found". */
  function GetChallenge(s: Settings, id: string): (r: Result<ChallengeConfig, string>)
    ensures r.Err? <==> forall j :: 0 <= j < |s.challenges| ==> s.challenges[j].id != id
    ensures r.Err? ==> r.error == NotFound
    ensures r.Ok? ==> exists k :: FirstWithId(s.challenges, id, k) && r.value == s.challenges[k]
    decreases |s.challenges|
  {
    if |s.challenges| == 0 then Err(NotFound)
    else if s.challenges[0].id == id then
      assert FirstWithId(s.challenges, id, 0);
      Ok(s.challenges[0])
    else
      var rest := Settings(s.challenges[1..]);
      match GetChallenge(rest, id)
      case Err(e) => Err(e)
      case Ok(c) =>
        var k :| FirstWithId(rest.challenges, id, k) && c == rest.challenges[k];
        assert FirstWithId(s.challenges, id, k + 1);
        Ok(c)
  }

  /** `Settings::gets_a_prize`: the prize rule of the first challenge with
      the id, or the lookup's error. */
  function SettingsGetsAPrize(s: Settings, id: string, language: string, previous: seq<Score>): (r: Result<bool, string>)
    ensures r.Err? <==> GetChallenge(s, id).Err?
    ensures r.Err? ==> r.error == NotFound
    ensures r.Ok? ==> exists k :: FirstWithId(s.challenges, id, k) && r.value == GetsAPrize(s.challenges[k], language, previous)
  {
    match GetChallenge(s, id)
    case Err(e) => Err(e)
    case Ok(c) => Ok(GetsAPrize(c, language, previous))
  }
}

=== FILE: streaming.dfy ===
/** The streaming protocol of the later challenges: one test case written
    to the child's stdin, one `read` of at most five bytes from its stdout,
    repeated for every case. A reply shorter than two bytes fails the
    submission; otherwise the numeric challenges decode the zero-padded
    buffer as UTF-8, strip NULs and whitespace and parse a `u32`, while the
    character challenge keeps only the first byte. */
module Streaming {
  import opened Wrappers
  import opened Text
  import opened Utf8
  import opened Json
  import opened Process
  import opened TestResults

  /** The three streaming challenges make 10 cases in test mode and
      100 000 otherwise. */
  const TestSamples: nat := 10
  const AttemptSamples: nat := 100_000

  /** The count their `new` picks. */
  function SampleCount(test: bool): (n: nat)
    ensures n == TestSamples || n == AttemptSamples
    ensures test <==> n == TestSamples
  {
    if test then TestSamples else AttemptSamples
  }

  /** How one reply of the numeric protocol is read. */
  datatype Frame = TooFew | NotUtf8 | NotNumber(kind: IntErrorKind) | Number(value: nat)

  /** The text a decoded buffer holds once NULs and then whitespace are trimmed. */
  function ReplyText(s: string): string {
    Trim(TrimMatches(s, '\0'))
  }

  /** One reply of the numeric protocol: too short, not UTF-8, not a `u32`,
      or the number it carries. */
  function ReadNumber(c: Chunk): (f: Frame)
    ensures f.TooFew? <==> |c| < 2
    ensures f.NotUtf8? <==> |c| >= 2 && Decode(Buffer(c)).None?
    ensures f.Number? ==> f.value <= U32Max
  {
    if |c| < 2 then TooFew
    else
      match Decode(Buffer(c))
      case None => NotUtf8
      case Some(s) =>
        match ParseUnsigned(ReplyText(s), U32Max)
        case Err(k) => NotNumber(k)
        case Ok(v) => Number(v)
  }

  /** The frame read for case `i`. */
  function FrameOf(child: Child, i: nat): Frame {
    ReadNumber(Reply(child, i))
  }

  /** How the run ends at a reply that is not a number: a Fail for a short
      reply or a parse error (carrying the parse error's text), and a Rust
      `Err` for a buffer that is not UTF-8. */
  function FrameStop(f: Frame): (o: RunOutcome)
    requires !f.Number?
    ensures f.NotUtf8? <==> o.Error?
    ensures f.TooFew? ==> o == Ran(Fail(TooFewCharacters))
    ensures f.NotNumber? ==> o == Ran(Fail(WrongResult + ": " + IntErrorMessage(f.kind)))
  {
    match f
    case TooFew => Ran(Fail(TooFewCharacters))
    case NotUtf8 => Error(InvalidUtf8)
    case NotNumber(k) => Ran(Fail(WrongResult + ": " + IntErrorMessage(k)))
  }

  /** The values a read loop collected, or the outcome it stopped with. */
  datatype Collected<T> = Collected(values: seq<T>) | Stopped(outcome: RunOutcome)

  /** The frames of the first `n` replies, in order. */
  function Frames(child: Child, n: nat): (fs: seq<Frame>)
    ensures |fs| == n && forall i :: 0 <= i < n ==> fs[i] == ReadNumber(Reply(child, i))
  {
    seq(n, i requires 0 <= i < n => ReadNumber(Reply(child, i)))
  }

  /** Frame `k` is the first that is not a number, and `o` is how the run
      ends there. */
  predicate StopsAt(fs: seq<Frame>, k: int, o: RunOutcome) {
    && 0 <= k < |fs|
    && !fs[k].Number?
    && (forall i :: 0 <= i < k ==> fs[i].Number?)
    && o == FrameStop(fs[k])
  }

  /** The numeric read loop over the frames of the cases. It collects every
      reply's number, re-rendered in decimal, exactly when every reply is a
      number; otherwise it stops with the outcome of the first reply that is
      not. */
  function CollectNumbers(fs: seq<Frame>): (r: Collected<string>)
    ensures r.Collected? <==> forall i :: 0 <= i < |fs| ==> fs[i].Number?
    ensures r.Collected? ==> |r.values| == |fs|
    ensures r.Collected? ==> forall i :: 0 <= i < |fs| ==> r.values[i] == NatToString(fs[i].value)
    ensures r.Stopped? ==> exists k :: StopsAt(fs, k, r.outcome)
    decreases |fs|
  {
    if |fs| == 0 then Collected([])
    else
      var init := fs[..|fs| - 1];
      var f := fs[|fs| - 1];
      match CollectNumbers(init)
      case Stopped(o) =>
        StopsInPrefix(fs, init, o);
        Stopped(o)
      case Collected(vs) =>
        if f.Number? then Collected(vs + [NatToString(f.value)])
        else
          StopsAtLast(fs, init);
          Stopped(FrameStop(f))
  }

  /** A stop among all but the last frame is a stop among all of them. */
  lemma StopsInPrefix(fs: seq<Frame>, init: seq<Frame>, o: RunOutcome)
    requires |fs| > 0 && init == fs[..|fs| - 1] && exists k :: StopsAt(init, k, o)
    ensures exists k :: StopsAt(fs, k, o)
  {
    var k :| StopsAt(init, k, o);
    assert StopsAt(fs, k, o);
  }

  /** The last frame is the first stop when every frame before it is a
      number. */
  lemma StopsAtLast(fs: seq<Frame>, init: seq<Frame>)
    requires |fs| > 0 && init == fs[..|fs| - 1] && !fs[|fs| - 1].Number?
    requires forall i :: 0 <= i < |init| ==> init[i].Number?
    ensures StopsAt(fs, |fs| - 1, FrameStop(fs[|fs| - 1]))
  {
    assert forall i :: 0 <= i < |fs| - 1 ==> fs[i] == init[i];
  }

  /** The character read loop over the first `n` cases: the first byte of
      every reply, as a Latin-1 character, exactly when every reply has at
      least two bytes. */
  function CollectFirstBytes(child: Child, n: nat): (r: Collected<char>)
    ensures r.Collected? <==> forall i :: 0 <= i < n ==> |Reply(child, i)| >= 2
    ensures r.Collected? ==> |r.values| == n
    ensures r.Collected? ==> forall i :: 0 <= i < n ==> r.values[i] == Reply(child, i)[0] as char
    ensures r.Stopped? ==> r.outcome == Ran(Fail(TooFewCharacters))
    decreases n
  {
    if n == 0 then Collected([])
    else
      match CollectFirstBytes(child, n - 1)
      case Stopped(o) => Stopped(o)
      case Collected(vs) =>
        var c := Reply(child, n - 1);
        if |c| >= 2 then Collected(vs + [c[0] as char])
        else Stopped(Ran(Fail(TooFewCharacters)))
  }

  function Pow10(k: nat): (p: nat)
    ensures p >= 1
  {
    if k == 0 then 1 else 10 * Pow10(k - 1)
  }

  /** A number below 10^k renders in at most k digits. */
  lemma {:induction false} RenderingLength(v: nat, k: nat)
    requires 1 <= k && v < Pow10(k)
    ensures |NatToString(v)| <= k
    decreases k
  {
    if v >= 10 {
      RenderingLength(v / 10, k - 1);
    }
  }

  /** The buffer after reading a printed line, as characters: the line,
      then NULs. */
  lemma PrintedBuffer(v: nat)
    requires |PrintedLine(v)| <= BufferSize
    ensures Decode(Buffer(PrintedLine(v))) ==
      Some(NatToString(v) + "\n" + seq(BufferSize - |PrintedLine(v)|, _ => '\0'))
  {
    var t := NatToString(v) + "\n";
    var c: Chunk := PrintedLine(v);
    var b := Buffer(c);
    DecodeAscii(b);
    var u := ByteChars(b);
    var z := seq(BufferSize - |c|, _ => '\0');
    forall i | 0 <= i < |t| ensures u[i] == t[i] {
      assert b[i] == c[i];
    }
    assert u == t + z;
  }

  lemma TrimStartKeeps(s: string, drop: char -> bool)
    requires |s| > 0 && !drop(s[0])
    ensures TrimStart(s, drop) == s
  {
  }

  /** Trimming a digit line padded with NULs leaves the digits. */
  lemma PaddedLineText(d: string, z: string)
    requires |d| > 0 && AllDigits(d)
    requires forall i :: 0 <= i < |z| ==> z[i] == '\0'
    ensures ReplyText(d + "\n" + z) == d
  {
    var t := d + "\n";
    assert IsDigit(d[0]) && IsDigit(d[|d| - 1]);
    assert (t + z)[0] == d[0];
    TrimStartKeeps(t + z, Matches('\0'));
    TrimEndPadding(t, z, Matches('\0'));
    assert TrimMatches(t + z, '\0') == t;
    TrimDigitLine(d);
  }

  /** A number of at most four digits, printed on its own line, fits the
      buffer in one read and is read back as itself. */
  lemma PrintedNumberReadsBack(v: nat)
    requires v < 10000
    ensures |PrintedLine(v)| <= BufferSize && ReadNumber(PrintedLine(v)) == Number(v)
  {
    RenderingLength(v, 4);
    var d := NatToString(v);
    var c: Chunk := PrintedLine(v);
    var z := seq(BufferSize - |c|, _ => '\0');
    PrintedBuffer(v);
    assert Decode(Buffer(c)) == Some(d + "\n" + z);
    PaddedLineText(d, z);
    assert UnsignedDigits(d) == d by {
      assert IsDigit(d[0]);
    }
    assert ParseUnsigned(d, U32Max) == Ok(v);
  }

  /** The numbers the frames carry. */
  function Values(fs: seq<Frame>): (vs: seq<int>)
    requires forall i :: 0 <= i < |fs| ==> fs[i].Number?
    ensures |vs| == |fs| && forall i :: 0 <= i < |fs| ==> vs[i] == fs[i].value
  {
    seq(|fs|, i requires 0 <= i < |fs| => fs[i].value)
  }

  /** The collected decimals, assembled as `"[" + join(", ") + "]"`, parse
      back as a JSON array of `usize` to the numbers read, and never as an
      array of strings unless it is empty. */
  lemma AssembledNumbers(fs: seq<Frame>, texts: seq<string>)
    requires forall i :: 0 <= i < |fs| ==> fs[i].Number? && fs[i].value <= U32Max
    requires |texts| == |fs| && forall i :: 0 <= i < |fs| ==> texts[i] == NatToString(fs[i].value)
    ensures ParseIntegerArray(ArrayText(texts, ", "), 0, U64Max) == Some(Values(fs))
    ensures |fs| > 0 ==> ParseStringArray(ArrayText(texts, ", ")) == None
  {
    var xs := Values(fs);
    var pads := seq(|fs|, _ => "");
    forall i | 0 <= i < |fs| ensures PaddedIntegers(xs, pads)[i] == texts[i] {
      assert IntToString(xs[i]) + "" == texts[i];
    }
    assert PaddedIntegers(xs, pads) == texts;
    assert "," + " " == ", ";
    IntegerArrayRoundTrip(xs, pads, " ", 0, U64Max);
    if |fs| > 0 {
      IntegersAreNotStrings(xs, pads, " ");
    }
  }
}

=== FILE: submission.dfy ===
/** A submission from start to finish: the program file named by the
    command is hashed, the challenge's generator judges the program, a
    success whose hash is already on the scoreboard under another name is
    reclassified as stolen, and the classification decides what is stored
    and published. The file digest, the generator and the stored scores
    are parameters. */
module Submission {
  import opened Wrappers
  import opened Text
  import opened TestResults
  import Config

  const LoadFailed: string := "Failed to load file: "

  /** The file `get_hash` digests: the text after the last space of the
      command, so the whole command when it has no space, and the empty
      text when it ends in a space. Splitting always yields a piece, so the
      "Failed to parse path" error cannot happen. */
  function HashedPath(command: string): (p: string)
    ensures ' ' !in p
    ensures |p| <= |command| && command[|command| - |p|..] == p
    ensures |p| < |command| ==> command[|command| - |p| - 1] == ' '
  {
    var parts := Split(command, ' ');
    JoinLast(parts, " ");
    assert |parts| == 1 ==> Join(parts, " ") == parts[0];
    parts[|parts| - 1]
  }

  /** A space-free ending that is the whole command or follows a space is
      the hashed path. */
  lemma HashedPathIs(command: string, p: string)
    requires ' ' !in p && |p| <= |command| && command[|command| - |p|..] == p
    requires |p| < |command| ==> command[|command| - |p| - 1] == ' '
    ensures HashedPath(command) == p
  {
    var q := HashedPath(command);
    if |q| < |p| {
      assert false;
    } else if |p| < |q| {
      assert false;
    }
  }

  /** `get_hash`: the digest of the hashed path; the digest's error comes
      back after "Failed to load file: ". */
  function GetHash(command: string, digest: string -> Result<string, string>): (r: Result<string, string>)
    ensures r.Ok? <==> digest(HashedPath(command)).Ok?
    ensures r.Ok? ==> r.value == digest(HashedPath(command)).value
    ensures r.Err? ==> r.error == LoadFailed + digest(HashedPath(command)).error
  {
    match digest(HashedPath(command))
    case Ok(h) => Ok(h)
    case Err(e) => Err(LoadFailed + e)
  }

  /** The score a generator starts from: the player, the command, no time
      yet, the program's hash and the language. */
  function Start(config: Config.WriteConfig, hash: string): (s: Score)
    ensures s.timeNs == 0 && s.hash == hash
    ensures s.name == config.name && s.command == config.command && s.language == config.language
  {
    Score(config.name, config.command, 0, hash, config.language)
  }

  /** A stored score the new one copies: the same program under another
      name. */
  predicate Copies(stored: Score, newer: Score) {
    stored.hash == newer.hash && stored.name != newer.name
  }

  /** `k` is the first stored score that `s` copies. */
  predicate FirstCopy(stored: seq<Score>, s: Score, k: int) {
    0 <= k < |stored| && Copies(stored[k], s) && forall j :: 0 <= j < k ==> !Copies(stored[j], s)
  }

  /** The first stored score the new one copies, in stored order. */
  function FirstCopied(stored: seq<Score>, s: Score): (r: Option<Score>)
    ensures r.None? <==> forall k :: 0 <= k < |stored| ==> !Copies(stored[k], s)
    ensures r.Some? ==> exists k :: FirstCopy(stored, s, k) && r.value == stored[k]
    decreases |stored|
  {
    if |stored| == 0 then None
    else if Copies(stored[0], s) then
      assert FirstCopy(stored, s, 0);
      Some(stored[0])
    else
      var r := FirstCopied(stored[1..], s);
      if r.Some? then
        var k :| FirstCopy(stored[1..], s, k) && r.value == stored[1..][k];
        assert forall j :: 0 <= j < k + 1 ==> !Copies(stored[j], s) by {
          forall j | 0 <= j < k + 1 ensures !Copies(stored[j], s) {
            if j > 0 {
              assert stored[j] == stored[1..][j - 1];
            }
          }
        }
        assert FirstCopy(stored, s, k + 1);
        r
      else
        assert forall k :: 0 <= k < |stored| ==> !Copies(stored[k], s) by {
          forall k | 0 <= k < |stored| ensures !Copies(stored[k], s) {
            if k > 0 {
              assert stored[k] == stored[1..][k - 1];
            }
          }
        }
        r
  }

  /** `check_for_plagiarism`: only a Success is looked at, and only then
      are the stored scores read (their error propagates); a Success whose
      program a stored score under another name already has becomes Stolen,
      naming the first such score. */
  function CheckForPlagiarism(result: TestResult, stored: Result<seq<Score>, string>): (r: Result<TestResult, string>)
    ensures !result.Success? ==> r == Ok(result)
    ensures result.Success? && stored.Err? ==> r == Err(stored.error)
    ensures result.Success? && stored.Ok? ==> r.Ok?
    ensures result.Success? && stored.Ok? ==>
      (r.value.Stolen? <==> exists k :: 0 <= k < |stored.value| && Copies(stored.value[k], result.score))
    ensures result.Success? && stored.Ok? && r.value.Stolen? ==> r.value.thief == result.score
    ensures result.Success? && stored.Ok? && r.value.Stolen? ==>
      exists k :: FirstCopy(stored.value, result.score, k) && r.value.victim == stored.value[k]
    ensures result.Success? && stored.Ok? && !r.value.Stolen? ==> r.value == result
  {
    if !result.Success? then Ok(result)
    else
      match stored
      case Err(e) => Err(e)
      case Ok(scores) =>
        match FirstCopied(scores, result.score)
        case None => Ok(result)
        case Some(victim) => Ok(Stolen(result.score, victim))
  }

  /** A resubmission under the same name is never a copy of itself. */
  lemma OwnProgramIsNoCopy(s: Score, earlier: seq<Score>)
    requires forall k :: 0 <= k < |earlier| ==> earlier[k].name == s.name
    ensures CheckForPlagiarism(Success(s), Ok(earlier)) == Ok(Success(s))
  {
  }

  /** What the judged classification leads to: a Fail does nothing; a
      Success is stored unless in test mode and published on request; a
      Stolen result is never stored, and the copy is announced unless in
      test mode. */
  function Dispatch(config: Config.WriteConfig, result: TestResult): (effects: seq<Effect>)
    ensures forall e :: e in effects ==> (e.StoreScore? <==> result.Success? && !config.testMode && e == StoreScore(result.score))
    ensures result.Success? ==> (StoreScore(result.score) in effects <==> !config.testMode)
    ensures (exists s :: PublishCard(s) in effects) <==> result.Success? && config.publish
    ensures forall e :: e in effects && e.PublishCard? ==> e.card == result.score
    ensures (exists t, v :: PublishCopy(t, v) in effects) <==> result.Stolen? && !config.testMode
    ensures forall e :: e in effects && e.PublishCopy? ==> e.thief == result.thief.name && e.victim == result.victim.name
    ensures result.Fail? ==> effects == []
  {
    match result
    case Fail(_) => []
    case Success(s) =>
      (if config.testMode then [] else [StoreScore(s)]) + (if config.publish then [PublishCard(s)] else [])
    case Stolen(thief, victim) =>
      if config.testMode then [] else [PublishCopy(thief.name, victim.name)]
  }

  /** A configuration parsed with `-t` leaves no trace: whatever the
      result, nothing is stored, published or announced. */
  lemma TestModeLeavesNoTrace(args: seq<string>, user: string, result: TestResult)
    requires Config.WriteConfigFromArgs(args, user).Parsed? && "-t" in args
    ensures Dispatch(Config.WriteConfigFromArgs(args, user).value, result) == []
  {
    Config.WriteConfigFlags(args, user);
  }

  /** The generator `make_generator` returns for the challenge: its `setup`
      outcome and its `run`. */
  datatype Judge = Judge(setupError: Option<string>, run: TestResult -> RunOutcome)

  /** How a submission ends: its effects, a Rust `Err` with its message, or
      a panic. */
  datatype Ending = Done(effects: seq<Effect>) | Failed(message: string) | Panicked(message: string)

  /** `run`: hash the program, judge it from a Success with no time, check
      for plagiarism, and dispatch. Without a generator for the challenge
      nothing happens. */
  function Submit(config: Config.WriteConfig, digest: string -> Result<string, string>, judge: Option<Judge>,
                  stored: Result<seq<Score>, string>): (e: Ending)
    ensures GetHash(config.command, digest).Err? ==> e == Failed(GetHash(config.command, digest).error)
    ensures GetHash(config.command, digest).Ok? && judge.None? ==> e == Done([])
    ensures e.Done? && e.effects != [] ==> judge.Some? && judge.value.setupError.None?
    ensures e.Done? && e.effects != [] ==>
      judge.value.run(Success(Start(config, GetHash(config.command, digest).value))).Ran?
    ensures e.Done? ==> forall x :: x in e.effects && x.StoreScore? ==>
      !config.testMode && stored.Ok? && forall k :: 0 <= k < |stored.value| ==> !Copies(stored.value[k], x.score)
    ensures GetHash(config.command, digest).Ok? && judge.Some? && judge.value.setupError.Some? ==>
      e == Failed(judge.value.setupError.value)
    ensures GetHash(config.command, digest).Ok? && judge.Some? && judge.value.setupError.None? ==>
      var o := judge.value.run(Success(Start(config, GetHash(config.command, digest).value)));
      && (o.Error? ==> e == Failed(o.message))
      && (o.Panic? ==> e == Panicked(o.message))
      && (o.Ran? && CheckForPlagiarism(o.result, stored).Err? ==> e == Failed(CheckForPlagiarism(o.result, stored).error))
      && (o.Ran? && CheckForPlagiarism(o.result, stored).Ok? ==>
            e == Done(Dispatch(config, CheckForPlagiarism(o.result, stored).value)))
  {
    match GetHash(config.command, digest)
    case Err(m) => Failed(m)
    case Ok(hash) =>
      match judge
      case None => Done([])
      case Some(j) =>
        if j.setupError.Some? then Failed(j.setupError.value)
        else
          match j.run(Success(Start(config, hash)))
          case Error(m) => Failed(m)
          case Panic(m) => Panicked(m)
          case Ran(result) =>
            match CheckForPlagiarism(result, stored)
            case Err(m) => Failed(m)
            case Ok(r) => Done(Dispatch(config, r))
  }

  /** A program judged a Success whose hash no stored score under another
      name has is, outside test mode, stored, and published exactly when
      asked for. */
  lemma OriginalSuccessStored(config: Config.WriteConfig, digest: string -> Result<string, string>, j: Judge,
                              scores: seq<Score>, s: Score)
    requires GetHash(config.command, digest).Ok? && j.setupError.None? && !config.testMode
    requires j.run(Success(Start(config, GetHash(config.command, digest).value))) == Ran(Success(s))
    requires forall k :: 0 <= k < |scores| ==> !Copies(scores[k], s)
    ensures var e := Submit(config, digest, Some(j), Ok(scores));
      && e.Done? && StoreScore(s) in e.effects
      && (PublishCard(s) in e.effects <==> config.publish)
  {
  }

  /** A program judged a Success whose hash a stored score under another
      name already has is, outside test mode, announced as a copy of the
      earliest such score and nothing else. */
  lemma CopiedSuccessAnnounced(config: Config.WriteConfig, digest: string -> Result<string, string>, j: Judge,
                               scores: seq<Score>, s: Score, k: nat)
    requires GetHash(config.command, digest).Ok? && j.setupError.None? && !config.testMode
    requires j.run(Success(Start(config, GetHash(config.command, digest).value))) == Ran(Success(s))
    requires FirstCopy(scores, s, k)
    ensures Submit(config, digest, Some(j), Ok(scores)) == Done([PublishCopy(s.name, scores[k].name)])
  {
  }
}

=== FILE: test_results.dfy ===
/** The judge's verdict types. `Score` is the scoreboard record a run is
    about, `TestResult` the three-way classification of a judged
    submission, `Checked` what a generator's `check_answer` does with the
    candidate's text (a boolean, or a panic from `expect` on malformed JSON),
    and `RunOutcome` what a generator's `run` ends in: a classification, a
    Rust `Err` that aborts the submission, or a panic. */
module TestResults {
  import opened Wrappers

  /** `u64::MAX`, the bound of the "way too slow" guard. */
  const U64Max: nat := 0xFFFF_FFFF_FFFF_FFFF

  /** `u32::MAX`, the range of a streamed answer. */
  const U32Max: nat := 0xFFFF_FFFF

  /** `i32::MIN` and `i32::MAX`, the range of the odd-one-out answers. */
  const I32Min: int := -0x8000_0000
  const I32Max: int := 0x7FFF_FFFF

  /** `u8::MAX`. */
  const U8Max: nat := 0xFF

  /** One scoreboard entry. `timeNs` is a float in the scoreboard library;
      here it is the whole number of nanoseconds it is set from. */
  datatype Score = Score(name: string, command: string, timeNs: nat, hash: string, language: Option<string>)

  datatype TestResult = Success(score: Score) | Fail(reason: string) | Stolen(thief: Score, victim: Score)

  datatype Checked = Verdict(correct: bool) | Abort(message: string)

  datatype RunOutcome = Ran(result: TestResult) | Error(message: string) | Panic(message: string)

  /** What a judged submission does to the outside world: a score stored
      in the scoreboard, a result card sent to the channel, or the message
      that names a copier and the player copied. */
  datatype Effect = StoreScore(score: Score) | PublishCard(card: Score) | PublishCopy(thief: string, victim: string)

  const TooSlow := "Your program is way too slow"
  const WrongResult := "Your program did not produce the correct result"
  const NonZeroExit := "Your program exited with a non-zero status code: "
  const TooFewCharacters := "Your program sent back too few characters. Did you forget the newline?"
  const NeedSuccess := "Please start with a success variant"
  const MalformedJson := "JSON was not well-formatted"
  const FailedToRun := "Failed to run your program: "
  /** Stands for the text of Rust's `FromUtf8Error`. */
  const InvalidUtf8 := "invalid utf-8 sequence"
  const BadBaseline := "Unable to get a good baseline, please try again"

  /** The end of every generator's `run` once the candidate's answers are in:
      an elapsed time beyond `u64::MAX` fails before the answer is looked at;
      otherwise the time is recorded and the verdict of `check_answer`
      decides between Success and a generic Fail, and a panic in
      `check_answer` propagates. */
  function Conclude(score: Score, elapsedNs: nat, check: Checked): (o: RunOutcome)
    ensures elapsedNs > U64Max ==> o == Ran(Fail(TooSlow))
    ensures o.Ran? && o.result.Success? <==> elapsedNs <= U64Max && check == Verdict(true)
    ensures o.Ran? && o.result.Success? ==> o.result.score == score.(timeNs := elapsedNs)
    ensures o.Panic? <==> elapsedNs <= U64Max && check.Abort?
    ensures !o.Error? && !(o.Ran? && o.result.Stolen?)
  {
    if elapsedNs > U64Max then Ran(Fail(TooSlow))
    else
      match check
      case Abort(m) => Panic(m)
      case Verdict(false) => Ran(Fail(WrongResult))
      case Verdict(true) => Ran(Success(score.(timeNs := elapsedNs)))
  }
}

=== FILE: text.dfy ===
/** The string primitives the judge leans on, written out with Rust's
    semantics: decimal rendering (`format!("{}", n)`), `str::parse` for
    unsigned integers, `split`, `trim`, `trim_matches`, and the
    `join(", ")`-style concatenation the generators perform by hand. */
module Text {
  import opened Wrappers

  predicate IsDigit(c: char) {
    '0' <= c <= '9'
  }

  function DigitValue(c: char): nat
    requires IsDigit(c)
  {
    (c as int) - ('0' as int)
  }

  function DigitChar(d: nat): (c: char)
    requires d < 10
    ensures IsDigit(c) && DigitValue(c) == d
  {
    (('0' as int) + d) as char
  }

  /** `char::is_ascii_alphanumeric`, the characters rand's `Alphanumeric`
      draws from. */
  predicate IsAlphanumeric(c: char) {
    ('a' <= c <= 'z') || ('A' <= c <= 'Z') || IsDigit(c)
  }

  predicate AllDigits(s: string) {
    forall i :: 0 <= i < |s| ==> IsDigit(s[i])
  }

  /** The value of a run of decimal digits, most significant digit first. */
  function DigitsValue(s: string): nat
    requires AllDigits(s)
    decreases |s|
  {
    if |s| == 0 then 0 else 10 * DigitsValue(s[..|s| - 1]) + DigitValue(s[|s| - 1])
  }

  /** A prefix of a digit run never has a larger value than the run. */
  lemma {:induction false} DigitsValuePrefix(s: string, k: nat)
    requires AllDigits(s) && k <= |s|
    ensures DigitsValue(s[..k]) <= DigitsValue(s)
    decreases |s| - k
  {
    if k < |s| {
      assert s[..|s| - 1][..k] == s[..k];
      DigitsValuePrefix(s[..|s| - 1], k);
    } else {
      assert s[..k] == s;
    }
  }

  /** Canonical decimal rendering of a natural number (Rust's `Display` for
      unsigned integers): at least one digit, no leading zero, and it reads
      back as the number it renders. */
  function NatToString(n: nat): (r: string)
    ensures |r| >= 1 && AllDigits(r)
    ensures DigitsValue(r) == n
    ensures |r| > 1 ==> r[0] != '0'
    decreases n
  {
    if n < 10 then
      [DigitChar(n)]
    else
      var p := NatToString(n / 10);
      var r := p + [DigitChar(n % 10)];
      assert r[..|r| - 1] == p;
      assert |p| == 1 ==> p[..0] == [] && DigitsValue(p) == DigitValue(p[0]);
      r
  }

  /** Rust's `Display` for signed integers: a minus sign, then the magnitude. */
  function IntToString(i: int): (r: string)
    ensures |r| >= 1
    ensures i < 0 <==> r[0] == '-'
    ensures i >= 0 ==> r == NatToString(i)
    ensures i < 0 ==> r[1..] == NatToString(-i)
  {
    if i < 0 then "-" + NatToString(-i) else NatToString(i)
  }

  /** `parts` concatenated with `sep` between neighbours and nowhere else. */
  function Join(parts: seq<string>, sep: string): string
    decreases |parts|
  {
    if |parts| == 0 then []
    else if |parts| == 1 then parts[0]
    else parts[0] + sep + Join(parts[1..], sep)
  }

  /** The last part ends the joined text, with the separator just before
      it when there is more than one part. */
  lemma {:induction false} JoinLast(parts: seq<string>, sep: string)
    requires |parts| >= 1
    ensures var j := Join(parts, sep); var l := parts[|parts| - 1];
      |l| <= |j| && j[|j| - |l|..] == l &&
      (|parts| > 1 ==> |l| + |sep| <= |j| && j[|j| - |l| - |sep|..|j| - |l|] == sep)
    decreases |parts|
  {
    if |parts| > 1 {
      var rest := parts[1..];
      JoinLast(rest, sep);
      var l := parts[|parts| - 1];
      assert rest[|rest| - 1] == l;
      var head := parts[0] + sep;
      var j := head + Join(rest, sep);
      assert Join(parts, sep) == j;
      var jr := Join(rest, sep);
      assert j[|j| - |l|..] == jr[|jr| - |l|..];
      if |rest| > 1 {
        assert j[|j| - |l| - |sep|..|j| - |l|] == jr[|jr| - |l| - |sep|..|jr| - |l|];
      } else {
        assert jr == l;
        assert j[|j| - |l| - |sep|..|j| - |l|] == sep;
      }
    }
  }

  /** Rust's `str::split` on a single character: always at least one piece,
      no piece contains the delimiter, and joining the pieces back with the
      delimiter restores the text. */
  function Split(s: string, d: char): (parts: seq<string>)
    ensures |parts| >= 1
    ensures forall i :: 0 <= i < |parts| ==> d !in parts[i]
    ensures Join(parts, [d]) == s
    decreases |s|
  {
    if |s| == 0 then
      [[]]
    else
      var rest := Split(s[1..], d);
      if s[0] == d then
        var parts := [[]] + rest;
        assert parts[1..] == rest;
        assert s == [d] + s[1..];
        parts
      else
        var parts := [[s[0]] + rest[0]] + rest[1..];
        assert |rest| > 1 ==> Join(rest, [d]) == rest[0] + [d] + Join(rest[1..], [d]);
        assert |parts| > 1 ==> parts[1..] == rest[1..];
        assert s == [s[0]] + s[1..];
        parts
  }

  /** A piece without the delimiter, the delimiter, then more text: the
      piece comes off first. */
  lemma {:induction false} SplitAfterPiece(p: string, d: char, rest: string)
    requires d !in p
    ensures Split(p + [d] + rest, d) == [p] + Split(rest, d)
    decreases |p|
  {
    var s := p + [d] + rest;
    if |p| == 0 {
      assert s[1..] == rest;
    } else {
      assert s[1..] == p[1..] + [d] + rest;
      SplitAfterPiece(p[1..], d, rest);
      assert [p[0]] + p[1..] == p;
    }
  }

  /** Text without the delimiter is a single piece. */
  lemma {:induction false} SplitWhole(p: string, d: char)
    requires d !in p
    ensures Split(p, d) == [p]
    decreases |p|
  {
    if |p| > 0 {
      SplitWhole(p[1..], d);
      assert [p[0]] + p[1..] == p;
    }
  }

  /** Splitting undoes joining when no piece contains the delimiter. */
  lemma {:induction false} SplitJoin(parts: seq<string>, d: char)
    requires |parts| >= 1
    requires forall i :: 0 <= i < |parts| ==> d !in parts[i]
    ensures Split(Join(parts, [d]), d) == parts
    decreases |parts|
  {
    if |parts| == 1 {
      SplitWhole(parts[0], d);
    } else {
      SplitJoin(parts[1..], d);
      SplitAfterPiece(parts[0], d, Join(parts[1..], [d]));
      assert [parts[0]] + parts[1..] == parts;
    }
  }

  /** `char::is_whitespace`: the Unicode White_Space property. */
  predicate IsWhitespace(c: char) {
    || ('\t' <= c <= '\r')
    || c == ' '
    || c == '\U{85}'
    || c == '\U{A0}'
    || c == '\U{1680}'
    || ('\U{2000}' <= c <= '\U{200A}')
    || c == '\U{2028}'
    || c == '\U{2029}'
    || c == '\U{202F}'
    || c == '\U{205F}'
    || c == '\U{3000}'
  }

  /** Drops the longest prefix whose characters all satisfy `drop`. */
  function TrimStart(s: string, drop: char -> bool): (r: string)
    ensures |r| <= |s|
    ensures forall i :: 0 <= i < |s| - |r| ==> drop(s[i])
    ensures |r| > 0 ==> !drop(r[0])
    decreases |s|
  {
    if |s| > 0 && drop(s[0]) then TrimStart(s[1..], drop) else s
  }

  /** Drops the longest suffix whose characters all satisfy `drop`. */
  function TrimEnd(s: string, drop: char -> bool): (r: string)
    ensures |r| <= |s|
    ensures forall i :: |r| <= i < |s| ==> drop(s[i])
    ensures |r| > 0 ==> !drop(r[|r| - 1])
    decreases |s|
  {
    if |s| > 0 && drop(s[|s| - 1]) then TrimEnd(s[..|s| - 1], drop) else s
  }

  /** What `TrimStart` keeps is a suffix of its input. */
  lemma {:induction false} TrimStartSuffix(s: string, drop: char -> bool)
    ensures var r := TrimStart(s, drop); r == s[|s| - |r|..]
    decreases |s|
  {
    if |s| > 0 && drop(s[0]) {
      TrimStartSuffix(s[1..], drop);
    }
  }

  /** What `TrimEnd` keeps is a prefix of its input. */
  lemma {:induction false} TrimEndPrefix(s: string, drop: char -> bool)
    ensures var r := TrimEnd(s, drop); r == s[..|r|]
    decreases |s|
  {
    if |s| > 0 && drop(s[|s| - 1]) {
      TrimEndPrefix(s[..|s| - 1], drop);
    }
  }

  /** The test "is the character `c`". */
  function Matches(c: char): char -> bool {
    x => x == c
  }

  /** Rust's `str::trim_matches(c)`. */
  function TrimMatches(s: string, c: char): string {
    TrimEnd(TrimStart(s, Matches(c)), Matches(c))
  }

  /** Rust's `str::trim`. */
  function Trim(s: string): string {
    TrimEnd(TrimStart(s, IsWhitespace), IsWhitespace)
  }

  /** Trimming a suffix stops at the first character that is kept. */
  lemma {:induction false} TrimEndPadding(s: string, z: string, drop: char -> bool)
    requires |s| > 0 && !drop(s[|s| - 1])
    requires forall i :: 0 <= i < |z| ==> drop(z[i])
    ensures TrimEnd(s + z, drop) == s
    decreases |z|
  {
    if |z| == 0 {
      assert s + z == s;
    } else {
      var t := s + z;
      assert t[..|t| - 1] == s + z[..|z| - 1];
      TrimEndPadding(s, z[..|z| - 1], drop);
    }
  }

  /** A digit line loses exactly its newline to `trim`. */
  lemma TrimDigitLine(d: string)
    requires |d| > 0 && AllDigits(d)
    ensures Trim(d + "\n") == d
  {
    assert IsDigit(d[0]) && IsDigit(d[|d| - 1]);
    assert TrimStart(d + "\n", IsWhitespace) == d + "\n";
    TrimEndPadding(d, "\n", IsWhitespace);
  }

  /** The error kinds of Rust's `ParseIntError` that an unsigned parse can raise. */
  datatype IntErrorKind = Empty | InvalidDigit | PosOverflow

  /** The `Display` text of each `ParseIntError` kind. */
  function IntErrorMessage(k: IntErrorKind): string {
    match k
    case Empty => "cannot parse integer from empty string"
    case InvalidDigit => "invalid digit found in string"
    case PosOverflow => "number too large to fit in target type"
  }

  /** The digits an unsigned parse reads: everything after one optional `+`. */
  function UnsignedDigits(s: string): string {
    if |s| > 0 && s[0] == '+' then s[1..] else s
  }

  /** Rust's `str::parse::<uN>()` for an unsigned type whose largest value is
      `max`: it succeeds exactly when, after one optional `+`, the text is a
      non-empty run of decimal digits (leading zeros allowed) whose value
      fits, and then yields that value. */
  function ParseUnsigned(s: string, max: nat): (r: Result<nat, IntErrorKind>)
    ensures r.Ok? <==>
      var t := UnsignedDigits(s); |t| > 0 && AllDigits(t) && DigitsValue(t) <= max
    ensures r.Ok? ==> r.value == DigitsValue(UnsignedDigits(s))
    ensures |s| == 0 ==> r == Err(Empty)
  {
    if |s| == 0 then Err(Empty)
    else if (s[0] == '+' || s[0] == '-') && |s| == 1 then Err(InvalidDigit)
    else
      var t := UnsignedDigits(s);
      assert t[..0] == [];
      ScanDigits(t, 0, max)
  }

  /** The left-to-right digit loop of the parse: `t[..i]` has been read and
      fits; an invalid digit or the first overflow stops it. */
  function ScanDigits(t: string, i: nat, max: nat): (r: Result<nat, IntErrorKind>)
    requires i <= |t| && AllDigits(t[..i]) && DigitsValue(t[..i]) <= max
    ensures r.Ok? <==> AllDigits(t) && DigitsValue(t) <= max
    ensures r.Ok? ==> r.value == DigitsValue(t)
    decreases |t| - i
  {
    if i == |t| then
      assert t[..i] == t;
      Ok(DigitsValue(t[..i]))
    else if !IsDigit(t[i]) then
      Err(InvalidDigit)
    else
      assert t[..i + 1][..i] == t[..i];
      var v := DigitsValue(t[..i + 1]);
      if v > max then
        assert AllDigits(t) ==> DigitsValue(t[..i + 1]) <= DigitsValue(t) by {
          if AllDigits(t) { DigitsValuePrefix(t, i + 1); }
        }
        Err(PosOverflow)
      else
        ScanDigits(t, i + 1, max)
  }
}

=== FILE: utf8.dfy ===
/** Bytes and Rust's `String::from_utf8`: a byte sequence is accepted
    exactly when it is a concatenation of well-formed UTF-8 sequences
    (table 3-7 of the Unicode Standard, chapter 3), and then decodes to the
    scalar values it encodes. */
module Utf8 {
  import opened Wrappers

  type byte = b: int | 0 <= b < 256

  predicate IsContinuation(b: byte) {
    0x80 <= b < 0xC0
  }

  /** Second-byte ranges of a three-byte sequence (no overlongs, no surrogates). */
  predicate ThreeByteSecond(b0: byte, b1: byte) {
    if b0 == 0xE0 then 0xA0 <= b1 <= 0xBF
    else if b0 == 0xED then 0x80 <= b1 <= 0x9F
    else IsContinuation(b1)
  }

  /** Second-byte ranges of a four-byte sequence (no overlongs, nothing past U+10FFFF). */
  predicate FourByteSecond(b0: byte, b1: byte) {
    if b0 == 0xF0 then 0x90 <= b1 <= 0xBF
    else if b0 == 0xF4 then 0x80 <= b1 <= 0x8F
    else IsContinuation(b1)
  }

  /** The length a lead byte announces. */
  function LeadLength(b0: byte): nat {
    if b0 < 0x80 then 1 else if b0 < 0xE0 then 2 else if b0 < 0xF0 then 3 else 4
  }

  /** The scalar value encoded at the head of `bs` and the number of bytes it
      takes, or None when the head is not a well-formed sequence. */
  function DecodeHead(bs: seq<byte>): (r: Option<(char, nat)>)
    requires |bs| > 0
    ensures r.Some? ==> 1 <= r.value.1 <= |bs| && r.value.1 <= 4
    ensures r.Some? ==> r.value.1 == LeadLength(bs[0])
    ensures r.Some? && r.value.1 == 1 <==> bs[0] < 0x80
    ensures bs[0] < 0x80 ==> r == Some((bs[0] as char, 1))
  {
    var b0: int := bs[0];
    if b0 < 0x80 then
      Some((b0 as char, 1))
    else if 0xC2 <= b0 <= 0xDF then
      if |bs| >= 2 && IsContinuation(bs[1]) then
        Some((((b0 - 0xC0) * 64 + (bs[1] as int - 0x80)) as char, 2))
      else None
    else if 0xE0 <= b0 <= 0xEF then
      if |bs| >= 3 && ThreeByteSecond(b0, bs[1]) && IsContinuation(bs[2]) then
        var cp := (b0 - 0xE0) * 4096 + (bs[1] as int - 0x80) * 64 + (bs[2] as int - 0x80);
        assert cp < 0xD800 || 0xE000 <= cp <= 0xFFFF;
        Some((cp as char, 3))
      else None
    else if 0xF0 <= b0 <= 0xF4 then
      if |bs| >= 4 && FourByteSecond(b0, bs[1]) && IsContinuation(bs[2]) && IsContinuation(bs[3]) then
        var cp := (b0 - 0xF0) * 262144 + (bs[1] as int - 0x80) * 4096 + (bs[2] as int - 0x80) * 64 + (bs[3] as int - 0x80);
        assert 0x10000 <= cp <= 0x10FFFF;
        Some((cp as char, 4))
      else None
    else
      None
  }

  /** `String::from_utf8`: the decoded text, or None for ill-formed input. */
  function Decode(bs: seq<byte>): Option<string>
    decreases |bs|
  {
    if |bs| == 0 then Some([])
    else
      match DecodeHead(bs)
      case None => None
      case Some((c, n)) =>
        match Decode(bs[n..])
        case None => None
        case Some(rest) => Some([c] + rest)
  }

  predicate IsAscii(bs: seq<byte>) {
    forall i :: 0 <= i < |bs| ==> bs[i] < 0x80
  }

  /** The bytes of an ASCII text, one per character. */
  function AsciiBytes(s: string): (bs: seq<byte>)
    requires forall i :: 0 <= i < |s| ==> (s[i] as int) < 0x80
    ensures |bs| == |s| && IsAscii(bs)
  {
    seq(|s|, i requires 0 <= i < |s| => s[i] as int)
  }

  /** Each byte read as the character with the same number (Rust's `b as char`). */
  function ByteChars(bs: seq<byte>): (s: string)
    ensures |s| == |bs|
    ensures forall i :: 0 <= i < |bs| ==> s[i] == bs[i] as char
  {
    seq(|bs|, i requires 0 <= i < |bs| => bs[i] as char)
  }

  /** ASCII bytes always decode, one character per byte. */
  lemma {:induction false} DecodeAscii(bs: seq<byte>)
    requires IsAscii(bs)
    ensures Decode(bs) == Some(ByteChars(bs))
    decreases |bs|
  {
    if |bs| > 0 {
      assert DecodeHead(bs) == Some((bs[0] as char, 1));
      DecodeAscii(bs[1..]);
      assert [bs[0] as char] + ByteChars(bs[1..]) == ByteChars(bs);
    }
  }

  /** Decoding the bytes of an ASCII text gives the text back. */
  lemma AsciiRoundTrip(s: string)
    requires forall i :: 0 <= i < |s| ==> (s[i] as int) < 0x80
    ensures Decode(AsciiBytes(s)) == Some(s)
  {
    var bs := AsciiBytes(s);
    DecodeAscii(bs);
    assert ByteChars(bs) == s;
  }

  /** A lone byte at or above 0x80 is never a well-formed sequence on its own. */
  lemma {:induction false} HighByteAtEndRejected(prefix: seq<byte>, b: byte)
    requires IsAscii(prefix) && b >= 0x80
    ensures Decode(prefix + [b]) == None
    decreases |prefix|
  {
    var bs := prefix + [b];
    if |prefix| > 0 {
      assert bs[1..] == prefix[1..] + [b];
      HighByteAtEndRejected(prefix[1..], b);
    }
  }

  /** The UTF-8 encoding of one scalar value, by table 3-6 of the Unicode
      Standard: one byte below U+0080, two below U+0800, three below
      U+10000, four above. The low bits go into continuation bytes six at a
      time. */
  function EncodeChar(c: char): (bs: seq<byte>)
    ensures 1 <= |bs| <= 4
  {
    var v := c as int;
    var v1 := v / 64;
    var v2 := v1 / 64;
    if v < 0x80 then [v]
    else if v < 0x800 then [0xC0 + v1, 0x80 + v % 64]
    else if v < 0x10000 then [0xE0 + v2, 0x80 + v1 % 64, 0x80 + v % 64]
    else [0xF0 + v2 / 64, 0x80 + v2 % 64, 0x80 + v1 % 64, 0x80 + v % 64]
  }

  /** Division by 64 undoes one six-bit digit. */
  lemma Digit(x: int, q: int, r: int)
    requires 0 <= r < 64 && x == q * 64 + r
    ensures x / 64 == q && x % 64 == r
  {
  }

  lemma EncodedHead2(c: char, rest: seq<byte>)
    requires 0x80 <= c as int < 0x800
    ensures DecodeHead(EncodeChar(c) + rest) == Some((c, 2))
  {
    var v := c as int;
    var bs := EncodeChar(c) + rest;
    var b0: int, b1: int := bs[0], bs[1];
    assert b0 == 0xC0 + v / 64 && b1 == 0x80 + v % 64;
    assert (b0 - 0xC0) * 64 + (b1 - 0x80) == v;
  }

  lemma EncodedHead3(c: char, rest: seq<byte>)
    requires 0x800 <= c as int < 0x10000
    ensures DecodeHead(EncodeChar(c) + rest) == Some((c, 3))
  {
    var v := c as int;
    var v1 := v / 64;
    var v2 := v1 / 64;
    var bs := EncodeChar(c) + rest;
    var b0: int, b1: int, b2: int := bs[0], bs[1], bs[2];
    assert b0 == 0xE0 + v2 && b1 == 0x80 + v1 % 64 && b2 == 0x80 + v % 64;
    assert v1 == v2 * 64 + v1 % 64;
    assert ThreeByteSecond(bs[0], bs[1]);
    assert (b0 - 0xE0) * 4096 + (b1 - 0x80) * 64 + (b2 - 0x80) == v;
  }

  lemma EncodedHead4(c: char, rest: seq<byte>)
    requires 0x10000 <= c as int
    ensures DecodeHead(EncodeChar(c) + rest) == Some((c, 4))
  {
    var v := c as int;
    var v1 := v / 64;
    var v2 := v1 / 64;
    var bs := EncodeChar(c) + rest;
    var b0: int, b1: int, b2: int, b3: int := bs[0], bs[1], bs[2], bs[3];
    assert b0 == 0xF0 + v2 / 64 && b1 == 0x80 + v2 % 64 && b2 == 0x80 + v1 % 64 && b3 == 0x80 + v % 64;
    assert v1 == v2 * 64 + v1 % 64 && v2 == (v2 / 64) * 64 + v2 % 64;
    assert FourByteSecond(bs[0], bs[1]);
    assert (b0 - 0xF0) * 262144 + (b1 - 0x80) * 4096 + (b2 - 0x80) * 64 + (b3 - 0x80) == v;
  }

  /** The decoder reads an encoded scalar value back, consuming exactly its
      encoding, whatever follows. */
  lemma EncodedHead(c: char, rest: seq<byte>)
    ensures DecodeHead(EncodeChar(c) + rest) == Some((c, |EncodeChar(c)|))
  {
    var v := c as int;
    if v < 0x80 {
    } else if v < 0x800 {
      EncodedHead2(c, rest);
    } else if v < 0x10000 {
      EncodedHead3(c, rest);
    } else {
      EncodedHead4(c, rest);
    }
  }

  lemma DecodedHead2(bs: seq<byte>)
    requires |bs| >= 2 && 0xC2 <= bs[0] <= 0xDF && IsContinuation(bs[1])
    ensures DecodeHead(bs).Some? && bs[..2] == EncodeChar(DecodeHead(bs).value.0)
  {
    var b0: int, b1: int := bs[0], bs[1];
    var v := (b0 - 0xC0) * 64 + (b1 - 0x80);
    Digit(v, b0 - 0xC0, b1 - 0x80);
    assert DecodeHead(bs) == Some((v as char, 2));
  }

  lemma DecodedHead3(bs: seq<byte>)
    requires |bs| >= 3 && 0xE0 <= bs[0] <= 0xEF && ThreeByteSecond(bs[0], bs[1]) && IsContinuation(bs[2])
    ensures DecodeHead(bs).Some? && bs[..3] == EncodeChar(DecodeHead(bs).value.0)
  {
    var b0: int, b1: int, b2: int := bs[0], bs[1], bs[2];
    var v1 := (b0 - 0xE0) * 64 + (b1 - 0x80);
    var v := v1 * 64 + (b2 - 0x80);
    Digit(v, v1, b2 - 0x80);
    Digit(v1, b0 - 0xE0, b1 - 0x80);
    assert DecodeHead(bs) == Some((v as char, 3));
  }

  lemma DecodedHead4(bs: seq<byte>)
    requires |bs| >= 4 && 0xF0 <= bs[0] <= 0xF4 && FourByteSecond(bs[0], bs[1])
    requires IsContinuation(bs[2]) && IsContinuation(bs[3])
    ensures DecodeHead(bs).Some? && bs[..4] == EncodeChar(DecodeHead(bs).value.0)
  {
    var b0: int, b1: int, b2: int, b3: int := bs[0], bs[1], bs[2], bs[3];
    var v2 := (b0 - 0xF0) * 64 + (b1 - 0x80);
    var v1 := v2 * 64 + (b2 - 0x80);
    var v := v1 * 64 + (b3 - 0x80);
    Digit(v, v1, b3 - 0x80);
    Digit(v1, v2, b2 - 0x80);
    Digit(v2, b0 - 0xF0, b1 - 0x80);
    assert DecodeHead(bs) == Some((v as char, 4));
  }

  /** Conversely, what the decoder accepts at the head is the encoding of
      the scalar value it returns. */
  lemma DecodedHead(bs: seq<byte>)
    requires |bs| > 0 && DecodeHead(bs).Some?
    ensures var (c, n) := DecodeHead(bs).value; bs[..n] == EncodeChar(c)
  {
    var b0: int := bs[0];
    if b0 < 0x80 {
    } else if b0 <= 0xDF {
      DecodedHead2(bs);
    } else if b0 <= 0xEF {
      DecodedHead3(bs);
    } else {
      DecodedHead4(bs);
    }
  }

  /** The UTF-8 encoding of a text (Rust's `String::into_bytes`). */
  function Encode(s: string): (bs: seq<byte>)
    ensures |s| <= |bs| <= 4 * |s|
    decreases |s|
  {
    if |s| == 0 then [] else EncodeChar(s[0]) + Encode(s[1..])
  }

  /** Every text survives encoding and decoding. */
  lemma {:induction false} EncodeRoundTrip(s: string)
    ensures Decode(Encode(s)) == Some(s)
    decreases |s|
  {
    if |s| > 0 {
      var e := EncodeChar(s[0]);
      var bs := Encode(s);
      EncodedHead(s[0], Encode(s[1..]));
      assert bs[|e|..] == Encode(s[1..]);
      EncodeRoundTrip(s[1..]);
      assert [s[0]] + s[1..] == s;
    }
  }
}

=== FILE: wrappers.dfy ===
/** Failure-compatible carriers used throughout the model: `Option` for
    Rust's `Option`, `Result` for Rust's `Result<T, Box<dyn Error>>`. */
module Wrappers {

  datatype Option<+T> = None | Some(value: T) {

    /** Rust's `unwrap_or`. */
    function GetOr(default: T): T {
      match this
      case Some(v) => v
      case None => default
    }
  }

  datatype Result<+R, +E> = Ok(value: R) | Err(error: E)
}
